=== FILE: README.md ===
# PDF translation and reflow: a verified model

This project models the core of a PDF translator. The translator reads a PDF's
text blocks, sends them to a translation service, and draws the translations back into
the blocks' boxes. The two reflowing renderers act when the wrapped translation
is taller than its box: they wrap it again at a smaller size until it fits or the
size reaches a floor (in `ReflowRenderer`, for at most `max_iter` rounds), so it
may still overflow. `convert_pdf` does not reflow: it draws each piece at size 12.
The model covers four parts:

- **`ReflowRenderer`** (`src/pdf2zh/layout.py`):
  - splits a translation into paragraphs at blank lines;
  - wraps each paragraph greedily to the box width;
  - breaks a word that is too long at its syllables (taken from a hyphenation dictionary) or else at its characters;
  - shrinks the font by 10% per round, for at most `max_iter` rounds;
  - draws the lines on baselines one ascender below the top of the box, one line height apart.

  The class `Layout.ReflowRenderer` keeps the renderer's settings. Each of its methods runs the source's loops and is proved equal to a specification function. The lemmas are proved about those functions.
- **The manual renderer** (`src/pdf2zh/manual_pdf.py`):
  - `wrap_text`;
  - the `while True` shrinking loop of `reflow`, which scales the size by `max_height / total_h` until the text fits or the size reaches the floor;
  - the per-line placement of `render_manual_page`;
  - three small helpers of `build_pdf_manual`: the test for falling back to the second text extractor, the y-flip of a crop box, and the de-hyphenation regular expression.

  The loop of `reflow` is proved to terminate, in exact arithmetic, with no assumption on the font. Every further round has strictly more lines than the previous one, and no wrapping has more lines than the text has characters.
- **`CachedTranslator`** (`src/pdf2zh/cache.py`): the cache table is a `map` field that `translate` updates in place. The wrapped translator is a function value. A ghost log records every text sent to it.
- **`convert_pdf`** (`src/pdf2zh/core.py`), page by page:
  - collects the text blocks and their text;
  - joins the texts with the block delimiter and translates the joined text in one call;
  - splits the translation back into pieces;
  - re-inserts the images whose reference is an integer;
  - places the pieces in the text blocks' boxes, pairing them as `zip` does.

  The language-name table of `translate_text` and its prompt are modelled as well.

Text is `seq<char>`. Python's `str.split()`, `strip()`, `split(sep)`, `join`, `replace` and
`rstrip` are written out in module `PyStr`, using the whitespace characters of `str.isspace`. Sizes and coordinates are `real`. The font's
`text_length` is a parameter `measure` of type `(string, real) -> real`. The hyphenation dictionary is a parameter `Option<string -> string>`, where `None` stands for
pyphen not being installed or an empty language name. The translation service is a function
parameter.

Some behaviours of the source are captured as proved lemmas:

- `Layout.HyphenatedLineOverflows`: with no dictionary, a word split by characters gets a hyphen appended to a fragment that was measured without it, so a line of `_wrap_paragraph` can be wider than the box.
- `Layout.HyphenOnlyWordRaises`: with a dictionary, a word made only of `-` in a box narrower than a hyphen yields no parts, and `parts[-1]` raises `IndexError`. With no dictionary this cannot happen (`Layout.ParagraphLinesFacts`).
- `Core.DelimiterFreeNotEnough`: pieces that do not contain the delimiter can still fail to come back from the join and split. The exact condition is `PyStr.Separable` (`Core.DelimiterRoundTrip`).
- `Cache.CachedTranslator.Translate`: when the wrapped translator returns an empty list, `[0]` raises. The model returns `None` there and stores nothing for the failing text. Entries stored for earlier texts of the same call remain, and what was sent is recorded.

## Model

| member | source | states |
|---|---|---|
| PyStr.Strip | src/pdf2zh/layout.py:39 | `strip()` leaves no whitespace at either end (with TrimStart/TrimEnd: it removes only whitespace, from the ends only) |
| PyStr.TrimStart | src/pdf2zh/layout.py:39 | the result is a suffix of the input, does not start with whitespace, and everything removed is whitespace |
| PyStr.TrimEnd | src/pdf2zh/layout.py:39 | the result is a prefix of the input, does not end with whitespace, and everything removed is whitespace |
| PyStr.Words | src/pdf2zh/manual_pdf.py:16 | `split()` yields non-empty words without whitespace |
| PyStr.WordsOfRun | src/pdf2zh/manual_pdf.py:16 | `split()` never cuts inside a run: a non-empty text without whitespace is exactly one word |
| PyStr.WordsKeepText | src/pdf2zh/manual_pdf.py:16 | the words of `split()` run together are the text with its whitespace deleted |
| PyStr.WordsStrip | src/pdf2zh/manual_pdf.py:85 | stripping does not change the words; a text strips to empty exactly when it has no words |
| PyStr.ReplaceChar | src/pdf2zh/layout.py:39 | `replace("\n", " ")` keeps the length and changes exactly the newlines |
| PyStr.WordsNewlineToSpace | src/pdf2zh/layout.py:39 | turning newlines into spaces does not change the words |
| PyStr.RStrip | src/pdf2zh/layout.py:69 | `rstrip('-')` gives a prefix with no final `-`, and removes only `-` |
| PyStr.Find | src/pdf2zh/core.py:78 | the first occurrence of the separator: it occurs there and nowhere earlier; `None` exactly when it does not occur |
| PyStr.SplitOn | src/pdf2zh/core.py:78 | `split(sep)` yields at least one piece |
| PyStr.SplitOnPieces | src/pdf2zh/core.py:78 | no piece of `split(sep)` contains the separator |
| PyStr.JoinSplit | src/pdf2zh/core.py:75-78 | joining the pieces of `split(sep)` with `sep` gives the text back |
| PyStr.SplitJoin | src/pdf2zh/core.py:75-78 | splitting a join gives the list back if and only if the list is `Separable` (no separator appears even across a piece and the separator after it) |
| Page.Rect.Width | src/pdf2zh/layout.py:192 | a box's width is never negative, and is `x1 - x0` for a well-ordered box |
| Page.Rect.Height | src/pdf2zh/layout.py:193 | a box's height is never negative, and is `y1 - y0` for a well-ordered box |
| Page.InitialSize | src/pdf2zh/layout.py:186 | the starting size is positive: the block's size when it is given and positive, 12 otherwise |
| Page.Zip | src/pdf2zh/layout.py:175 | `zip` has the shorter length and pairs equal positions |
| Measure.Max | src/pdf2zh/manual_pdf.py:55 | `max` is at least both arguments and is one of them |
| Measure.CharSplitFacts | src/pdf2zh/manual_pdf.py:27-35 | the character split of a word: the pieces run together give the word; every piece is non-empty and fits the width or is one character |
| Measure.SplitByChars | src/pdf2zh/manual_pdf.py:27-35 | the character-split loop computes `CharSplit` |
| Layout.MergedShape | src/pdf2zh/layout.py:39-41 | a non-empty merged piece is a paragraph: one line, stripped |
| Layout.MergedWords | src/pdf2zh/layout.py:39 | merging a piece's lines keeps its words |
| Layout.KeepParagraphsShape | src/pdf2zh/layout.py:37-41 | every kept paragraph is non-empty, on one line and stripped |
| Layout.KeepParagraphsWords | src/pdf2zh/layout.py:37-41 | the kept paragraphs hold the words of the raw pieces, in order |
| Layout.ParagraphsFacts | src/pdf2zh/layout.py:29-42 | `_split_paragraphs` yields stripped one-line paragraphs that between them hold exactly the words of the text, in order |
| Layout.ParagraphHasWords | src/pdf2zh/layout.py:119-124 | a paragraph has a word, so the blank-line branch of `_wrap_text` is never taken |
| Layout.Syllables | src/pdf2zh/layout.py:57-60 | the syllables are never an empty list |
| Layout.HyphenateNoDictionary | src/pdf2zh/layout.py:55-82 | with no dictionary a non-empty word gives at least one part, and a word without `-` is given back exactly by its parts |
| Layout.NoDictionarySplits | src/pdf2zh/layout.py:60-81 | with no dictionary, a word that does not fit with a hyphen is split by characters, the last fragment stripped of `-` |
| Layout.HyphenPartsLetters | src/pdf2zh/layout.py:55-82 | `_hyphenate` loses and adds no letter: the parts hold the letters of the dictionary's output, and so of the word for a dictionary that only inserts hyphens |
| Layout.HyphenPartsNoSpace | src/pdf2zh/layout.py:55-82 | no part of a word without whitespace holds whitespace |
| Layout.HyphenedShape | src/pdf2zh/layout.py:103-104 | each part but the last becomes one line, the part with `-` appended |
| Layout.HyphenedLetters | src/pdf2zh/layout.py:103-104 | appending hyphens keeps the parts' letters |
| Layout.ParaStepFacts | src/pdf2zh/layout.py:95-105 | one word's round keeps the lines shaped and adds the word's letters; with no dictionary it never raises |
| Layout.HyphenStepFacts | src/pdf2zh/layout.py:99-105 | the round of a word that does not fit keeps the lines shaped and adds the word's letters |
| Layout.ParaWordsFacts | src/pdf2zh/layout.py:92-105 | after any prefix of the words, the lines are shaped and hold those words' letters; with no dictionary nothing has raised |
| Layout.FinishShaped | src/pdf2zh/layout.py:106-107 | emitting the open line keeps the lines shaped and their letters |
| Layout.ParagraphLinesFacts | src/pdf2zh/layout.py:84-108 | `_wrap_paragraph` never raises with no dictionary; its lines are non-empty, a line with whitespace fits the width, and the lines hold the words' letters in order |
| Layout.HyphenatedLineOverflows | src/pdf2zh/layout.py:102-104 | at one unit per character in a box one unit wide, the word "ab" gives the lines "a-" and "b", and "a-" does not fit |
| Layout.WordsAb | src/pdf2zh/layout.py:94-105 | the state `_wrap_paragraph` reaches on "ab" in that box |
| Layout.FirstStepSplits | src/pdf2zh/layout.py:98-105 | the first word, too wide, becomes its hyphenated parts with the last one left open |
| Layout.HyphenOnlyWordRaises | src/pdf2zh/layout.py:102-105 | with a dictionary that only inserts hyphens, the word "-" in a box half a unit wide makes `_wrap_paragraph` raise |
| Layout.PartsOfHyphen | src/pdf2zh/layout.py:57-82 | the word "-" gives no part at all in a box narrower than a hyphen |
| Layout.SplitHyphen | src/pdf2zh/layout.py:58 | `"-".split("-")` is two empty syllables |
| Layout.FirstStepRaises | src/pdf2zh/layout.py:102-105 | a first word that does not fit and has no part raises |
| Layout.ParagraphsLinesFacts | src/pdf2zh/layout.py:118-127 | the paragraphs' lines are shaped and hold the letters of all their words; with no dictionary nothing raises |
| Layout.ParagraphBlockFacts | src/pdf2zh/layout.py:119-126 | one more paragraph's lines keep the lines shaped and add that paragraph's letters |
| Layout.TextLinesFacts | src/pdf2zh/layout.py:110-127 | `_wrap_text` never raises with no dictionary, never emits an empty line, keeps lines with whitespace within the width, and its lines hold the letters of the text in order |
| Layout.TextLinesNoDictionary | src/pdf2zh/layout.py:110-127 | with no dictionary, `_wrap_text` never raises |
| Layout.FitRoundsStep | src/pdf2zh/layout.py:142-150 | one round of `reflow`: raise, stop when the lines fit or the size is at the floor, or go on at the next size |
| Layout.ShrunkBelow | src/pdf2zh/layout.py:150 | a size shrunk by 10% per round stays between zero and where it started |
| Layout.ShrunkMonotone | src/pdf2zh/layout.py:150 | shrinking by 10% per round keeps the order of sizes |
| Layout.RoundNoDictionary | src/pdf2zh/layout.py:142-150 | with no dictionary a round settles on its size or moves on to the next one |
| Layout.FitRoundsNoDictionary | src/pdf2zh/layout.py:141-150 | with no dictionary the loop of `reflow` never raises |
| Layout.RoundCases | src/pdf2zh/layout.py:142-150 | a round raises, settles, or, only above the floor, moves on to `max(fs * 0.9, min_fontsize)` |
| Layout.FitRoundsBounds | src/pdf2zh/layout.py:141-150 | the settled size is positive and at most the start; when smaller it is at least the floor; and it is at least the start shrunk by 10% per round |
| Layout.ReflowedFacts | src/pdf2zh/layout.py:129-153 | `reflow` never raises with no dictionary; its size is bounded as above; its lines are the text wrapped at that size |
| Layout.ReflowedNoDictionary | src/pdf2zh/layout.py:129-153 | with no dictionary, `reflow` never raises |
| Layout.ReflowedLines | src/pdf2zh/layout.py:152-153 | the lines returned are `_wrap_text` at the returned size |
| Layout.ReflowedKeepsFit | src/pdf2zh/layout.py:141-153 | text that fits at the initial size keeps that size and those lines, for any `max_iter` (with none left, no round is run and the initial size is returned) |
| Layout.BaseHeight | src/pdf2zh/layout.py:195-203 | the line height is `font.height(fs)` when the font has one; otherwise `(ascent - descent) * fs / 1000` when it has both; otherwise `fs` |
| Layout.Ascender | src/pdf2zh/layout.py:207-212 | the ascender is `ascent * fs / 1000` when the font has an ascent, otherwise `0.8 * fs` |
| Layout.BaselineStep | src/pdf2zh/layout.py:220 | the first baseline is `baseline0`, and consecutive baselines are exactly `line_h` apart |
| Layout.BaselineOpsTexts | src/pdf2zh/layout.py:219-227 | one `insert_text` per line, and the texts drawn are the lines |
| Layout.BaselineOpsAt | src/pdf2zh/layout.py:219-227 | line `i` is drawn by call `i`, at `x0`, on baseline `baseline0 + i * line_h`, at the fitted size |
| Layout.BaselineOpsPlacement | src/pdf2zh/layout.py:214-227 | the lines are drawn in order at one `x` and size, the first on `baseline0` and each next one `line_h` lower |
| Layout.PlacedLinesTexts | src/pdf2zh/layout.py:216-227 | the placed lines draw exactly the reflowed lines |
| Layout.BlankHasNoLetters | src/pdf2zh/layout.py:183-184 | a skipped blank translation has no letters to lose |
| Layout.BlockDrawingFacts | src/pdf2zh/layout.py:176-227 | in debug mode the box is framed first; with no dictionary nothing raises; otherwise the drawn texts hold the translation's letters in order |
| Layout.ReflowedBlockLetters | src/pdf2zh/layout.py:187-227 | a reflowed block draws its frame and then lines holding the translation's letters |
| Layout.PageDrawingFacts | src/pdf2zh/layout.py:175-227 | `render_page` never raises with no dictionary, and the drawn texts hold the letters of the paired translations in order |
| Layout.ParaWordsStaysNone | src/pdf2zh/layout.py:94-105 | once a word's round raises, the paragraph raises |
| Layout.ParagraphsLinesStaysNone | src/pdf2zh/layout.py:119-126 | once a paragraph raises, `_wrap_text` raises |
| Layout.PageDrawingStaysRaised | src/pdf2zh/layout.py:175-194 | once a block raises, `render_page` draws nothing more |
| Layout.ReflowRenderer.constructor | src/pdf2zh/layout.py:15-27 | the defaults 1.2, 4.0, 10, off and "en_US"; no dictionary when the language name is empty |
| Layout.ReflowRenderer.SplitParagraphs | src/pdf2zh/layout.py:29-42 | the loop computes `Paragraphs(text)` (see `ParagraphsFacts`) |
| Layout.ReflowRenderer.KeepMerged | src/pdf2zh/layout.py:37-41 | the loop over the raw pieces keeps the non-empty merged ones, in order |
| Layout.ReflowRenderer.Hyphenate | src/pdf2zh/layout.py:55-82 | the syllable loop with its inner character loop computes `HyphenParts` (see `HyphenPartsLetters`) |
| Layout.ReflowRenderer.WrapParagraph | src/pdf2zh/layout.py:84-108 | the word loop computes `ParagraphLines`, `None` where `parts[-1]` raises (see `ParagraphLinesFacts`) |
| Layout.ReflowRenderer.AppendHyphened | src/pdf2zh/layout.py:103-104 | appends every part but the last, each with `-` |
| Layout.ReflowRenderer.WrapText | src/pdf2zh/layout.py:110-127 | the paragraph loop computes `TextLines` (see `TextLinesFacts`) |
| Layout.ReflowRenderer.Round | src/pdf2zh/layout.py:142-150 | one round: raised, settled at this size, or shrunk to `max(fs * 0.9, min_fontsize)` with one round fewer |
| Layout.ReflowRenderer.SettleSize | src/pdf2zh/layout.py:141-150 | the bounded loop computes `FitRounds` (see `FitRoundsBounds`) |
| Layout.ReflowRenderer.Reflow | src/pdf2zh/layout.py:129-153 | `reflow` computes `Reflowed`: the size settled on and the text wrapped again at it (see `ReflowedFacts`) |
| Layout.ReflowRenderer.DrawBlock | src/pdf2zh/layout.py:176-227 | one block's calls: frame, blank skip, reflow and placed lines (see `BlockDrawingFacts`) |
| Layout.ReflowRenderer.PlaceLines | src/pdf2zh/layout.py:214-227 | the line loop computes the placed lines (see `BaselineOpsPlacement`) |
| Layout.ReflowRenderer.RenderPage | src/pdf2zh/layout.py:155-227 | the calls made on the page for `zip(blocks, translations)` and whether an exception stopped them (see `PageDrawingFacts`) |
| ManualPdf.WrapText | src/pdf2zh/manual_pdf.py:10-38 | the two nested loops compute `WrappedLines` (see `WrappedLinesFacts`) |
| ManualPdf.WrapStepFacts | src/pdf2zh/manual_pdf.py:19-35 | one word's round keeps the lines non-empty and fitting, leaves an open line, and adds the word's characters |
| ManualPdf.SplitStepFacts | src/pdf2zh/manual_pdf.py:23-35 | a word split by characters after the open line is emitted keeps the same facts |
| ManualPdf.WrapWordsFacts | src/pdf2zh/manual_pdf.py:19-35 | after any prefix of the words the state is well shaped, its text is those words run together, and it has no more lines than characters |
| ManualPdf.FinishFacts | src/pdf2zh/manual_pdf.py:36-37 | emitting the open line keeps the lines well shaped and their text |
| ManualPdf.WrappedLinesFacts | src/pdf2zh/manual_pdf.py:10-38 | `wrap_text` returns no lines exactly when the text is blank; lines are non-empty and fit or are one character; the lines without whitespace are the text without whitespace; there are no more lines than characters |
| ManualPdf.MoreLines | src/pdf2zh/manual_pdf.py:52-55 | an overflowing round has at least one line, and more than a previous round that filled the height exactly |
| ManualPdf.ScaledBelow | src/pdf2zh/manual_pdf.py:55 | with a positive spacing, the scaled size `fs * (max_height / total_h)` is below `fs` |
| ManualPdf.ShrinkProgress | src/pdf2zh/manual_pdf.py:52-58 | an overflowing round has more lines than the last; the scaled size makes those lines fill `max_height` exactly; with positive spacing the size goes down |
| ManualPdf.LineCount | src/pdf2zh/manual_pdf.py:51-52 | there are never more lines than characters in the text |
| ManualPdf.Shrink | src/pdf2zh/manual_pdf.py:49-58 | the loop ends, at a size where the lines fit or that is at the floor; it keeps the size or returns one at least the floor, below the start when the spacing is positive |
| ManualPdf.ShrinkSettled | src/pdf2zh/manual_pdf.py:53-54 | a round that fits, or is at the floor, ends the loop with its size |
| ManualPdf.ShrinkOnce | src/pdf2zh/manual_pdf.py:55-58 | an overflowing round scales the size; reaching the floor pins it to exactly `min_fontsize` and stops; otherwise the next round starts from it with more lines |
| ManualPdf.Reflow | src/pdf2zh/manual_pdf.py:40-61 | the `while True` loop returns `FittedSize` and the text wrapped at it (see `FittedSizeFacts`) |
| ManualPdf.FittedSizeFacts | src/pdf2zh/manual_pdf.py:49-58 | the returned size fits or is at the floor; the start is kept when the text fits or it is at or below the floor; otherwise the size lies between the floor and the start |
| ManualPdf.LineCallsDraw | src/pdf2zh/manual_pdf.py:99-113 | one line's calls: two in debug mode, one otherwise, drawing that line only |
| ManualPdf.LineOpsDraw | src/pdf2zh/manual_pdf.py:99-113 | a block's calls draw exactly its lines, one or two calls per line |
| ManualPdf.LineOpsAt | src/pdf2zh/manual_pdf.py:99-113 | the calls for line `i` sit at position `i` (or `2i` in debug mode) among the block's calls |
| ManualPdf.LineOpsPlacement | src/pdf2zh/manual_pdf.py:98-113 | line `i` is drawn at `(x0, y0 + i * fs * line_spacing)`, preceded in debug mode by a frame of the box's width and one line's height |
| ManualPdf.PlaceLines | src/pdf2zh/manual_pdf.py:98-113 | the line loop computes `LineOps` (see `LineOpsPlacement`) |
| ManualPdf.RenderBlock | src/pdf2zh/manual_pdf.py:85-113 | one block's calls: nothing for a blank translation, else its reflowed lines (see `BlockOpsDrawTranslation`) |
| ManualPdf.RenderPair | src/pdf2zh/manual_pdf.py:84-113 | one more pair appends that block's calls |
| ManualPdf.RenderManualPage | src/pdf2zh/manual_pdf.py:63-113 | the zip loop computes `PageOps`: the blocks' calls in order (see `PageOpsDrawTranslations`) |
| ManualPdf.BlockOpsDrawTranslation | src/pdf2zh/manual_pdf.py:84-113 | a block draws every non-whitespace character of its translation, in order; a blank translation draws nothing |
| ManualPdf.PageOpsDrawTranslations | src/pdf2zh/manual_pdf.py:63-113 | a page draws exactly the non-whitespace characters of its paired translations, in order; blank translations add nothing |
| ManualPdf.NeedsFallbackIff | src/pdf2zh/manual_pdf.py:153 | a block falls back exactly when it is a text block whose text is blank or contains `·` |
| ManualPdf.FlipY | src/pdf2zh/manual_pdf.py:154-155 | the flipped box keeps its x-extent and its height |
| ManualPdf.FlipYTwice | src/pdf2zh/manual_pdf.py:154-155 | flipping twice against the same page height gives the box back |
| ManualPdf.SpaceRun | src/pdf2zh/manual_pdf.py:179 | the leading run matched by `\s*` is whitespace and maximal |
| ManualPdf.Dehyphenate | src/pdf2zh/manual_pdf.py:179 | de-hyphenation never lengthens the text |
| ManualPdf.DehyphenateNoHyphen | src/pdf2zh/manual_pdf.py:179 | text without `-` comes back unchanged |
| ManualPdf.DehyphenateKeepsLetters | src/pdf2zh/manual_pdf.py:179 | de-hyphenation deletes only hyphens and whitespace: the other characters survive in order |
| ManualPdf.DehyphenateBreak | src/pdf2zh/manual_pdf.py:179 | a `-` followed by a whitespace run that holds a newline is deleted together with the whole run |
| ManualPdf.DehyphenateLeavesNoBreak | src/pdf2zh/manual_pdf.py:179 | no match is left: no `-` of the result is followed by a whitespace run that holds a newline |
| ManualPdf.NoBreakUnchanged | src/pdf2zh/manual_pdf.py:179 | a text with no match comes back unchanged |
| ManualPdf.DehyphenateIdempotent | src/pdf2zh/manual_pdf.py:179 | de-hyphenating twice is the same as de-hyphenating once |
| Cache.Answer | src/pdf2zh/cache.py:58-66 | a cached text is answered from the table; a missing one by the first element the inner translator returns for it, failing exactly when that list is empty |
| Cache.StepConsistent | src/pdf2zh/cache.py:58-66 | one text's round keeps the cache invariant (entries kept, entries learned only for sent texts, answers, sends) |
| Cache.RunConsistent | src/pdf2zh/cache.py:56-67 | the invariant holds after any list of texts |
| Cache.RunAnswers | src/pdf2zh/cache.py:56-67 | `translate` raises exactly when some text has no answer; otherwise result `i` is the answer for text `i` |
| Cache.RunTable | src/pdf2zh/cache.py:56-67 | old entries are kept; new entries belong to the texts; every text ends up stored with its result |
| Cache.RunCalls | src/pdf2zh/cache.py:56-67 | the inner translator is called only for missing texts, never twice for the same text, and no more calls than texts; without an exception every missing text is sent |
| Cache.SentBound | src/pdf2zh/cache.py:56-67 | no more calls than texts |
| Cache.RunAllHits | src/pdf2zh/cache.py:56-67 | when every text is cached, nothing is sent, the table is unchanged and the results are the cached values |
| Cache.RunTwice | src/pdf2zh/cache.py:56-67 | translating the same texts again sends nothing and gives the same results and table |
| Cache.RaisedStays | src/pdf2zh/cache.py:64 | once `[0]` raises, the rest of the texts change nothing |
| Cache.CachedTranslator.constructor | src/pdf2zh/cache.py:13-29 | the translator starts with the given table and nothing sent |
| Cache.CachedTranslator.Lookup | src/pdf2zh/cache.py:34-41 | finds an entry exactly when the key is stored, and returns its value |
| Cache.CachedTranslator.Store | src/pdf2zh/cache.py:43-49 | `INSERT OR REPLACE` sets the key's value and changes nothing else |
| Cache.CachedTranslator.CallInner | src/pdf2zh/cache.py:51-54 | returns the inner translator's output and records the texts sent |
| Cache.CachedTranslator.Translate | src/pdf2zh/cache.py:56-67 | the loop's new table, sent texts and results are those of `Run`, with `None` where `[0]` raises (see `RunAnswers`, `RunTable`, `RunCalls`) |
| Core.PromptLanguage | src/pdf2zh/core.py:15-27 | only "Chinese" is renamed, to "Simplified Chinese"; every other language name is passed through |
| Core.TextBlocks | src/pdf2zh/core.py:66 | the text blocks are the blocks of type 0, in page order |
| Core.TextBlocksAppend | src/pdf2zh/core.py:66 | filtering distributes over concatenation |
| Core.Prompt | src/pdf2zh/core.py:28-32 | the prompt is the fixed opening, then the language name, then the fixed instruction, with the text at the end |
| Core.PromptDeterminesText | src/pdf2zh/core.py:28-32 | for one language, two prompts are equal only when their texts are |
| Core.LineTexts | src/pdf2zh/core.py:69-72 | one text per line, its spans joined |
| Core.BlockTexts | src/pdf2zh/core.py:67-73 | one text per text block, its lines joined by newlines |
| Core.BlockTextLines | src/pdf2zh/core.py:69-73 | splitting a block's text at newlines gives its lines back exactly when no line's spans contain a newline |
| Core.CollectBlockTexts | src/pdf2zh/core.py:66-73 | the nested loops compute `BlockTexts` |
| Core.DelimiterRoundTrip | src/pdf2zh/core.py:75-78 | with no text blocks the split is `[""]`; otherwise the split gives the texts back exactly when they are `Separable` |
| Core.DelimiterFreeNotEnough | src/pdf2zh/core.py:59-78 | two pieces without the delimiter whose join does not split back into them |
| Core.XrefValueCases | src/pdf2zh/core.py:88 | `blk.get("xref", blk.get("image"))`: a present `xref` key wins even when its value is `None`; otherwise the `image` entry; otherwise `None` |
| Core.XrefKeyWins | src/pdf2zh/core.py:88-91 | an image block whose `xref` is `None` is skipped even when its `image` entry is an integer |
| Core.ImageRef | src/pdf2zh/core.py:88-91 | a block is skipped exactly when its reference is not an `int` (a `bool` counts as one); an `int` reference is used as is |
| Core.ImageOpsExact | src/pdf2zh/core.py:85-93 | an image is inserted at a box with a reference exactly when an image block has that box and that integer reference; nothing else is inserted |
| Core.InsertImages | src/pdf2zh/core.py:85-93 | the loop with its `continue` computes `ImageOps` |
| Core.TextboxOps | src/pdf2zh/core.py:97-104 | one textbox per `zip` pair, in the block's box, at size 12 in "helv" |
| Core.InsertTextboxes | src/pdf2zh/core.py:97-104 | the loop computes `TextboxOps` |
| Core.PiecesRecovered | src/pdf2zh/core.py:75-78 | a translation that is a join of pieces splits back into exactly those pieces if and only if they are `Separable` |
| Core.PageTextsPaired | src/pdf2zh/core.py:66-104 | when the translation joins one separable piece per text block, the page gets its images and then each block's own piece |
| Core.ConvertPage | src/pdf2zh/core.py:62-104 | one page's conversion computes `ConvertedPage` |
| Core.ConvertPdf | src/pdf2zh/core.py:61-104 | one output page per input page, each converted as `ConvertedPage` |

## Left out

- PyMuPDF and pdfplumber I/O are not modelled: opening, saving, page creation, font files and `insert_font`, `extract_image`, cropping and `extract_text`. The calls made on a page are returned as a list of `Op` values.
- `font.text_length` and the cached `_measure` (with its `lru_cache`) are the `measure` parameter. No property of a real font is assumed.
- `_find_system_vn_font` is not part of this model. `render_page` takes the font metrics it reads (`height`, `ascent`, `descent`, each possibly missing) as a `FontMetrics` value.
- pyphen is not part of this model. Its `inserted` is a parameter of the renderer, and the renderer's constructor takes it as `dictionary`.
- `Layout.GoodDictionary`: the wrapping and drawing lemmas are proved only for no dictionary or a dictionary that inserts hyphens and changes nothing else. These are `Layout.HyphenPartsLetters`, `Layout.HyphenPartsNoSpace`, `Layout.ParaStepFacts`, `Layout.HyphenStepFacts`, `Layout.ParaWordsFacts`, `Layout.ParagraphLinesFacts`, `Layout.ParagraphsLinesFacts`, `Layout.ParagraphBlockFacts`, `Layout.TextLinesFacts`, `Layout.BlockDrawingFacts`, `Layout.ReflowedBlockLetters` and `Layout.PageDrawingFacts`. Some pyphen dictionaries use non-standard hyphenation, which changes letters around the break. For those dictionaries the model does not promise that the letters are kept, nor the line shapes those lemmas state. The operations themselves are modelled for any dictionary.
- Floating-point rounding is not modelled: sizes and coordinates are exact reals.
- Colours, line widths, `align=0` and `fontname` are not modelled.
- The OpenAI and Gemini clients are not modelled. The chat call of `translate_text` is a parameter `Chat`. `Core.ConvertPdf` takes the translation function as a parameter; `Core.TranslateText` is that function for a given chat. `load_dotenv`, the API-key check and the progress `print`s are left out.
- `Core.TranslateText` has no contract: it is the prompt, the chat call and `strip()`, and the chat's behaviour is unknown.
- Exceptions raised by the inner translator (network and API errors) are not modelled. The retry of `_call_inner` (three attempts) is left out too: it matters only for such exceptions.
- `Cache.CachedTranslator` stands for the sqlite table, its connection and its lock. The table is a map, and concurrent use is not modelled. The class name used in the key is the constant `service`.
- In `convert_pdf`, a block dictionary without a `"type"` key (a `KeyError` at line 66) is not modelled. Every block has a type.
- `build_pdf_manual` is not modelled beyond its three helpers. Not modelled: its page loop, the image re-insertion at lines 167-173, the text-block filter at line 176, and its per-block translation calls.
- `ManualPdf.Reflow`: requires `max_height >= 0`, because the caller always passes a box height, which is never negative. With a negative height and no words, the source divides by zero. `ManualPdf.FittedSize`, `ManualPdf.Shrink` and `ManualPdf.FittedSizeFacts` carry the same requirement.

=== FILE: cache.dfy ===
/**
 * The translation cache of `src/pdf2zh/cache.py`: a wrapper around a
 * translator that answers each text from a table keyed by
 * `(service, src, tgt, input)` when it can, and otherwise asks the wrapped
 * translator for that one text and stores the answer.
 *
 * The sqlite table is a map held in a field; the wrapped translator is a
 * function parameter. A ghost log records every text sent to it, so that
 * "a hit makes no call" can be stated.
 */
module Cache {
  import opened Wrappers

  /** `(service, src, tgt, input)`: the primary key of the `translations` table. */
  datatype Key = Key(service: string, src: string, tgt: string, input: string)

  /** `inner.translate(texts, src, tgt)` of the wrapped translator. */
  type Translate = (seq<string>, string, string) -> seq<string>

  /** One call of `translate`: the wrapped translator, its class name, and the language pair. */
  datatype Request = Request(inner: Translate, service: string, src: string, tgt: string) {
    /** `(self.inner.__class__.__name__, src, tgt, t)` */
    function KeyFor(t: string): (k: Key)
      ensures k.input == t
    {
      Key(service, src, tgt, t)
    }
  }

  /**
   * The state of the loop of `translate`: the results so far, the table,
   * the texts sent to the wrapped translator, and whether
   * `_call_inner([t], src, tgt)[0]` raised `IndexError` because the wrapped
   * translator returned an empty list.
   */
  datatype Memo = Memo(results: seq<string>, table: map<Key, string>, sent: seq<string>, raised: bool)

  /** One text of the loop: a hit is answered from the table; a miss is sent alone, and its answer stored. */
  function Step(req: Request, m: Memo, t: string): Memo {
    if m.raised then m
    else
      var key := req.KeyFor(t);
      if key in m.table then Memo(m.results + [m.table[key]], m.table, m.sent, false)
      else
        var out := req.inner([t], req.src, req.tgt);
        if out == [] then Memo(m.results, m.table, m.sent + [t], true)
        else Memo(m.results + [out[0]], m.table[key := out[0]], m.sent + [t], false)
  }

  /** The loop of `translate` over `texts`, from the table `table0`. */
  function Run(req: Request, table0: map<Key, string>, texts: seq<string>): Memo
    decreases |texts|
  {
    if texts == [] then Memo([], table0, [], false)
    else Step(req, Run(req, table0, texts[..|texts| - 1]), texts[|texts| - 1])
  }

  lemma RunLast(req: Request, table0: map<Key, string>, texts: seq<string>, k: nat)
    requires k < |texts|
    ensures Run(req, table0, texts[..k + 1]) == Step(req, Run(req, table0, texts[..k]), texts[k])
  {
    assert texts[..k + 1][..k] == texts[..k];
  }

  /**
   * The answer for `t` without a cache in front: the stored output when
   * the key is in the table, otherwise the first element of what the
   * wrapped translator returns for `[t]`, or `None` when that is empty.
   */
  function Answer(req: Request, table0: map<Key, string>, t: string): (a: Option<string>)
    ensures req.KeyFor(t) in table0 ==> a == Some(table0[req.KeyFor(t)])
    ensures req.KeyFor(t) !in table0 ==> (a.None? <==> req.inner([t], req.src, req.tgt) == [])
    ensures req.KeyFor(t) !in table0 && a.Some? ==> a.value == req.inner([t], req.src, req.tgt)[0]
  {
    var key := req.KeyFor(t);
    if key in table0 then Some(table0[key])
    else
      var out := req.inner([t], req.src, req.tgt);
      if out == [] then None else Some(out[0])
  }

  /** Some text of `texts` has no answer. */
  predicate SomeUnanswered(req: Request, table0: map<Key, string>, texts: seq<string>) {
    exists i :: 0 <= i < |texts| && Answer(req, table0, texts[i]).None?
  }

  /** The entries of `table0` are kept. */
  predicate Kept(table0: map<Key, string>, m: Memo) {
    forall k :: k in table0 ==> k in m.table && m.table[k] == table0[k]
  }

  /** Every new entry belongs to a text of `texts` and holds its answer. */
  predicate Learned(req: Request, table0: map<Key, string>, texts: seq<string>, m: Memo) {
    forall k :: k in m.table && k !in table0 ==>
      k == req.KeyFor(k.input) && k.input in texts && Answer(req, table0, k.input) == Some(m.table[k])
  }

  /**
   * Without a raise, there is one result per text, equal to its answer,
   * every text's key is stored, and so is the key of every text sent.
   */
  predicate Answered(req: Request, table0: map<Key, string>, texts: seq<string>, m: Memo) {
    !m.raised ==>
      && |m.results| == |texts|
      && (forall i :: 0 <= i < |texts| ==> Answer(req, table0, texts[i]) == Some(m.results[i]))
      && (forall i :: 0 <= i < |texts| ==> req.KeyFor(texts[i]) in m.table)
      && (forall j :: 0 <= j < |m.sent| ==> req.KeyFor(m.sent[j]) in m.table)
  }

  /** The texts sent are texts of `texts` whose key was missing. */
  predicate SentMissing(req: Request, table0: map<Key, string>, texts: seq<string>, m: Memo) {
    forall j :: 0 <= j < |m.sent| ==> m.sent[j] in texts && req.KeyFor(m.sent[j]) !in table0
  }

  /** No text is sent twice. */
  predicate SentOnce(m: Memo) {
    forall j, l :: 0 <= j < l < |m.sent| ==> m.sent[j] != m.sent[l]
  }

  /** Without a raise, every text whose key was missing was sent. */
  predicate SentAll(req: Request, table0: map<Key, string>, texts: seq<string>, m: Memo) {
    !m.raised ==> forall i :: 0 <= i < |texts| && req.KeyFor(texts[i]) !in table0 ==> texts[i] in m.sent
  }

  /** What holds of the loop's state after `texts`; the loop raised exactly when some text had no answer. */
  predicate Consistent(req: Request, table0: map<Key, string>, texts: seq<string>, m: Memo) {
    && Kept(table0, m)
    && Learned(req, table0, texts, m)
    && (m.raised <==> SomeUnanswered(req, table0, texts))
    && Answered(req, table0, texts, m)
    && SentMissing(req, table0, texts, m)
    && SentOnce(m)
    && SentAll(req, table0, texts, m)
  }

  /** A step keeps `Consistent`. */
  lemma StepConsistent(req: Request, table0: map<Key, string>, texts: seq<string>, m: Memo, t: string)
    requires !m.raised && Consistent(req, table0, texts, m)
    ensures Consistent(req, table0, texts + [t], Step(req, m, t))
  {
    StepKept(req, table0, m, t);
    StepLearned(req, table0, texts, m, t);
    StepRaised(req, table0, texts, m, t);
    StepAnswered(req, table0, texts, m, t);
    StepSentMissing(req, table0, texts, m, t);
    StepSentOnce(req, table0, texts, m, t);
    StepSentAll(req, table0, texts, m, t);
  }

  lemma StepKept(req: Request, table0: map<Key, string>, m: Memo, t: string)
    requires !m.raised && Kept(table0, m)
    ensures Kept(table0, Step(req, m, t))
  {
  }

  lemma StepLearned(req: Request, table0: map<Key, string>, texts: seq<string>, m: Memo, t: string)
    requires !m.raised && Learned(req, table0, texts, m)
    ensures Learned(req, table0, texts + [t], Step(req, m, t))
  {
    var key := req.KeyFor(t);
    var r := Step(req, m, t);
    assert forall s :: s in texts ==> s in texts + [t];
    if key !in m.table && req.inner([t], req.src, req.tgt) != [] {
      assert r.table == m.table[key := req.inner([t], req.src, req.tgt)[0]];
      assert t in texts + [t];
    }
  }

  lemma StepRaised(req: Request, table0: map<Key, string>, texts: seq<string>, m: Memo, t: string)
    requires !m.raised && Kept(table0, m) && Learned(req, table0, texts, m)
    requires !SomeUnanswered(req, table0, texts)
    ensures Step(req, m, t).raised <==> SomeUnanswered(req, table0, texts + [t])
  {
    var xs := texts + [t];
    var key := req.KeyFor(t);
    assert forall i :: 0 <= i < |texts| ==> xs[i] == texts[i];
    assert xs[|texts|] == t;
    if key in m.table {
      assert Answer(req, table0, t) == Some(m.table[key]);
    }
  }

  lemma StepAnswered(req: Request, table0: map<Key, string>, texts: seq<string>, m: Memo, t: string)
    requires !m.raised && Kept(table0, m) && Learned(req, table0, texts, m) && Answered(req, table0, texts, m)
    ensures Answered(req, table0, texts + [t], Step(req, m, t))
  {
    var key := req.KeyFor(t);
    var xs := texts + [t];
    assert forall i :: 0 <= i < |texts| ==> xs[i] == texts[i];
    assert xs[|texts|] == t;
    if key in m.table {
      assert Answer(req, table0, t) == Some(m.table[key]);
    }
  }

  lemma StepSentMissing(req: Request, table0: map<Key, string>, texts: seq<string>, m: Memo, t: string)
    requires !m.raised && Kept(table0, m) && SentMissing(req, table0, texts, m)
    ensures SentMissing(req, table0, texts + [t], Step(req, m, t))
  {
    assert forall s :: s in texts ==> s in texts + [t];
    assert t in texts + [t];
  }

  lemma StepSentOnce(req: Request, table0: map<Key, string>, texts: seq<string>, m: Memo, t: string)
    requires !m.raised && Answered(req, table0, texts, m) && SentOnce(m)
    ensures SentOnce(Step(req, m, t))
  {
    if req.KeyFor(t) !in m.table {
      assert forall j :: 0 <= j < |m.sent| ==> m.sent[j] != t;
    }
  }

  lemma StepSentAll(req: Request, table0: map<Key, string>, texts: seq<string>, m: Memo, t: string)
    requires !m.raised && Learned(req, table0, texts, m) && SentAll(req, table0, texts, m)
    ensures SentAll(req, table0, texts + [t], Step(req, m, t))
  {
    var key := req.KeyFor(t);
    var xs := texts + [t];
    var r := Step(req, m, t);
    if !r.raised {
      assert forall s :: s in m.sent ==> s in r.sent;
      forall i | 0 <= i < |xs| && req.KeyFor(xs[i]) !in table0
        ensures xs[i] in r.sent
      {
        if i < |texts| {
          assert xs[i] == texts[i];
        } else if key in m.table {
          assert t in texts;
          var i :| 0 <= i < |texts| && texts[i] == t;
        }
      }
    }
  }

  /** The loop's state after any prefix of the texts is `Consistent`. */
  lemma {:induction false} RunConsistent(req: Request, table0: map<Key, string>, texts: seq<string>)
    ensures Consistent(req, table0, texts, Run(req, table0, texts))
    decreases |texts|
  {
    if texts != [] {
      var init, t := texts[..|texts| - 1], texts[|texts| - 1];
      assert texts == init + [t];
      RunConsistent(req, table0, init);
      var m := Run(req, table0, init);
      if m.raised {
        assert SomeUnanswered(req, table0, texts) by {
          var i :| 0 <= i < |init| && Answer(req, table0, init[i]).None?;
          assert texts[i] == init[i];
        }
      } else {
        StepConsistent(req, table0, init, m, t);
      }
    }
  }

  /**
   * `translate` returns one result per text, in order, and each is the
   * text's answer: the stored output on a hit, the wrapped translator's
   * output for the text alone on a miss. It raises exactly when some missed
   * text gets an empty list back.
   */
  lemma RunAnswers(req: Request, table0: map<Key, string>, texts: seq<string>)
    ensures var m := Run(req, table0, texts);
      && (m.raised <==> SomeUnanswered(req, table0, texts))
      && (!m.raised ==>
            && |m.results| == |texts|
            && forall i :: 0 <= i < |texts| ==> Answer(req, table0, texts[i]) == Some(m.results[i]))
  {
    RunConsistent(req, table0, texts);
  }

  /**
   * The table after `translate`: the earlier entries are unchanged, every
   * new entry belongs to one of the texts, and, when nothing raised, every
   * text's key is present and holds the result returned for it.
   */
  lemma RunTable(req: Request, table0: map<Key, string>, texts: seq<string>)
    ensures var m := Run(req, table0, texts);
      && (forall k :: k in table0 ==> k in m.table && m.table[k] == table0[k])
      && (forall k :: k in m.table && k !in table0 ==> k == req.KeyFor(k.input) && k.input in texts)
      && (!m.raised ==>
            && |m.results| == |texts|
            && forall i :: 0 <= i < |texts| ==> req.KeyFor(texts[i]) in m.table && m.table[req.KeyFor(texts[i])] == m.results[i])
  {
    var m := Run(req, table0, texts);
    RunConsistent(req, table0, texts);
    if !m.raised {
      forall i | 0 <= i < |texts|
        ensures m.table[req.KeyFor(texts[i])] == m.results[i]
      {
        var key := req.KeyFor(texts[i]);
        assert key.input == texts[i];
      }
    }
  }

  /**
   * The wrapped translator is asked only about texts whose key was missing,
   * never twice about the same text, and, when nothing raised, about every
   * such text.
   */
  lemma RunCalls(req: Request, table0: map<Key, string>, texts: seq<string>)
    ensures var m := Run(req, table0, texts);
      && |m.sent| <= |texts|
      && (forall j :: 0 <= j < |m.sent| ==> m.sent[j] in texts && req.KeyFor(m.sent[j]) !in table0)
      && (forall j, l :: 0 <= j < l < |m.sent| ==> m.sent[j] != m.sent[l])
      && (!m.raised ==> forall i :: 0 <= i < |texts| && req.KeyFor(texts[i]) !in table0 ==> texts[i] in m.sent)
  {
    RunConsistent(req, table0, texts);
    SentBound(req, table0, texts);
  }

  /** Each step sends at most one text. */
  lemma {:induction false} SentBound(req: Request, table0: map<Key, string>, texts: seq<string>)
    ensures |Run(req, table0, texts).sent| <= |texts|
    decreases |texts|
  {
    if texts != [] {
      SentBound(req, table0, texts[..|texts| - 1]);
    }
  }

  /** When every text's key is already stored, the loop answers all from the table and sends nothing. */
  lemma {:induction false} RunAllHits(req: Request, table0: map<Key, string>, texts: seq<string>)
    requires forall i :: 0 <= i < |texts| ==> req.KeyFor(texts[i]) in table0
    ensures var m := Run(req, table0, texts);
      && m.table == table0 && m.sent == [] && !m.raised && |m.results| == |texts|
      && forall i :: 0 <= i < |texts| ==> m.results[i] == table0[req.KeyFor(texts[i])]
    decreases |texts|
  {
    if texts != [] {
      var init := texts[..|texts| - 1];
      RunAllHits(req, table0, init);
      assert forall i :: 0 <= i < |init| ==> init[i] == texts[i];
    }
  }

  /**
   * Calling `translate` again with the same texts returns the same results,
   * leaves the table as it is and makes no call to the wrapped translator.
   */
  lemma RunTwice(req: Request, table0: map<Key, string>, texts: seq<string>)
    requires !Run(req, table0, texts).raised
    ensures var m := Run(req, table0, texts);
      Run(req, m.table, texts) == Memo(m.results, m.table, [], false)
  {
    var m := Run(req, table0, texts);
    RunTable(req, table0, texts);
    RunAllHits(req, m.table, texts);
  }

  /**
   * `CachedTranslator`: the table of `(service, src, tgt, input) -> output`
   * rows in front of a wrapped translator.
   */
  class CachedTranslator {
    /** `self.inner`, the wrapped translator. */
    const inner: Translate
    /** `self.inner.__class__.__name__` */
    const service: string
    /** The rows of the `translations` table. */
    var table: map<Key, string>
    /** Every text sent to the wrapped translator, in order. */
    ghost var sent: seq<string>

    /**
     * `CachedTranslator(inner, db_path)`: `CREATE TABLE IF NOT EXISTS`
     * keeps the rows already in the database, which `rows` stands for.
     */
    constructor(inner: Translate, service: string, rows: map<Key, string>)
      ensures this.inner == inner && this.service == service
      ensures table == rows && sent == []
    {
      this.inner := inner;
      this.service := service;
      table := rows;
      sent := [];
    }

    /** `_lookup(key)`: the stored output for the key, or `None`. */
    method Lookup(key: Key) returns (cached: Option<string>)
      ensures cached.Some? <==> key in table
      ensures cached.Some? ==> cached.value == table[key]
    {
      if key in table {
        cached := Some(table[key]);
      } else {
        cached := None;
      }
    }

    /** `_store(key, output)`: `INSERT OR REPLACE` sets the key's output and leaves every other row alone. */
    method Store(key: Key, output: string)
      modifies this
      ensures table == old(table)[key := output]
      ensures sent == old(sent)
    {
      table := table[key := output];
    }

    /** `_call_inner(texts, src, tgt)`: one call of the wrapped translator. */
    method CallInner(texts: seq<string>, src: string, tgt: string) returns (out: seq<string>)
      modifies this
      ensures out == inner(texts, src, tgt)
      ensures table == old(table) && sent == old(sent) + texts
    {
      out := inner(texts, src, tgt);
      sent := sent + texts;
    }

    /**
     * `translate(texts, src, tgt)`: the results, or `None` where
     * `_call_inner([t], src, tgt)[0]` raises `IndexError`; the table and
     * the log end as the loop `Run` leaves them.
     */
    method Translate(texts: seq<string>, src: string, tgt: string) returns (results: Option<seq<string>>)
      modifies this
      ensures var m := Run(Request(inner, service, src, tgt), old(table), texts);
        && table == m.table && sent == old(sent) + m.sent
        && results == if m.raised then None else Some(m.results)
    {
      ghost var req := Request(inner, service, src, tgt);
      ghost var table0 := table;
      ghost var sent0 := sent;
      var acc: seq<string> := [];
      for k := 0 to |texts|
        invariant var m := Run(req, table0, texts[..k]);
          !m.raised && table == m.table && sent == sent0 + m.sent && acc == m.results
      {
        RunLast(req, table0, texts, k);
        var t := texts[k];
        var key := Key(service, src, tgt, t);
        var cached := Lookup(key);
        if cached.Some? {
          acc := acc + [cached.value];
        } else {
          var out := CallInner([t], src, tgt);
          if out == [] {
            RaisedStays(req, table0, texts, k + 1);
            return None;
          }
          Store(key, out[0]);
          acc := acc + [out[0]];
        }
      }
      assert texts[..|texts|] == texts;
      results := Some(acc);
    }
  }

  /** Once the loop has raised, the rest of the texts change nothing. */
  lemma {:induction false} RaisedStays(req: Request, table0: map<Key, string>, texts: seq<string>, k: nat)
    requires k <= |texts| && Run(req, table0, texts[..k]).raised
    ensures Run(req, table0, texts) == Run(req, table0, texts[..k])
    decreases |texts| - k
  {
    if k < |texts| {
      RunLast(req, table0, texts, k);
      RaisedStays(req, table0, texts, k + 1);
    } else {
      assert texts[..k] == texts;
    }
  }
}

=== FILE: core.dfy ===
/**
 * The page conversion of `src/pdf2zh/core.py`: the text blocks of a page
 * are assembled from their lines and spans, joined with a delimiter,
 * translated in one request, split back on the delimiter and drawn into the
 * boxes of the original blocks, paired by position; image blocks are
 * copied when they carry an integer image reference.
 *
 * The chat completion is a parameter: `Chat` maps a prompt to the content
 * of the reply, and `TranslateText` builds `translate_text` on it. The
 * conversion itself takes `translate_text` as a parameter, a `Translator`,
 * so its properties hold for any translation function;
 * `(text, lang) => TranslateText(chat, text, lang)` is the one the program
 * uses. The page dictionary of `page.get_text("dict")` is a list of
 * `DictBlock` records.
 */
module Core {
  import opened Wrappers
  import opened PyStr
  import opened Page

  // ------------------------------------------------------- translate_text

  /** `LANG_PROMPT`: UI language names mapped to the names the prompt uses. */
  const LangPrompt: map<string, string> :=
    map["Chinese" := "Simplified Chinese", "English" := "English", "Japanese" := "Japanese"]

  /**
   * `LANG_PROMPT.get(target_lang, target_lang)`: only "Chinese" is renamed,
   * to "Simplified Chinese"; every other name is used as it is.
   */
  function PromptLanguage(target: string): (name: string)
    ensures name != target <==> target == "Chinese"
    ensures target == "Chinese" ==> name == "Simplified Chinese"
  {
    if target in LangPrompt then LangPrompt[target] else target
  }

  /** The content of the chat completion's reply to a prompt. */
  type Chat = string -> string

  /** The opening of the prompt, before the language name. */
  const PromptOpening: string := "Please translate the following text into "

  /** The instruction between the language name and the text. */
  const PromptInstruction: string :=
    ". Do NOT modify any non-text content (images, formulas), only translate the text:\n\n"

  /**
   * The prompt `translate_text` sends for `text` and the language name
   * `lang`: the opening, the language name, the instruction, and the text
   * itself at the end.
   */
  function Prompt(lang: string, text: string): (p: string)
    ensures |p| == |PromptOpening| + |lang| + |PromptInstruction| + |text|
    ensures p[..|PromptOpening|] == PromptOpening
    ensures p[|PromptOpening|..|PromptOpening| + |lang|] == lang
    ensures p[|PromptOpening| + |lang|..|p| - |text|] == PromptInstruction
    ensures p[|p| - |text|..] == text
  {
    PromptOpening + lang + PromptInstruction + text
  }

  /** Two prompts in the same language are equal only for the same text. */
  lemma PromptDeterminesText(lang: string, text1: string, text2: string)
    requires Prompt(lang, text1) == Prompt(lang, text2)
    ensures text1 == text2
  {
    var p := Prompt(lang, text1);
    assert text1 == p[|p| - |text1|..];
  }

  /** The reply to the prompt for `text` in the language `target` names. */
  function Reply(chat: Chat, text: string, target: string): string {
    chat(Prompt(PromptLanguage(target), text))
  }

  /** `translate_text(text, target_lang)`: the reply to the prompt, stripped. */
  function TranslateText(chat: Chat, text: string, target: string): string {
    Strip(Reply(chat, text, target))
  }

  /** `translate_text(text, target_lang)` as `convert_pdf` calls it. */
  type Translator = (string, string) -> string

  // ------------------------------------------------------------ page data

  /** A value read from the page dictionary where an image reference is expected. */
  datatype PyValue = PyInt(i: int) | PyBool(b: bool) | PyNone | PyOther

  /**
   * One block of `page.get_text("dict")["blocks"]`: its type (0 text,
   * 1 image), its box, the span texts of each of its lines, and its `xref`
   * and `image` entries, each of which may be absent.
   */
  datatype DictBlock = DictBlock(blockType: int, bbox: Rect, lines: seq<seq<string>>, xref: Option<PyValue>, image: Option<PyValue>)

  /** A page of the input document: its rectangle and its blocks. */
  datatype PageIn = PageIn(rect: Rect, blocks: seq<DictBlock>)

  /** A page of the output document: its size and the drawing calls made on it, in order. */
  datatype PageOut = PageOut(width: real, height: real, ops: seq<Op>)

  /** `"\n====BLOCK====\n"`, the delimiter between block texts. */
  const Delimiter: string := "\n====BLOCK====\n"

  // -------------------------------------------------- block-text assembly

  /** `[b for b in d["blocks"] if b["type"] == 0]` */
  function TextBlocks(blocks: seq<DictBlock>): (tb: seq<DictBlock>)
    ensures |tb| <= |blocks|
    ensures forall i :: 0 <= i < |tb| ==> tb[i].blockType == 0
    ensures forall b :: b in tb <==> b in blocks && b.blockType == 0
    decreases |blocks|
  {
    if blocks == [] then []
    else
      var init, last := blocks[..|blocks| - 1], blocks[|blocks| - 1];
      assert blocks == init + [last];
      TextBlocks(init) + (if last.blockType == 0 then [last] else [])
  }

  /** Filtering keeps page order: the text blocks of two runs of blocks are those of the first, then those of the second. */
  lemma {:induction false} TextBlocksAppend(a: seq<DictBlock>, b: seq<DictBlock>)
    ensures TextBlocks(a + b) == TextBlocks(a) + TextBlocks(b)
    decreases |b|
  {
    if b == [] {
      assert a + b == a;
    } else {
      assert (a + b)[..|a + b| - 1] == a + b[..|b| - 1];
      TextBlocksAppend(a, b[..|b| - 1]);
    }
  }

  /** `"".join(spans)` for each line, in order. */
  function LineTexts(lines: seq<seq<string>>): (ls: seq<string>)
    ensures |ls| == |lines|
    ensures forall i :: 0 <= i < |lines| ==> ls[i] == Concat(lines[i])
    decreases |lines|
  {
    if lines == [] then [] else LineTexts(lines[..|lines| - 1]) + [Concat(lines[|lines| - 1])]
  }

  /** `"\n".join(lines)` of a block. */
  function BlockText(b: DictBlock): string {
    Join(LineTexts(b.lines), "\n")
  }

  /** The text of each text block, in order. */
  function BlockTexts(tb: seq<DictBlock>): (ts: seq<string>)
    ensures |ts| == |tb|
    ensures forall i :: 0 <= i < |tb| ==> ts[i] == BlockText(tb[i])
    decreases |tb|
  {
    if tb == [] then [] else BlockTexts(tb[..|tb| - 1]) + [BlockText(tb[|tb| - 1])]
  }

  /** A text holds the one-character separator `[c]` exactly when it holds `c`. */
  lemma ContainsChar(x: string, c: char)
    ensures Contains(x, [c]) <==> c in x
  {
    if c in x {
      var j :| 0 <= j < |x| && x[j] == c;
      assert OccursAt(x, [c], j);
    }
    if Contains(x, [c]) {
      var j :| 0 <= j <= |x| && OccursAt(x, [c], j);
      assert x[j..j + 1][0] == x[j];
    }
  }

  /**
   * A block's text splits back on `"\n"` into its line texts exactly when
   * no line text holds a line break; a block without lines has the empty
   * text.
   */
  lemma BlockTextLines(b: DictBlock)
    ensures b.lines == [] ==> BlockText(b) == []
    ensures b.lines != [] ==>
      (SplitOn(BlockText(b), "\n") == LineTexts(b.lines)
       <==> forall i :: 0 <= i < |b.lines| ==> '\n' !in Concat(b.lines[i]))
  {
    var ls := LineTexts(b.lines);
    if b.lines != [] {
      SplitJoin(ls, "\n");
      assert "\n"[..0] == [];
      forall i | 0 <= i < |ls|
        ensures (if i < |ls| - 1 then ls[i] + "\n"[..0] else ls[i]) == ls[i]
      {
      }
      forall i | 0 <= i < |ls|
        ensures Contains(ls[i], "\n") <==> '\n' in ls[i]
      {
        ContainsChar(ls[i], '\n');
      }
    }
  }

  /**
   * The loop of `convert_pdf` that assembles the block texts: each line is
   * its span texts concatenated, each block its lines joined by `"\n"`.
   */
  method CollectBlockTexts(textBlocks: seq<DictBlock>) returns (blockTexts: seq<string>)
    ensures blockTexts == BlockTexts(textBlocks)
  {
    blockTexts := [];
    for k := 0 to |textBlocks|
      invariant blockTexts == BlockTexts(textBlocks[..k])
    {
      var blk := textBlocks[k];
      var lines: seq<string> := [];
      for j := 0 to |blk.lines|
        invariant lines == LineTexts(blk.lines[..j])
      {
        lines := lines + [Concat(blk.lines[j])];
        assert blk.lines[..j + 1][..j] == blk.lines[..j];
      }
      assert blk.lines[..|blk.lines|] == blk.lines;
      blockTexts := blockTexts + [Join(lines, "\n")];
      assert textBlocks[..k + 1][..k] == textBlocks[..k];
    }
    assert textBlocks[..|textBlocks|] == textBlocks;
  }

  // ------------------------------------------------------ delimiter split

  /**
   * Joining the block texts with the delimiter and splitting the result on
   * it gives back the block texts exactly when they are separable: no text,
   * followed by the delimiter's first 14 characters, holds the delimiter,
   * and the last text holds none. With no text blocks, the split gives one
   * empty piece.
   */
  lemma DelimiterRoundTrip(texts: seq<string>)
    ensures texts == [] ==> SplitOn(Join(texts, Delimiter), Delimiter) == [""]
    ensures texts != [] ==> (SplitOn(Join(texts, Delimiter), Delimiter) == texts <==> Separable(texts, Delimiter))
  {
    if texts != [] {
      SplitJoin(texts, Delimiter);
    }
  }

  /**
   * Texts that do not hold the delimiter are not always separable: the
   * first text ends with all of the delimiter but its final line break,
   * and the join completes it.
   */
  lemma DelimiterFreeNotEnough()
    ensures var texts := [Delimiter[..14], "y"];
      && (forall i :: 0 <= i < |texts| ==> !Contains(texts[i], Delimiter))
      && SplitOn(Join(texts, Delimiter), Delimiter) != texts
  {
    var x := Delimiter[..14];
    var texts := [x, "y"];
    assert !Contains(x, Delimiter);
    assert !Contains("y", Delimiter);
    var head := x + Delimiter[..|Delimiter| - 1];
    assert head[0..|Delimiter|] == Delimiter;
    assert OccursAt(head, Delimiter, 0);
    assert Contains(head, Delimiter);
    assert texts[0] + Delimiter[..|Delimiter| - 1] == head;
    assert !Separable(texts, Delimiter);
    SplitJoin(texts, Delimiter);
  }

  // ---------------------------------------------------------------- images

  /** `blk.get("xref", blk.get("image"))` */
  function XrefValue(b: DictBlock): PyValue {
    if b.xref.Some? then b.xref.value
    else if b.image.Some? then b.image.value
    else PyNone
  }

  /**
   * The reference `convert_pdf` reads: the `xref` entry when the key is
   * present, whatever its value (even `None`); otherwise the `image` entry;
   * otherwise `None`.
   */
  lemma XrefValueCases(b: DictBlock)
    ensures b.xref.Some? ==> XrefValue(b) == b.xref.value
    ensures b.xref.None? && b.image.Some? ==> XrefValue(b) == b.image.value
    ensures b.xref.None? && b.image.None? ==> XrefValue(b) == PyNone
  {
  }

  /**
   * The image reference, when `isinstance(xref, int)` holds; a `bool` is an
   * `int` in Python, and stands for 0 or 1.
   */
  function ImageRef(b: DictBlock): (r: Option<int>)
    ensures r.None? <==> !(XrefValue(b).PyInt? || XrefValue(b).PyBool?)
    ensures XrefValue(b).PyInt? ==> r == Some(XrefValue(b).i)
  {
    match XrefValue(b)
    case PyInt(i) => Some(i)
    case PyBool(x) => Some(if x then 1 else 0)
    case _ => None
  }

  /** The image a block yields: one for an image block with an integer reference, none otherwise. */
  function ImageOp(b: DictBlock): seq<Op> {
    if b.blockType == 1 && ImageRef(b).Some? then [InsertImage(b.bbox, ImageRef(b).value)] else []
  }

  /**
   * A present `xref` key wins over `image`: an image block whose `xref` is
   * `None` is skipped even when its `image` entry is an integer.
   */
  lemma XrefKeyWins(b: DictBlock, i: int)
    requires b.blockType == 1 && b.xref == Some(PyNone) && b.image == Some(PyInt(i))
    ensures ImageOp(b) == []
  {
    assert XrefValue(b) == PyNone;
  }

  /** The images inserted for `blocks`, in page order. */
  function ImageOps(blocks: seq<DictBlock>): seq<Op>
    decreases |blocks|
  {
    if blocks == [] then [] else ImageOps(blocks[..|blocks| - 1]) + ImageOp(blocks[|blocks| - 1])
  }

  /**
   * An image is inserted at a box with a reference exactly when some image
   * block of the page has that box and that integer reference; blocks of
   * other types and image blocks with other references yield nothing.
   */
  lemma {:induction false} ImageOpsExact(blocks: seq<DictBlock>, rect: Rect, xref: int)
    ensures InsertImage(rect, xref) in ImageOps(blocks)
        <==> exists i :: 0 <= i < |blocks| && blocks[i].blockType == 1 && blocks[i].bbox == rect && ImageRef(blocks[i]) == Some(xref)
    ensures forall op :: op in ImageOps(blocks) ==> op.InsertImage?
    decreases |blocks|
  {
    if blocks != [] {
      var init, last := blocks[..|blocks| - 1], blocks[|blocks| - 1];
      ImageOpsExact(init, rect, xref);
      assert forall i :: 0 <= i < |init| ==> init[i] == blocks[i];
      if InsertImage(rect, xref) in ImageOp(last) {
        assert blocks[|blocks| - 1] == last;
      }
    }
  }

  /** The loop of `convert_pdf` over the blocks that copies images, skipping those without an integer reference. */
  method InsertImages(blocks: seq<DictBlock>) returns (ops: seq<Op>)
    ensures ops == ImageOps(blocks)
  {
    ops := [];
    for k := 0 to |blocks|
      invariant ops == ImageOps(blocks[..k])
    {
      var blk := blocks[k];
      assert blocks[..k + 1][..k] == blocks[..k];
      if blk.blockType == 1 {
        var xref := XrefValue(blk);
        if !(xref.PyInt? || xref.PyBool?) {
          continue;
        }
        ops := ops + [InsertImage(blk.bbox, ImageRef(blk).value)];
      }
    }
    assert blocks[..|blocks|] == blocks;
  }

  // ------------------------------------------------------------ text boxes

  /**
   * `zip(text_blocks, translated_blocks)`: one text box per pair, as many
   * as the shorter list has, the i-th piece drawn into the i-th block's
   * box at size 12 in Helvetica.
   */
  function TextboxOps(textBlocks: seq<DictBlock>, pieces: seq<string>): (ops: seq<Op>)
    ensures |ops| == if |textBlocks| <= |pieces| then |textBlocks| else |pieces|
    ensures forall i :: 0 <= i < |ops| ==> ops[i] == InsertTextbox(textBlocks[i].bbox, pieces[i], 12.0, "helv")
  {
    var pairs := Zip(textBlocks, pieces);
    seq(|pairs|, i requires 0 <= i < |pairs| => InsertTextbox(pairs[i].0.bbox, pairs[i].1, 12.0, "helv"))
  }

  /** The loop of `convert_pdf` over the pairs that draws each piece into its block. */
  method InsertTextboxes(textBlocks: seq<DictBlock>, pieces: seq<string>) returns (ops: seq<Op>)
    ensures ops == TextboxOps(textBlocks, pieces)
  {
    var pairs := Zip(textBlocks, pieces);
    ops := [];
    for k := 0 to |pairs|
      invariant |ops| == k
      invariant forall i :: 0 <= i < k ==> ops[i] == InsertTextbox(textBlocks[i].bbox, pieces[i], 12.0, "helv")
    {
      ops := ops + [InsertTextbox(pairs[k].0.bbox, pairs[k].1, 12.0, "helv")];
    }
  }

  // ----------------------------------------------------------------- pages

  /** The pieces of the translated page text. */
  function TranslatedPieces(translate: Translator, page: PageIn, target: string): seq<string> {
    SplitOn(translate(Join(BlockTexts(TextBlocks(page.blocks)), Delimiter), target), Delimiter)
  }

  /** The output page `convert_pdf` makes for one input page: its size, the images, then the text boxes. */
  function ConvertedPage(translate: Translator, page: PageIn, target: string): PageOut {
    PageOut(page.rect.Width(), page.rect.Height(),
            ImageOps(page.blocks) + TextboxOps(TextBlocks(page.blocks), TranslatedPieces(translate, page, target)))
  }

  /**
   * When the translation is the translations of the block texts, one per
   * block, joined by the delimiter, the pieces are those translations
   * exactly when they are separable.
   */
  lemma PiecesRecovered(translate: Translator, page: PageIn, target: string, ys: seq<string>)
    requires |ys| >= 1
    requires translate(Join(BlockTexts(TextBlocks(page.blocks)), Delimiter), target) == Join(ys, Delimiter)
    ensures TranslatedPieces(translate, page, target) == ys <==> Separable(ys, Delimiter)
  {
    SplitJoin(ys, Delimiter);
  }

  /**
   * When the translation is the translations of the block texts, one per
   * block, joined by the delimiter and separable, the page draws the
   * images and then each block's translation into that block's box.
   */
  lemma PageTextsPaired(translate: Translator, page: PageIn, target: string, ys: seq<string>)
    requires |ys| == |TextBlocks(page.blocks)| >= 1 && Separable(ys, Delimiter)
    requires translate(Join(BlockTexts(TextBlocks(page.blocks)), Delimiter), target) == Join(ys, Delimiter)
    ensures ConvertedPage(translate, page, target).ops == ImageOps(page.blocks) + TextboxOps(TextBlocks(page.blocks), ys)
  {
    PiecesRecovered(translate, page, target, ys);
  }

  /** One page of `convert_pdf`: the block texts, one translation request, the split, the images, the text boxes. */
  method ConvertPage(translate: Translator, page: PageIn, target: string) returns (out: PageOut)
    ensures out == ConvertedPage(translate, page, target)
  {
    var textBlocks := TextBlocks(page.blocks);
    var blockTexts := CollectBlockTexts(textBlocks);
    var joined := Join(blockTexts, Delimiter);
    var translated := translate(joined, target);
    var translatedBlocks := SplitOn(translated, Delimiter);
    var images := InsertImages(page.blocks);
    var boxes := InsertTextboxes(textBlocks, translatedBlocks);
    out := PageOut(page.rect.Width(), page.rect.Height(), images + boxes);
  }

  /** Appending the image of the next element extends a mapped prefix by one. */
  lemma MapAppend<A, B>(f: A -> B, xs: seq<A>, ys: seq<B>, n: nat)
    requires n < |xs| && |ys| == n
    requires forall j :: 0 <= j < n ==> ys[j] == f(xs[j])
    ensures var zs := ys + [f(xs[n])];
      |zs| == n + 1 && forall j :: 0 <= j < n + 1 ==> zs[j] == f(xs[j])
  {
  }

  /** `convert_pdf`: one output page per input page, in order. */
  method ConvertPdf(translate: Translator, pages: seq<PageIn>, target: string) returns (outPages: seq<PageOut>)
    ensures |outPages| == |pages|
    ensures forall i :: 0 <= i < |pages| ==> outPages[i] == ConvertedPage(translate, pages[i], target)
  {
    ghost var convert := (p: PageIn) => ConvertedPage(translate, p, target);
    outPages := [];
    for i := 0 to |pages|
      invariant |outPages| == i
      invariant forall j :: 0 <= j < i ==> outPages[j] == convert(pages[j])
    {
      var newPage := ConvertPage(translate, pages[i], target);
      MapAppend(convert, pages, outPages, i);
      outPages := outPages + [newPage];
    }
  }
}

=== FILE: layout.dfy ===
/**
 * The reflow renderer of `src/pdf2zh/layout.py`: paragraphs split on blank
 * lines, greedy word wrapping with hyphenation of over-long words, a font
 * size shrunk by 10% a round for a bounded number of rounds, and baseline
 * placement of the lines.
 *
 * The hyphenation dictionary (`pyphen.Pyphen(...).inserted`) is a
 * parameter of the renderer: `None` when pyphen or the language is missing.
 * Properties that need a dictionary to behave like one (insert hyphens, and
 * nothing else) say so with `GoodDictionary`.
 */
module Layout {
  import opened Wrappers
  import opened PyStr
  import opened Measure
  import opened Page

  /** `inserted(word)` of a hyphenation dictionary: the word with `-` at its syllable boundaries. */
  type Hyphenator = string -> string

  /** A dictionary that inserts hyphens and nothing else into a word without whitespace. */
  ghost predicate InsertsOnlyHyphens(ins: Hyphenator) {
    forall w: string {:trigger ins(w)} :: NoSpace(w) ==> NoSpace(ins(w)) && Letters(ins(w)) == Letters(w)
  }

  /** No dictionary, or one that only inserts hyphens. */
  ghost predicate GoodDictionary(hyph: Option<Hyphenator>) {
    hyph.None? || InsertsOnlyHyphens(hyph.value)
  }

  // ----------------------------------------------------- _split_paragraphs

  /** The separator of paragraphs: an empty line. */
  const ParagraphBreak: string := "\n\n"

  /** `rp.replace("\n", " ").strip()`: a raw paragraph with its line breaks merged. */
  function Merged(rp: string): string {
    Strip(ReplaceChar(rp, '\n', ' '))
  }

  /** The non-empty merged paragraphs of the raw pieces `raws`, in order. */
  function KeepParagraphs(raws: seq<string>): seq<string> {
    if raws == [] then []
    else
      var m := Merged(raws[|raws| - 1]);
      KeepParagraphs(raws[..|raws| - 1]) + (if m != [] then [m] else [])
  }

  /** The paragraphs `_split_paragraphs(text)` returns. */
  function Paragraphs(text: string): seq<string> {
    KeepParagraphs(SplitOn(text, ParagraphBreak))
  }

  /** A paragraph as `_split_paragraphs` yields it: non-empty, on one line, stripped. */
  predicate IsParagraph(p: string) {
    p != [] && '\n' !in p && !IsSpace(p[0]) && !IsSpace(p[|p| - 1])
  }

  lemma MergedShape(rp: string)
    ensures Merged(rp) != [] ==> IsParagraph(Merged(rp))
  {
    var flat := ReplaceChar(rp, '\n', ' ');
    assert '\n' !in flat by {
      forall i | 0 <= i < |flat| ensures flat[i] != '\n' {
      }
    }
    var t := TrimStart(flat);
    assert '\n' !in t by {
      NoCharInSlice(flat, '\n', |flat| - |t|, |flat|);
    }
    var m := TrimEnd(t);
    assert '\n' !in m by {
      NoCharInSlice(t, '\n', 0, |m|);
    }
  }

  /** A slice of a string without `c` is without `c`. */
  lemma NoCharInSlice(s: string, c: char, i: nat, j: nat)
    requires i <= j <= |s| && c !in s
    ensures c !in s[i..j]
  {
    forall k | 0 <= k < j - i ensures s[i..j][k] != c {
      assert s[i..j][k] == s[i + k];
    }
  }

  lemma MergedWords(rp: string)
    ensures Words(Merged(rp)) == Words(rp)
  {
    WordsStrip(ReplaceChar(rp, '\n', ' '));
    WordsNewlineToSpace(rp);
  }

  lemma {:induction false} KeepParagraphsShape(raws: seq<string>)
    ensures forall i :: 0 <= i < |KeepParagraphs(raws)| ==> IsParagraph(KeepParagraphs(raws)[i])
    decreases |raws|
  {
    if raws != [] {
      var init, last := raws[..|raws| - 1], raws[|raws| - 1];
      var kept := KeepParagraphs(init);
      var m := Merged(last);
      assert KeepParagraphs(raws) == kept + if m != [] then [m] else [];
      KeepParagraphsShape(init);
      if m != [] {
        MergedShape(last);
        forall i | 0 <= i < |kept + [m]| ensures IsParagraph((kept + [m])[i]) {
          if i < |kept| {
            assert (kept + [m])[i] == kept[i];
          }
        }
      }
    }
  }

  lemma {:induction false} KeepParagraphsWords(raws: seq<string>)
    ensures FlatWords(KeepParagraphs(raws)) == FlatWords(raws)
    decreases |raws|
  {
    if raws != [] {
      var init, last := raws[..|raws| - 1], raws[|raws| - 1];
      var kept := KeepParagraphs(init);
      var m := Merged(last);
      var extra := if m != [] then [m] else [];
      assert KeepParagraphs(raws) == kept + extra;
      assert FlatWords(kept) == FlatWords(init) by {
        KeepParagraphsWords(init);
      }
      assert FlatWords(kept + extra) == FlatWords(kept) + FlatWords(extra) by {
        FlatWordsAppend(kept, extra);
      }
      assert FlatWords(extra) == Words(last) by {
        MergedWords(last);
        if m != [] {
          assert [m][..0] == [];
        }
      }
    }
  }

  /**
   * `_split_paragraphs` yields non-empty, stripped, single-line paragraphs,
   * and between them they hold exactly the words of the text, in order.
   */
  lemma ParagraphsFacts(text: string)
    ensures forall i :: 0 <= i < |Paragraphs(text)| ==> IsParagraph(Paragraphs(text)[i])
    ensures FlatWords(Paragraphs(text)) == Words(text)
  {
    var raws := SplitOn(text, ParagraphBreak);
    KeepParagraphsShape(raws);
    KeepParagraphsWords(raws);
    assert FlatWords(raws) == Words(text) by {
      JoinSplit(text, ParagraphBreak);
      BreakIsSpace();
      WordsJoin(raws, ParagraphBreak);
    }
  }

  lemma BreakIsSpace()
    ensures AllSpace(ParagraphBreak)
  {
    assert |ParagraphBreak| == 2 && ParagraphBreak[0] == ParagraphBreak[1] == '\n';
  }

  /** A paragraph has at least one word. */
  lemma ParagraphHasWords(p: string)
    requires IsParagraph(p)
    ensures Words(p) != []
  {
  }

  // ------------------------------------------------------------ _hyphenate

  /** The syllables of a word: the dictionary's pieces between hyphens, or the word itself. */
  function Syllables(hyph: Option<Hyphenator>, word: string): (sylls: seq<string>)
    ensures |sylls| >= 1
  {
    if hyph.Some? then SplitOn(hyph.value(word), "-") else [word]
  }

  /** The state of `_hyphenate`'s loop: the parts emitted and the open part `curr`. */
  datatype HyphState = HyphState(parts: seq<string>, curr: string)

  /**
   * One round of `_hyphenate`'s loop on the syllable `syl`: the syllable and a
   * hyphen join the open part when they fit; otherwise the open part (if
   * any) is emitted without its trailing hyphens and the syllable is split
   * by characters, its last fragment becoming the open part.
   */
  function HyphStep(measure: Metric, fontsize: real, maxWidth: real, st: HyphState, syl: string): HyphState {
    var token := syl + "-";
    if Fits(measure, st.curr + token, fontsize, maxWidth) then HyphState(st.parts, st.curr + token)
    else
      var pushed := if st.curr != [] then st.parts + [RStrip(st.curr, '-')] else st.parts;
      var split := CharSplit(measure, fontsize, maxWidth, syl);
      HyphState(pushed + split.done, split.frag)
  }

  /** `_hyphenate`'s state after the syllables `sylls`. */
  function HyphSylls(measure: Metric, fontsize: real, maxWidth: real, sylls: seq<string>): HyphState {
    if sylls == [] then HyphState([], [])
    else HyphStep(measure, fontsize, maxWidth, HyphSylls(measure, fontsize, maxWidth, sylls[..|sylls| - 1]), sylls[|sylls| - 1])
  }

  /** The parts `_hyphenate(word, ...)` returns. */
  function HyphenParts(measure: Metric, hyph: Option<Hyphenator>, word: string, fontsize: real, maxWidth: real): seq<string> {
    var st := HyphSylls(measure, fontsize, maxWidth, Syllables(hyph, word));
    if st.curr != [] then st.parts + [RStrip(st.curr, '-')] else st.parts
  }

  lemma HyphSyllsLast(measure: Metric, fontsize: real, maxWidth: real, sylls: seq<string>, k: nat)
    requires k < |sylls|
    ensures HyphSylls(measure, fontsize, maxWidth, sylls[..k + 1])
         == HyphStep(measure, fontsize, maxWidth, HyphSylls(measure, fontsize, maxWidth, sylls[..k]), sylls[k])
  {
    assert sylls[..k + 1][..k] == sylls[..k];
  }

  /** `rstrip('-')` of a word with a hyphen appended, or of a word's last fragment, gives it back. */
  lemma RStripNoHyphen(s: string, extra: string)
    requires s != [] && s[|s| - 1] != '-'
    requires forall i :: 0 <= i < |extra| ==> extra[i] == '-'
    ensures RStrip(s + extra, '-') == s
  {
    RStripAt(s + extra, |s|);
    assert (s + extra)[..|s|] == s;
  }

  /**
   * With no dictionary, a non-empty word gives at least one part (so the
   * caller's `parts[-1]` cannot fail), and a word with no hyphen is given
   * back exactly by its parts run together.
   */
  lemma HyphenateNoDictionary(measure: Metric, word: string, fontsize: real, maxWidth: real)
    requires word != []
    ensures HyphenParts(measure, None, word, fontsize, maxWidth) != []
    ensures '-' !in word ==> Concat(HyphenParts(measure, None, word, fontsize, maxWidth)) == word
  {
    var parts := HyphenParts(measure, None, word, fontsize, maxWidth);
    var st := HyphStep(measure, fontsize, maxWidth, HyphState([], []), word);
    assert HyphSylls(measure, fontsize, maxWidth, [word]) == st by {
      assert [word][..0] == [];
    }
    assert parts == if st.curr != [] then st.parts + [RStrip(st.curr, '-')] else st.parts;
    var token := word + "-";
    assert HyphState([], []).curr + token == token;
    if Fits(measure, token, fontsize, maxWidth) {
      assert st == HyphState([], token);
      if '-' !in word {
        RStripNoHyphen(word, "-");
        assert Concat(parts) == Concat([]) + word;
      }
    } else {
      var split := CharSplit(measure, fontsize, maxWidth, word);
      CharSplitFacts(measure, fontsize, maxWidth, word);
      assert st == HyphState(split.done, split.frag);
      if '-' !in word {
        LastFragmentKeepsEnd(split.done, split.frag, word);
      }
    }
  }

  /** With no dictionary, a word that does not fit with a hyphen appended is split by characters. */
  lemma NoDictionarySplits(measure: Metric, word: string, fontsize: real, maxWidth: real)
    requires word != [] && !Fits(measure, word + "-", fontsize, maxWidth)
    ensures var split := CharSplit(measure, fontsize, maxWidth, word);
      HyphenParts(measure, None, word, fontsize, maxWidth) == split.done + [RStrip(split.frag, '-')]
  {
    var split := CharSplit(measure, fontsize, maxWidth, word);
    assert split.frag != [] by {
      CharSplitFacts(measure, fontsize, maxWidth, word);
    }
    var st := HyphStep(measure, fontsize, maxWidth, HyphState([], []), word);
    assert st == HyphState(split.done, split.frag) by {
      assert HyphState([], []).curr + (word + "-") == word + "-";
      assert [] + split.done == split.done;
    }
    assert HyphSylls(measure, fontsize, maxWidth, Syllables(None, word)) == st by {
      assert Syllables(None, word) == [word];
      assert [word][..0] == [];
    }
  }

  lemma LastFragmentKeepsEnd(done: seq<string>, f: string, word: string)
    requires Concat(done) + f == word && f != [] && '-' !in word
    ensures Concat(done + [RStrip(f, '-')]) == word
  {
    assert f[|f| - 1] == word[|word| - 1];
    RStripNoHyphen(f, "");
    assert f + "" == f;
    assert (done + [f])[..|done|] == done;
  }

  /** The letters of a state: its parts and its open part run together, without whitespace and hyphens. */
  function HyphText(st: HyphState): string {
    Letters(Concat(st.parts) + st.curr)
  }

  /** Emitting the open part without its trailing hyphens loses no letter. */
  lemma PushPartLetters(parts: seq<string>, curr: string)
    ensures var pushed := if curr != [] then parts + [RStrip(curr, '-')] else parts;
      Letters(Concat(pushed)) == Letters(Concat(parts) + curr)
  {
    if curr != [] {
      var r := RStrip(curr, '-');
      assert Concat(parts + [r]) == Concat(parts) + r by {
        assert (parts + [r])[..|parts|] == parts;
      }
      LettersAppend(Concat(parts), r);
      LettersAppend(Concat(parts), curr);
      LettersRStrip(curr);
    } else {
      assert Concat(parts) + curr == Concat(parts);
    }
  }

  lemma HyphenLetters()
    ensures Letters("-") == []
  {
    LettersOfHyphens("-");
  }

  /** One round adds the letters of the syllable. */
  lemma HyphStepLetters(measure: Metric, fontsize: real, maxWidth: real, st: HyphState, syl: string)
    ensures HyphText(HyphStep(measure, fontsize, maxWidth, st, syl)) == HyphText(st) + Letters(syl)
  {
    var token := syl + "-";
    var c := Concat(st.parts);
    assert Letters(token) == Letters(syl) by {
      LettersAppend(syl, "-");
      HyphenLetters();
    }
    if Fits(measure, st.curr + token, fontsize, maxWidth) {
      assert c + (st.curr + token) == (c + st.curr) + token by {
        SeqAssoc(c, st.curr, token);
      }
      LettersAppend(c + st.curr, token);
    } else {
      var pushed := if st.curr != [] then st.parts + [RStrip(st.curr, '-')] else st.parts;
      var split := CharSplit(measure, fontsize, maxWidth, syl);
      assert Concat(pushed + split.done) + split.frag == Concat(pushed) + syl by {
        CharSplitFacts(measure, fontsize, maxWidth, syl);
        ConcatAppend(pushed, split.done);
        SeqAssoc(Concat(pushed), Concat(split.done), split.frag);
      }
      LettersAppend(Concat(pushed), syl);
      PushPartLetters(st.parts, st.curr);
    }
  }

  lemma {:induction false} HyphSyllsLetters(measure: Metric, fontsize: real, maxWidth: real, sylls: seq<string>)
    ensures HyphText(HyphSylls(measure, fontsize, maxWidth, sylls)) == Letters(Concat(sylls))
    decreases |sylls|
  {
    if sylls == [] {
      assert Concat([]) + [] == [];
    } else {
      var init, last := sylls[..|sylls| - 1], sylls[|sylls| - 1];
      HyphSyllsLetters(measure, fontsize, maxWidth, init);
      HyphStepLetters(measure, fontsize, maxWidth, HyphSylls(measure, fontsize, maxWidth, init), last);
      LettersAppend(Concat(init), last);
    }
  }

  /** The text the syllables come from: what the dictionary made of the word, or the word itself. */
  function SyllableSource(hyph: Option<Hyphenator>, word: string): string {
    if hyph.Some? then hyph.value(word) else word
  }

  lemma SyllablesLetters(hyph: Option<Hyphenator>, word: string)
    ensures Letters(Concat(Syllables(hyph, word))) == Letters(SyllableSource(hyph, word))
  {
    if hyph.Some? {
      var x := hyph.value(word);
      JoinSplit(x, "-");
      HyphenLetters();
      LettersJoin(SplitOn(x, "-"), "-");
    } else {
      assert Concat([word]) == word by {
        assert [word][..0] == [];
      }
    }
  }

  /**
   * `_hyphenate` loses no letter and adds none: its parts run together have
   * the letters of what the dictionary made of the word, and so, with no
   * dictionary or one that only inserts hyphens, the letters of the word.
   */
  lemma HyphenPartsLetters(measure: Metric, hyph: Option<Hyphenator>, word: string, fontsize: real, maxWidth: real)
    ensures Letters(Concat(HyphenParts(measure, hyph, word, fontsize, maxWidth))) == Letters(SyllableSource(hyph, word))
    ensures GoodDictionary(hyph) && NoSpace(word) ==>
      Letters(Concat(HyphenParts(measure, hyph, word, fontsize, maxWidth))) == Letters(word)
  {
    var st := HyphSylls(measure, fontsize, maxWidth, Syllables(hyph, word));
    HyphSyllsLetters(measure, fontsize, maxWidth, Syllables(hyph, word));
    SyllablesLetters(hyph, word);
    PushPartLetters(st.parts, st.curr);
  }

  /** Strings none of which holds whitespace. */
  predicate AllNoSpace(xs: seq<string>) {
    forall i :: 0 <= i < |xs| ==> NoSpace(xs[i])
  }

  lemma AllNoSpaceAppend(xs: seq<string>, ys: seq<string>)
    requires AllNoSpace(xs) && AllNoSpace(ys)
    ensures AllNoSpace(xs + ys)
  {
    forall i | 0 <= i < |xs + ys| ensures NoSpace((xs + ys)[i]) {
      if i < |xs| {
        assert (xs + ys)[i] == xs[i];
      } else {
        assert (xs + ys)[i] == ys[i - |xs|];
      }
    }
  }

  lemma HyphenNoSpace()
    ensures NoSpace("-")
  {
    assert "-"[0] == '-';
  }

  /** A prefix of a string without whitespace is without whitespace. */
  lemma NoSpacePrefix(s: string, n: nat)
    requires NoSpace(s) && n <= |s|
    ensures NoSpace(s[..n])
  {
    assert forall i :: 0 <= i < n ==> s[..n][i] == s[i];
  }

  /** One round on a syllable without whitespace keeps every part and the open part without whitespace. */
  lemma HyphStepNoSpace(measure: Metric, fontsize: real, maxWidth: real, st: HyphState, syl: string)
    requires AllNoSpace(st.parts) && NoSpace(st.curr) && NoSpace(syl)
    ensures var next := HyphStep(measure, fontsize, maxWidth, st, syl);
      AllNoSpace(next.parts) && NoSpace(next.curr)
  {
    var token := syl + "-";
    if Fits(measure, st.curr + token, fontsize, maxWidth) {
      HyphenNoSpace();
      NoSpaceAppend(syl, "-");
      NoSpaceAppend(st.curr, token);
    } else {
      var split := CharSplit(measure, fontsize, maxWidth, syl);
      assert NoSpace(Concat(split.done) + split.frag) by {
        CharSplitFacts(measure, fontsize, maxWidth, syl);
      }
      NoSpaceAppend(Concat(split.done), split.frag);
      NoSpaceConcat(split.done);
      var pushed := if st.curr != [] then st.parts + [RStrip(st.curr, '-')] else st.parts;
      assert AllNoSpace(pushed) by {
        if st.curr != [] {
          var r := RStrip(st.curr, '-');
          NoSpacePrefix(st.curr, |r|);
          AllNoSpaceAppend(st.parts, [r]);
        }
      }
      AllNoSpaceAppend(pushed, split.done);
    }
  }

  lemma {:induction false} HyphSyllsNoSpace(measure: Metric, fontsize: real, maxWidth: real, sylls: seq<string>)
    requires AllNoSpace(sylls)
    ensures var st := HyphSylls(measure, fontsize, maxWidth, sylls);
      AllNoSpace(st.parts) && NoSpace(st.curr)
    decreases |sylls|
  {
    if sylls != [] {
      var init := sylls[..|sylls| - 1];
      assert AllNoSpace(init) by {
        forall i | 0 <= i < |init| ensures NoSpace(init[i]) {
          assert init[i] == sylls[i];
        }
      }
      HyphSyllsNoSpace(measure, fontsize, maxWidth, init);
      HyphStepNoSpace(measure, fontsize, maxWidth, HyphSylls(measure, fontsize, maxWidth, init), sylls[|sylls| - 1]);
    }
  }

  /** With no dictionary or one that only inserts hyphens, no part of a word without whitespace holds any. */
  lemma HyphenPartsNoSpace(measure: Metric, hyph: Option<Hyphenator>, word: string, fontsize: real, maxWidth: real)
    requires GoodDictionary(hyph) && NoSpace(word)
    ensures AllNoSpace(HyphenParts(measure, hyph, word, fontsize, maxWidth))
  {
    var sylls := Syllables(hyph, word);
    assert AllNoSpace(sylls) by {
      if hyph.Some? {
        var x := hyph.value(word);
        assert NoSpace(x);
        JoinSplit(x, "-");
        NoSpaceJoin(sylls, "-");
      }
    }
    HyphSyllsNoSpace(measure, fontsize, maxWidth, sylls);
    var st := HyphSylls(measure, fontsize, maxWidth, sylls);
    if st.curr != [] {
      var r := RStrip(st.curr, '-');
      NoSpacePrefix(st.curr, |r|);
      AllNoSpaceAppend(st.parts, [r]);
    }
  }

  // ------------------------------------------------------- _wrap_paragraph

  /** `p + "-"` for each of the parts `ps`: the lines a hyphenated word completes. */
  function Hyphened(ps: seq<string>): seq<string> {
    if ps == [] then [] else Hyphened(ps[..|ps| - 1]) + [ps[|ps| - 1] + "-"]
  }

  /**
   * One round of `_wrap_paragraph`'s loop on the word `w`: a word that still
   * fits joins the open line after one space; otherwise the open line (if
   * any) is emitted, the word is hyphenated, every part but the last is
   * emitted with a hyphen and the last part becomes the open line. `None`
   * is the `IndexError` that `parts[-1]` raises when the word has no part.
   */
  function ParaStep(measure: Metric, hyph: Option<Hyphenator>, fontsize: real, maxWidth: real, st: WrapState, w: string): Option<WrapState> {
    var cand := if st.curr != [] then st.curr + " " + w else w;
    if Fits(measure, cand, fontsize, maxWidth) then Some(WrapState(st.lines, cand))
    else
      var pushed := if st.curr != [] then st.lines + [st.curr] else st.lines;
      var parts := HyphenParts(measure, hyph, w, fontsize, maxWidth);
      if parts == [] then None
      else Some(WrapState(pushed + Hyphened(parts[..|parts| - 1]), parts[|parts| - 1]))
  }

  /** `_wrap_paragraph`'s state after the words `words`, or `None` once a round has raised. */
  function ParaWords(measure: Metric, hyph: Option<Hyphenator>, fontsize: real, maxWidth: real, words: seq<string>): Option<WrapState>
    decreases |words|
  {
    if words == [] then Some(WrapState([], []))
    else
      match ParaWords(measure, hyph, fontsize, maxWidth, words[..|words| - 1])
      case None => None
      case Some(st) => ParaStep(measure, hyph, fontsize, maxWidth, st, words[|words| - 1])
  }

  /** The lines `_wrap_paragraph(words, ...)` returns, or `None` when it raises. */
  function ParagraphLines(measure: Metric, hyph: Option<Hyphenator>, words: seq<string>, fontsize: real, maxWidth: real): Option<seq<string>> {
    match ParaWords(measure, hyph, fontsize, maxWidth, words)
    case None => None
    case Some(st) => Some(Finish(st))
  }

  lemma ParaWordsLast(measure: Metric, hyph: Option<Hyphenator>, fontsize: real, maxWidth: real, words: seq<string>, k: nat)
    requires k < |words|
    ensures ParaWords(measure, hyph, fontsize, maxWidth, words[..k + 1])
         == match ParaWords(measure, hyph, fontsize, maxWidth, words[..k])
            case None => None
            case Some(st) => ParaStep(measure, hyph, fontsize, maxWidth, st, words[k])
  {
    assert words[..k + 1][..k] == words[..k];
  }

  /**
   * A wrapped line as `_wrap_paragraph` leaves it: a line that holds
   * whitespace (several words) fits the width; a line without whitespace
   * (one word, or a piece of one) may not.
   */
  predicate SpacedFits(measure: Metric, fontsize: real, maxWidth: real, line: string) {
    NoSpace(line) || Fits(measure, line, fontsize, maxWidth)
  }

  /** Every emitted line is non-empty, and every line, the open one included, is `SpacedFits`. */
  predicate LinesShaped(measure: Metric, fontsize: real, maxWidth: real, st: WrapState) {
    && (forall i :: 0 <= i < |st.lines| ==> st.lines[i] != [] && SpacedFits(measure, fontsize, maxWidth, st.lines[i]))
    && SpacedFits(measure, fontsize, maxWidth, st.curr)
  }

  /** The letters of a wrapping state: its lines and its open line run together, without whitespace and hyphens. */
  function WrapText(st: WrapState): string {
    Letters(Concat(st.lines) + st.curr)
  }

  /** Hyphenated parts become non-empty lines without whitespace. */
  lemma {:induction false} HyphenedShape(ps: seq<string>)
    requires AllNoSpace(ps)
    ensures |Hyphened(ps)| == |ps|
    ensures forall i :: 0 <= i < |ps| ==> Hyphened(ps)[i] == ps[i] + "-" && NoSpace(Hyphened(ps)[i])
    decreases |ps|
  {
    if ps != [] {
      var init, last := ps[..|ps| - 1], ps[|ps| - 1];
      assert AllNoSpace(init) by {
        forall i | 0 <= i < |init| ensures NoSpace(init[i]) {
          assert init[i] == ps[i];
        }
      }
      HyphenedShape(init);
      assert NoSpace(last + "-") by {
        HyphenNoSpace();
        NoSpaceAppend(last, "-");
      }
    }
  }

  /** Hyphenated parts keep the parts' letters. */
  lemma {:induction false} HyphenedLetters(ps: seq<string>)
    ensures Letters(Concat(Hyphened(ps))) == Letters(Concat(ps))
    decreases |ps|
  {
    if ps != [] {
      var init, last := ps[..|ps| - 1], ps[|ps| - 1];
      var h := Hyphened(init);
      assert Letters(Concat(h)) == Letters(Concat(init)) by {
        HyphenedLetters(init);
      }
      assert Concat(Hyphened(ps)) == Concat(h) + (last + "-") by {
        assert Hyphened(ps) == h + [last + "-"];
        assert (h + [last + "-"])[..|h|] == h;
      }
      assert Letters(last + "-") == Letters(last) by {
        LettersAppend(last, "-");
        HyphenLetters();
      }
      LettersAppend(Concat(h), last + "-");
      LettersAppend(Concat(init), last);
    }
  }

  /** A word joined to the open line adds its letters. */
  lemma JoinWordLetters(st: WrapState, w: string)
    ensures var cand := if st.curr != [] then st.curr + " " + w else w;
      WrapText(WrapState(st.lines, cand)) == WrapText(st) + Letters(w)
  {
    var c := Concat(st.lines);
    if st.curr != [] {
      assert c + (st.curr + " " + w) == (c + st.curr) + " " + w by {
        SeqAssoc(c, st.curr + " ", w);
        SeqAssoc(c, st.curr, " ");
      }
      assert Letters(" ") == [] by {
        assert IsSpace(" "[0]);
      }
      LettersAppend((c + st.curr) + " ", w);
      LettersAppend(c + st.curr, " ");
    } else {
      assert c + st.curr == c;
      LettersAppend(c, w);
    }
  }

  /** Emitting the open line, then lines, then opening the last part. */
  lemma PushLinesLetters(st: WrapState, more: seq<string>, last: string)
    ensures var pushed := if st.curr != [] then st.lines + [st.curr] else st.lines;
      WrapText(WrapState(pushed + more, last)) == WrapText(st) + Letters(Concat(more) + last)
  {
    var pushed := if st.curr != [] then st.lines + [st.curr] else st.lines;
    assert Concat(pushed) == Concat(st.lines) + st.curr by {
      if st.curr != [] {
        assert (st.lines + [st.curr])[..|st.lines|] == st.lines;
      }
    }
    assert Concat(pushed + more) + last == Concat(pushed) + (Concat(more) + last) by {
      ConcatAppend(pushed, more);
      SeqAssoc(Concat(pushed), Concat(more), last);
    }
    LettersAppend(Concat(pushed), Concat(more) + last);
  }

  /**
   * One round on a word without whitespace keeps the lines shaped and adds
   * the word's letters, given a dictionary that only inserts hyphens; with
   * no dictionary the round never raises.
   */
  lemma ParaStepFacts(measure: Metric, hyph: Option<Hyphenator>, fontsize: real, maxWidth: real, st: WrapState, w: string)
    requires GoodDictionary(hyph) && LinesShaped(measure, fontsize, maxWidth, st) && w != [] && NoSpace(w)
    ensures hyph.None? ==> ParaStep(measure, hyph, fontsize, maxWidth, st, w).Some?
    ensures match ParaStep(measure, hyph, fontsize, maxWidth, st, w)
      case None => true
      case Some(next) => LinesShaped(measure, fontsize, maxWidth, next) && WrapText(next) == WrapText(st) + Letters(w)
  {
    var cand := if st.curr != [] then st.curr + " " + w else w;
    if Fits(measure, cand, fontsize, maxWidth) {
      JoinWordLetters(st, w);
    } else {
      var parts := HyphenParts(measure, hyph, w, fontsize, maxWidth);
      if hyph.None? {
        HyphenateNoDictionary(measure, w, fontsize, maxWidth);
      }
      if parts != [] {
        HyphenStepFacts(measure, hyph, fontsize, maxWidth, st, w);
      }
    }
  }

  /** The round of a word that does not fit and has parts. */
  lemma HyphenStepFacts(measure: Metric, hyph: Option<Hyphenator>, fontsize: real, maxWidth: real, st: WrapState, w: string)
    requires GoodDictionary(hyph) && LinesShaped(measure, fontsize, maxWidth, st) && NoSpace(w)
    requires HyphenParts(measure, hyph, w, fontsize, maxWidth) != []
    ensures var pushed := if st.curr != [] then st.lines + [st.curr] else st.lines;
      var parts := HyphenParts(measure, hyph, w, fontsize, maxWidth);
      var next := WrapState(pushed + Hyphened(parts[..|parts| - 1]), parts[|parts| - 1]);
      LinesShaped(measure, fontsize, maxWidth, next) && WrapText(next) == WrapText(st) + Letters(w)
  {
    var parts := HyphenParts(measure, hyph, w, fontsize, maxWidth);
    HyphenPartsNoSpace(measure, hyph, w, fontsize, maxWidth);
    HyphenPartsLetters(measure, hyph, w, fontsize, maxWidth);
    PartsStepFacts(measure, fontsize, maxWidth, st, parts, w);
  }

  /** Emitting the open line and hyphenated parts without whitespace that hold the letters of `w`. */
  lemma PartsStepFacts(measure: Metric, fontsize: real, maxWidth: real, st: WrapState, parts: seq<string>, w: string)
    requires LinesShaped(measure, fontsize, maxWidth, st)
    requires parts != [] && AllNoSpace(parts) && Letters(Concat(parts)) == Letters(w)
    ensures var pushed := if st.curr != [] then st.lines + [st.curr] else st.lines;
      var next := WrapState(pushed + Hyphened(parts[..|parts| - 1]), parts[|parts| - 1]);
      LinesShaped(measure, fontsize, maxWidth, next) && WrapText(next) == WrapText(st) + Letters(w)
  {
    var init, last := parts[..|parts| - 1], parts[|parts| - 1];
    var more := Hyphened(init);
    assert AllNoSpace(init) && NoSpace(last) by {
      forall i | 0 <= i < |init| ensures NoSpace(init[i]) {
        assert init[i] == parts[i];
      }
    }
    assert forall i :: 0 <= i < |more| ==> more[i] != [] && NoSpace(more[i]) by {
      HyphenedShape(init);
    }
    assert Letters(Concat(more) + last) == Letters(w) by {
      assert Letters(Concat(more)) == Letters(Concat(init)) by {
        HyphenedLetters(init);
      }
      LettersAppend(Concat(more), last);
      LettersAppend(Concat(init), last);
      assert Concat(parts) == Concat(init) + last;
    }
    PushLinesLetters(st, more, last);
    ShapedAfterPush(measure, fontsize, maxWidth, st, more, last);
  }

  lemma ShapedAfterPush(measure: Metric, fontsize: real, maxWidth: real, st: WrapState, more: seq<string>, last: string)
    requires LinesShaped(measure, fontsize, maxWidth, st)
    requires forall i :: 0 <= i < |more| ==> more[i] != [] && NoSpace(more[i])
    requires NoSpace(last)
    ensures var pushed := if st.curr != [] then st.lines + [st.curr] else st.lines;
      LinesShaped(measure, fontsize, maxWidth, WrapState(pushed + more, last))
  {
    var pushed := if st.curr != [] then st.lines + [st.curr] else st.lines;
    var lines := pushed + more;
    forall i | 0 <= i < |lines| ensures lines[i] != [] && SpacedFits(measure, fontsize, maxWidth, lines[i]) {
      if i < |pushed| {
        assert lines[i] == pushed[i];
        if i < |st.lines| {
          assert pushed[i] == st.lines[i];
        }
      } else {
        assert lines[i] == more[i - |pushed|];
      }
    }
  }

  /**
   * After the words `words` of a paragraph, with no dictionary or one that
   * only inserts hyphens: the lines are shaped and hold the words' letters
   * in order; with no dictionary nothing has raised.
   */
  lemma {:induction false} ParaWordsFacts(measure: Metric, hyph: Option<Hyphenator>, fontsize: real, maxWidth: real, words: seq<string>)
    requires GoodDictionary(hyph) && ProperWords(words)
    ensures hyph.None? ==> ParaWords(measure, hyph, fontsize, maxWidth, words).Some?
    ensures match ParaWords(measure, hyph, fontsize, maxWidth, words)
      case None => true
      case Some(st) => LinesShaped(measure, fontsize, maxWidth, st) && WrapText(st) == Letters(Concat(words))
    decreases |words|
  {
    if words == [] {
      assert WrapText(WrapState([], [])) == [];
      assert NoSpace([]);
    } else {
      var init, w := words[..|words| - 1], words[|words| - 1];
      ProperWordsPrefix(words, |init|);
      ParaWordsFacts(measure, hyph, fontsize, maxWidth, init);
      match ParaWords(measure, hyph, fontsize, maxWidth, init)
      case None =>
      case Some(st) =>
        ParaStepFacts(measure, hyph, fontsize, maxWidth, st, w);
        assert Concat(words) == Concat(init) + w;
        LettersAppend(Concat(init), w);
    }
  }

  /** Lines as both wrapping loops return them: non-empty, and fitting the width when they hold whitespace. */
  predicate GoodLines(measure: Metric, fontsize: real, maxWidth: real, lines: seq<string>) {
    forall i :: 0 <= i < |lines| ==> lines[i] != [] && SpacedFits(measure, fontsize, maxWidth, lines[i])
  }

  /** Emitting the open line keeps the lines shaped and their letters. */
  lemma FinishShaped(measure: Metric, fontsize: real, maxWidth: real, st: WrapState)
    requires LinesShaped(measure, fontsize, maxWidth, st)
    ensures GoodLines(measure, fontsize, maxWidth, Finish(st))
    ensures Letters(Concat(Finish(st))) == WrapText(st)
  {
    if st.curr != [] {
      assert (st.lines + [st.curr])[..|st.lines|] == st.lines;
    } else {
      assert Concat(st.lines) + st.curr == Concat(st.lines);
    }
  }

  /**
   * The properties of `_wrap_paragraph`, given no dictionary or one that only
   * inserts hyphens: with no dictionary it never raises; its lines are
   * non-empty; a line holding whitespace fits the width; and the lines hold
   * the letters of the words, in order, with hyphens only added or removed.
   */
  lemma ParagraphLinesFacts(measure: Metric, hyph: Option<Hyphenator>, words: seq<string>, fontsize: real, maxWidth: real)
    requires GoodDictionary(hyph) && ProperWords(words)
    ensures hyph.None? ==> ParagraphLines(measure, hyph, words, fontsize, maxWidth).Some?
    ensures var r := ParagraphLines(measure, hyph, words, fontsize, maxWidth);
      r.Some? ==> GoodLines(measure, fontsize, maxWidth, r.value) && Letters(Concat(r.value)) == Letters(Concat(words))
  {
    ParaWordsFacts(measure, hyph, fontsize, maxWidth, words);
    var r := ParaWords(measure, hyph, fontsize, maxWidth, words);
    if r.Some? {
      FinishShaped(measure, fontsize, maxWidth, r.value);
    }
  }

  /** One unit of width per character, whatever the size. */
  function UnitWidth(s: string, fontsize: real): real {
    |s| as real
  }

  lemma SplitAb()
    ensures CharSplit(UnitWidth, 1.0, 1.0, "ab") == CharSplitState(["a"], "b")
  {
    var w: string := "ab";
    CharSplitLast(UnitWidth, 1.0, 1.0, w, 0);
    assert CharSplit(UnitWidth, 1.0, 1.0, w[..1]) == CharSplitState([], "a") by {
      assert w[..0] == [];
      assert [] + ['a'] == "a";
    }
    CharSplitLast(UnitWidth, 1.0, 1.0, w, 1);
    assert |"a" + ['b']| == 2;
    assert [] + ["a"] == ["a"];
    assert w[..2] == w;
  }

  lemma PartsAb()
    ensures HyphenParts(UnitWidth, None, "ab", 1.0, 1.0) == ["a", "b"]
  {
    SplitAb();
    assert |"ab" + "-"| == 3;
    NoDictionarySplits(UnitWidth, "ab", 1.0, 1.0);
    RStripNoHyphen("b", "");
    assert "b" + "" == "b";
  }

  /**
   * A word split by characters gets a hyphen appended to a fragment that was
   * measured without it, so a line can be wider than the box: at one unit
   * per character in a box one unit wide, the word "ab" gives the line
   * "a-", two units wide.
   */
  lemma HyphenatedLineOverflows()
    ensures ParagraphLines(UnitWidth, None, ["ab"], 1.0, 1.0) == Some(["a-", "b"])
    ensures !Fits(UnitWidth, "a-", 1.0, 1.0)
  {
    WordsAb();
    assert Finish(WrapState(["a-"], "b")) == ["a-", "b"];
  }

  /** The state `_wrap_paragraph` reaches on the one word "ab", one unit per character, one unit wide. */
  lemma WordsAb()
    ensures ParaWords(UnitWidth, None, 1.0, 1.0, ["ab"]) == Some(WrapState(["a-"], "b"))
  {
    PartsAb();
    assert ["a", "b"] == ["a"] + ["b"];
    FirstStepSplits(UnitWidth, None, 1.0, 1.0, "ab", ["a"], "b");
    HyphenedOne("a");
    assert "a" + "-" == "a-";
    OneWord(UnitWidth, None, 1.0, 1.0, "ab");
  }

  /** A paragraph of one word is one round from the empty state. */
  lemma OneWord(measure: Metric, hyph: Option<Hyphenator>, fontsize: real, maxWidth: real, w: string)
    ensures ParaWords(measure, hyph, fontsize, maxWidth, [w]) == ParaStep(measure, hyph, fontsize, maxWidth, WrapState([], []), w)
  {
    assert [w][..0] == [];
  }

  lemma HyphenedOne(p: string)
    ensures Hyphened([p]) == [p + "-"]
  {
    assert [p][..0] == [];
  }

  /** The first round of a paragraph, on a word too wide for the box whose parts are `init` and then `last`. */
  lemma FirstStepSplits(measure: Metric, hyph: Option<Hyphenator>, fontsize: real, maxWidth: real, w: string,
                        init: seq<string>, last: string)
    requires !Fits(measure, w, fontsize, maxWidth)
    requires HyphenParts(measure, hyph, w, fontsize, maxWidth) == init + [last]
    ensures ParaStep(measure, hyph, fontsize, maxWidth, WrapState([], []), w) == Some(WrapState(Hyphened(init), last))
  {
    var parts := init + [last];
    assert parts[..|parts| - 1] == init;
    var st := WrapState([], []);
    assert (if st.curr != [] then st.curr + " " + w else w) == w;
    assert (if st.curr != [] then st.lines + [st.curr] else st.lines) == [];
    assert [] + Hyphened(init) == Hyphened(init);
  }

  /** A dictionary that returns every word as it is. */
  function Unchanged(w: string): string {
    w
  }

  /**
   * A word made of one hyphen, with a dictionary that leaves it as it is,
   * gives no part at all in a box narrower than a hyphen, and
   * `_wrap_paragraph`'s `parts[-1]` raises.
   */
  lemma HyphenOnlyWordRaises()
    ensures InsertsOnlyHyphens(Unchanged)
    ensures ParagraphLines(UnitWidth, Some(Unchanged), ["-"], 1.0, 0.5) == None
  {
    PartsOfHyphen();
    FirstStepRaises(UnitWidth, Some(Unchanged), 1.0, 0.5, "-");
    OneWord(UnitWidth, Some(Unchanged), 1.0, 0.5, "-");
  }

  /** The word "-", syllables "" and "", gives no part in a box half a unit wide. */
  lemma PartsOfHyphen()
    ensures HyphenParts(UnitWidth, Some(Unchanged), "-", 1.0, 0.5) == []
  {
    assert Syllables(Some(Unchanged), "-") == ["", ""] by {
      SplitHyphen();
    }
    var empty := HyphState([], []);
    assert HyphStep(UnitWidth, 1.0, 0.5, empty, "") == empty by {
      assert [] + ("" + "-") == "-";
    }
    assert HyphSylls(UnitWidth, 1.0, 0.5, ["", ""]) == empty by {
      assert ["", ""][..1] == [""];
      assert [""][..0] == [];
    }
  }

  /** `"-".split("-")` */
  lemma SplitHyphen()
    ensures SplitOn("-", "-") == ["", ""]
  {
    var w: string := "-";
    FindFirst(w, "-", 0);
    assert w[1..] == [];
    assert !Contains([], "-");
  }

  /** The first round of a paragraph, on a word too wide for the box that has no part, raises. */
  lemma FirstStepRaises(measure: Metric, hyph: Option<Hyphenator>, fontsize: real, maxWidth: real, w: string)
    requires !Fits(measure, w, fontsize, maxWidth)
    requires HyphenParts(measure, hyph, w, fontsize, maxWidth) == []
    ensures ParaStep(measure, hyph, fontsize, maxWidth, WrapState([], []), w) == None
  {
    var st := WrapState([], []);
    assert (if st.curr != [] then st.curr + " " + w else w) == w;
  }

  // ------------------------------------------------------------ _wrap_text

  /** The lines `_wrap_text` adds for one paragraph: an empty line when it has no word, otherwise its wrapped lines. */
  function ParagraphBlock(measure: Metric, hyph: Option<Hyphenator>, para: string, fontsize: real, maxWidth: real): Option<seq<string>> {
    var words := Words(para);
    if words == [] then Some([""]) else ParagraphLines(measure, hyph, words, fontsize, maxWidth)
  }

  /** `_wrap_text`'s lines after the paragraphs `paras`, or `None` once one has raised. */
  function ParagraphsLines(measure: Metric, hyph: Option<Hyphenator>, paras: seq<string>, fontsize: real, maxWidth: real): Option<seq<string>>
    decreases |paras|
  {
    if paras == [] then Some([])
    else
      match ParagraphsLines(measure, hyph, paras[..|paras| - 1], fontsize, maxWidth)
      case None => None
      case Some(lines) =>
        match ParagraphBlock(measure, hyph, paras[|paras| - 1], fontsize, maxWidth)
        case None => None
        case Some(more) => Some(lines + more)
  }

  /** The lines `_wrap_text(text, ...)` returns, or `None` when it raises. */
  function TextLines(measure: Metric, hyph: Option<Hyphenator>, text: string, fontsize: real, maxWidth: real): Option<seq<string>> {
    ParagraphsLines(measure, hyph, Paragraphs(text), fontsize, maxWidth)
  }

  lemma ParagraphsLinesLast(measure: Metric, hyph: Option<Hyphenator>, paras: seq<string>, k: nat, fontsize: real, maxWidth: real)
    requires k < |paras|
    ensures ParagraphsLines(measure, hyph, paras[..k + 1], fontsize, maxWidth)
         == match ParagraphsLines(measure, hyph, paras[..k], fontsize, maxWidth)
            case None => None
            case Some(lines) =>
              match ParagraphBlock(measure, hyph, paras[k], fontsize, maxWidth)
              case None => None
              case Some(more) => Some(lines + more)
  {
    assert paras[..k + 1][..k] == paras[..k];
  }

  lemma {:induction false} ParagraphsLinesFacts(measure: Metric, hyph: Option<Hyphenator>, paras: seq<string>, fontsize: real, maxWidth: real)
    requires GoodDictionary(hyph)
    requires forall i :: 0 <= i < |paras| ==> IsParagraph(paras[i])
    ensures hyph.None? ==> ParagraphsLines(measure, hyph, paras, fontsize, maxWidth).Some?
    ensures var r := ParagraphsLines(measure, hyph, paras, fontsize, maxWidth);
      r.Some? ==> GoodLines(measure, fontsize, maxWidth, r.value) && Letters(Concat(r.value)) == Letters(Concat(FlatWords(paras)))
    decreases |paras|
  {
    if paras != [] {
      var init, p := paras[..|paras| - 1], paras[|paras| - 1];
      ParagraphsLinesFacts(measure, hyph, init, fontsize, maxWidth);
      var r := ParagraphsLines(measure, hyph, init, fontsize, maxWidth);
      if r.Some? {
        ParagraphBlockFacts(measure, hyph, fontsize, maxWidth, r.value, FlatWords(init), p);
      }
    }
  }

  /** A paragraph's lines, appended to shaped lines. */
  lemma ParagraphBlockFacts(measure: Metric, hyph: Option<Hyphenator>, fontsize: real, maxWidth: real,
                            lines: seq<string>, before: seq<string>, p: string)
    requires GoodDictionary(hyph) && IsParagraph(p)
    requires GoodLines(measure, fontsize, maxWidth, lines) && Letters(Concat(lines)) == Letters(Concat(before))
    ensures var b := ParagraphBlock(measure, hyph, p, fontsize, maxWidth);
      && (hyph.None? ==> b.Some?)
      && (b.Some? ==>
            GoodLines(measure, fontsize, maxWidth, lines + b.value)
            && Letters(Concat(lines + b.value)) == Letters(Concat(before + Words(p))))
  {
    var words := Words(p);
    assert words != [] by {
      ParagraphHasWords(p);
    }
    ParagraphLinesFacts(measure, hyph, words, fontsize, maxWidth);
    var b := ParagraphLines(measure, hyph, words, fontsize, maxWidth);
    if b.Some? {
      AppendLinesFacts(measure, fontsize, maxWidth, lines, b.value, before, words);
    }
  }

  lemma AppendLinesFacts(measure: Metric, fontsize: real, maxWidth: real, lines: seq<string>, more: seq<string>,
                         before: seq<string>, words: seq<string>)
    requires GoodLines(measure, fontsize, maxWidth, lines) && GoodLines(measure, fontsize, maxWidth, more)
    requires Letters(Concat(lines)) == Letters(Concat(before)) && Letters(Concat(more)) == Letters(Concat(words))
    ensures GoodLines(measure, fontsize, maxWidth, lines + more)
    ensures Letters(Concat(lines + more)) == Letters(Concat(before + words))
  {
    forall i | 0 <= i < |lines + more|
      ensures (lines + more)[i] != [] && SpacedFits(measure, fontsize, maxWidth, (lines + more)[i])
    {
      if i < |lines| {
        assert (lines + more)[i] == lines[i];
      } else {
        assert (lines + more)[i] == more[i - |lines|];
      }
    }
    ConcatAppend(lines, more);
    ConcatAppend(before, words);
    LettersAppend(Concat(lines), Concat(more));
    LettersAppend(Concat(before), Concat(words));
  }

  /**
   * The properties of `_wrap_text`, given no dictionary or one that only
   * inserts hyphens: with no dictionary it never raises; it never emits an
   * empty line (every paragraph has a word, so the blank-line branch is never
   * taken); a line holding whitespace fits the width; and the lines hold the
   * letters of the text in order, whitespace and hyphens aside.
   */
  lemma TextLinesFacts(measure: Metric, hyph: Option<Hyphenator>, text: string, fontsize: real, maxWidth: real)
    requires GoodDictionary(hyph)
    ensures hyph.None? ==> TextLines(measure, hyph, text, fontsize, maxWidth).Some?
    ensures match TextLines(measure, hyph, text, fontsize, maxWidth)
      case None => true
      case Some(lines) => GoodLines(measure, fontsize, maxWidth, lines) && Letters(Concat(lines)) == Letters(text)
  {
    ParagraphsFacts(text);
    ParagraphsLinesFacts(measure, hyph, Paragraphs(text), fontsize, maxWidth);
    WordsKeepText(text);
    LettersNonSpace(text);
  }

  // ---------------------------------------------------------------- reflow

  /** `max(fs * 0.9, min_fontsize)`: the size tried after an overflowing round. */
  function NextSize(fontsize: real, minFontsize: real): real {
    Max(fontsize * 0.9, minFontsize)
  }

  /**
   * The size `reflow`'s loop settles on, starting at `fontsize` with
   * `rounds` rounds left: with none left the size stays; otherwise one round
   * runs (`WrapRound`). `None` is an exception from wrapping.
   */
  function FitRounds(measure: Metric, hyph: Option<Hyphenator>, text: string, fontsize: real, maxWidth: real, maxHeight: real,
                     lineSpacing: real, minFontsize: real, rounds: int): Option<real>
    decreases rounds, 2
  {
    if rounds <= 0 then Some(fontsize)
    else FitRound(measure, hyph, text, fontsize, maxWidth, maxHeight, lineSpacing, minFontsize, rounds)
  }

  /**
   * A round at `fontsize`. It only hands over to `WrapRound`: the loop is
   * defined by three functions so that the verifier, which unfolds a
   * recursive definition at most twice in a row, sees one round at a time
   * (`FitRoundsStep` unfolds a whole round).
   */
  function FitRound(measure: Metric, hyph: Option<Hyphenator>, text: string, fontsize: real, maxWidth: real, maxHeight: real,
                    lineSpacing: real, minFontsize: real, rounds: int): Option<real>
    requires rounds > 0
    decreases rounds, 1
  {
    WrapRound(measure, hyph, text, fontsize, maxWidth, maxHeight, lineSpacing, minFontsize, rounds)
  }

  /**
   * The body of a round: wrap the text at `fontsize`; stop when the lines
   * fit `max_height` or the size is down to `min_fontsize`; otherwise the
   * next round tries `NextSize`.
   */
  function WrapRound(measure: Metric, hyph: Option<Hyphenator>, text: string, fontsize: real, maxWidth: real, maxHeight: real,
                     lineSpacing: real, minFontsize: real, rounds: int): Option<real>
    requires rounds > 0
    decreases rounds, 0
  {
    match TextLines(measure, hyph, text, fontsize, maxWidth)
    case None => None
    case Some(lines) =>
      if TotalHeight(|lines|, fontsize, lineSpacing) <= maxHeight || fontsize <= minFontsize then Some(fontsize)
      else FitRounds(measure, hyph, text, NextSize(fontsize, minFontsize), maxWidth, maxHeight, lineSpacing, minFontsize, rounds - 1)
  }

  /** One round of `reflow`'s loop, once the text has been wrapped at `fontsize`. */
  lemma FitRoundsStep(measure: Metric, hyph: Option<Hyphenator>, text: string, fontsize: real, maxWidth: real, maxHeight: real,
                      lineSpacing: real, minFontsize: real, rounds: int, wrapped: Option<seq<string>>)
    requires rounds > 0 && wrapped == TextLines(measure, hyph, text, fontsize, maxWidth)
    ensures wrapped.None? ==> FitRounds(measure, hyph, text, fontsize, maxWidth, maxHeight, lineSpacing, minFontsize, rounds) == None
    ensures wrapped.Some? && (TotalHeight(|wrapped.value|, fontsize, lineSpacing) <= maxHeight || fontsize <= minFontsize) ==>
      FitRounds(measure, hyph, text, fontsize, maxWidth, maxHeight, lineSpacing, minFontsize, rounds) == Some(fontsize)
    ensures wrapped.Some? && !(TotalHeight(|wrapped.value|, fontsize, lineSpacing) <= maxHeight || fontsize <= minFontsize) ==>
      (FitRounds(measure, hyph, text, fontsize, maxWidth, maxHeight, lineSpacing, minFontsize, rounds)
       == FitRounds(measure, hyph, text, NextSize(fontsize, minFontsize), maxWidth, maxHeight, lineSpacing, minFontsize, rounds - 1))
  {
    assert FitRounds(measure, hyph, text, fontsize, maxWidth, maxHeight, lineSpacing, minFontsize, rounds)
        == WrapRound(measure, hyph, text, fontsize, maxWidth, maxHeight, lineSpacing, minFontsize, rounds);
  }

  /** How one round of `reflow`'s loop ends. */
  datatype RoundOutcome = Raised | Settled | Shrunk(next: real)

  /** The pair `reflow` returns: the lines, and the size they were wrapped at. */
  datatype Fitted = Fitted(lines: seq<string>, fontsize: real)

  /** What `reflow` returns: the text wrapped again at the settled size, and that size. */
  function Reflowed(measure: Metric, hyph: Option<Hyphenator>, text: string, initialFs: real, maxWidth: real, maxHeight: real,
                    lineSpacing: real, minFontsize: real, maxIter: int): Option<Fitted>
  {
    match FitRounds(measure, hyph, text, initialFs, maxWidth, maxHeight, lineSpacing, minFontsize, maxIter)
    case None => None
    case Some(fs) =>
      match TextLines(measure, hyph, text, fs, maxWidth)
      case None => None
      case Some(lines) => Some(Fitted(lines, fs))
  }

  /** `x` shrunk by 10% `k` times. */
  function Shrunk(x: real, k: int): real
    decreases k
  {
    if k <= 0 then x else Shrunk(x * 0.9, k - 1)
  }

  lemma {:induction false} ShrunkMonotone(x: real, y: real, k: int)
    requires x <= y
    ensures Shrunk(x, k) <= Shrunk(y, k)
    decreases k
  {
    if k > 0 {
      ShrunkMonotone(x * 0.9, y * 0.9, k - 1);
    }
  }

  lemma {:induction false} ShrunkBelow(x: real, k: int)
    requires x >= 0.0
    ensures 0.0 <= Shrunk(x, k) <= x
    decreases k
  {
    if k > 0 {
      ShrunkBelow(x * 0.9, k - 1);
    }
  }

  /** With no dictionary, wrapping never raises. */
  lemma TextLinesNoDictionary(measure: Metric, text: string, fontsize: real, maxWidth: real)
    ensures TextLines(measure, None, text, fontsize, maxWidth).Some?
  {
    TextLinesFacts(measure, None, text, fontsize, maxWidth);
  }

  /** With no dictionary, a round settles on its size or moves on to the next one. */
  lemma RoundNoDictionary(measure: Metric, text: string, fontsize: real, maxWidth: real,
                          maxHeight: real, lineSpacing: real, minFontsize: real, rounds: int)
    requires rounds > 0
    ensures var r := FitRounds(measure, None, text, fontsize, maxWidth, maxHeight, lineSpacing, minFontsize, rounds);
      r == Some(fontsize) || r == FitRounds(measure, None, text, NextSize(fontsize, minFontsize), maxWidth, maxHeight, lineSpacing, minFontsize, rounds - 1)
  {
    var wrapped := TextLines(measure, None, text, fontsize, maxWidth);
    TextLinesNoDictionary(measure, text, fontsize, maxWidth);
    FitRoundsStep(measure, None, text, fontsize, maxWidth, maxHeight, lineSpacing, minFontsize, rounds, wrapped);
  }

  /** With no dictionary, no round raises. */
  lemma {:induction false} FitRoundsNoDictionary(measure: Metric, text: string, fontsize: real, maxWidth: real,
                                                 maxHeight: real, lineSpacing: real, minFontsize: real, rounds: int)
    ensures FitRounds(measure, None, text, fontsize, maxWidth, maxHeight, lineSpacing, minFontsize, rounds).Some?
    decreases rounds
  {
    if rounds > 0 {
      RoundNoDictionary(measure, text, fontsize, maxWidth, maxHeight, lineSpacing, minFontsize, rounds);
      FitRoundsNoDictionary(measure, text, NextSize(fontsize, minFontsize), maxWidth, maxHeight, lineSpacing, minFontsize, rounds - 1);
    }
  }

  /** A round raises, settles on its size, or, above `min_fontsize`, moves on to the next size. */
  lemma RoundCases(measure: Metric, hyph: Option<Hyphenator>, text: string, fontsize: real, maxWidth: real,
                   maxHeight: real, lineSpacing: real, minFontsize: real, rounds: int)
    requires rounds > 0
    ensures var r := FitRounds(measure, hyph, text, fontsize, maxWidth, maxHeight, lineSpacing, minFontsize, rounds);
      || r == None
      || r == Some(fontsize)
      || (fontsize > minFontsize
          && r == FitRounds(measure, hyph, text, NextSize(fontsize, minFontsize), maxWidth, maxHeight, lineSpacing, minFontsize, rounds - 1))
  {
    FitRoundsStep(measure, hyph, text, fontsize, maxWidth, maxHeight, lineSpacing, minFontsize, rounds,
                  TextLines(measure, hyph, text, fontsize, maxWidth));
  }

  /**
   * The size `reflow` settles on, from a positive initial size: it is
   * positive and never larger than the initial size; when it is smaller, it
   * is at least `min_fontsize`; and it is at least the initial size shrunk
   * by 10% once per round.
   */
  lemma {:induction false} FitRoundsBounds(measure: Metric, hyph: Option<Hyphenator>, text: string, fontsize: real, maxWidth: real,
                                           maxHeight: real, lineSpacing: real, minFontsize: real, rounds: int)
    requires fontsize > 0.0
    ensures var r := FitRounds(measure, hyph, text, fontsize, maxWidth, maxHeight, lineSpacing, minFontsize, rounds);
      r.Some? ==>
        && 0.0 < r.value <= fontsize
        && (r.value == fontsize || minFontsize <= r.value)
        && Shrunk(fontsize, rounds) <= r.value
    decreases rounds
  {
    ShrunkBelow(fontsize, rounds);
    if rounds > 0 {
      RoundCases(measure, hyph, text, fontsize, maxWidth, maxHeight, lineSpacing, minFontsize, rounds);
      if fontsize > minFontsize {
        var next := NextSize(fontsize, minFontsize);
        assert 0.0 < fontsize * 0.9 <= next < fontsize;
        FitRoundsBounds(measure, hyph, text, next, maxWidth, maxHeight, lineSpacing, minFontsize, rounds - 1);
        ShrunkMonotone(fontsize * 0.9, next, rounds - 1);
      }
    }
  }

  /**
   * The properties of `reflow`: with no dictionary it never raises; the
   * size it returns is bounded as `FitRoundsBounds` says; and the lines it
   * returns are the text wrapped at that size.
   */
  lemma ReflowedFacts(measure: Metric, hyph: Option<Hyphenator>, text: string, initialFs: real, maxWidth: real, maxHeight: real,
                      lineSpacing: real, minFontsize: real, maxIter: int)
    requires initialFs > 0.0
    ensures hyph.None? ==> Reflowed(measure, hyph, text, initialFs, maxWidth, maxHeight, lineSpacing, minFontsize, maxIter).Some?
    ensures var r := Reflowed(measure, hyph, text, initialFs, maxWidth, maxHeight, lineSpacing, minFontsize, maxIter);
      r.Some? ==>
        && 0.0 < r.value.fontsize <= initialFs
        && (r.value.fontsize == initialFs || minFontsize <= r.value.fontsize)
        && Shrunk(initialFs, maxIter) <= r.value.fontsize
        && TextLines(measure, hyph, text, r.value.fontsize, maxWidth) == Some(r.value.lines)
  {
    FitRoundsBounds(measure, hyph, text, initialFs, maxWidth, maxHeight, lineSpacing, minFontsize, maxIter);
    if hyph.None? {
      ReflowedNoDictionary(measure, text, initialFs, maxWidth, maxHeight, lineSpacing, minFontsize, maxIter);
    }
  }

  /** With no dictionary, `reflow` never raises. */
  lemma ReflowedNoDictionary(measure: Metric, text: string, initialFs: real, maxWidth: real, maxHeight: real,
                             lineSpacing: real, minFontsize: real, maxIter: int)
    ensures Reflowed(measure, None, text, initialFs, maxWidth, maxHeight, lineSpacing, minFontsize, maxIter).Some?
  {
    FitRoundsNoDictionary(measure, text, initialFs, maxWidth, maxHeight, lineSpacing, minFontsize, maxIter);
    var f := FitRounds(measure, None, text, initialFs, maxWidth, maxHeight, lineSpacing, minFontsize, maxIter);
    TextLinesNoDictionary(measure, text, f.value, maxWidth);
  }

  /** The lines `reflow` returns are the text wrapped at the size it returns. */
  lemma ReflowedLines(measure: Metric, hyph: Option<Hyphenator>, text: string, initialFs: real, maxWidth: real, maxHeight: real,
                      lineSpacing: real, minFontsize: real, maxIter: int)
    ensures var r := Reflowed(measure, hyph, text, initialFs, maxWidth, maxHeight, lineSpacing, minFontsize, maxIter);
      r.Some? ==> TextLines(measure, hyph, text, r.value.fontsize, maxWidth) == Some(r.value.lines)
  {
  }

  /** When the text wrapped at the initial size already fits `max_height`, `reflow` keeps that size and those lines. */
  lemma ReflowedKeepsFit(measure: Metric, hyph: Option<Hyphenator>, text: string, initialFs: real, maxWidth: real, maxHeight: real,
                         lineSpacing: real, minFontsize: real, maxIter: int)
    requires var first := TextLines(measure, hyph, text, initialFs, maxWidth);
      first.Some? && TotalHeight(|first.value|, initialFs, lineSpacing) <= maxHeight
    ensures Reflowed(measure, hyph, text, initialFs, maxWidth, maxHeight, lineSpacing, minFontsize, maxIter)
         == Some(Fitted(TextLines(measure, hyph, text, initialFs, maxWidth).value, initialFs))
  {
    if maxIter >= 1 {
      FitRoundsStep(measure, hyph, text, initialFs, maxWidth, maxHeight, lineSpacing, minFontsize, maxIter,
                    TextLines(measure, hyph, text, initialFs, maxWidth));
    }
  }

  // ----------------------------------------------------------- render_page

  /**
   * What `render_page` reads of its font: `font.height(fs)`, `font.ascent`
   * and `font.descent`, each of which may be missing (the attribute or
   * method is looked up at run time and its absence caught).
   */
  datatype FontMetrics = FontMetrics(height: Option<real -> real>, ascent: Option<real>, descent: Option<real>)

  /** `base_h`: `font.height(fs)`, else `(ascent - descent) * fs / 1000`, else `fs`. */
  function BaseHeight(font: FontMetrics, fontsize: real): (h: real)
    ensures font.height.Some? ==> h == font.height.value(fontsize)
    ensures font.height.None? && font.ascent.Some? && font.descent.Some?
            ==> h == (font.ascent.value - font.descent.value) * fontsize / 1000.0
    ensures font.height.None? && (font.ascent.None? || font.descent.None?) ==> h == fontsize
  {
    if font.height.Some? then font.height.value(fontsize)
    else if font.ascent.Some? && font.descent.Some? then (font.ascent.value - font.descent.value) * fontsize / 1000.0
    else fontsize
  }

  /** `line_h = base_h * line_spacing`: the distance between consecutive baselines. */
  function LineHeight(font: FontMetrics, fontsize: real, lineSpacing: real): real {
    BaseHeight(font, fontsize) * lineSpacing
  }

  /** `asc`: `font.ascent * fs / 1000`, else `fs * 0.8`. */
  function Ascender(font: FontMetrics, fontsize: real): (asc: real)
    ensures font.ascent.Some? ==> asc == font.ascent.value * fontsize / 1000.0
    ensures font.ascent.None? ==> asc == 0.8 * fontsize
  {
    if font.ascent.Some? then font.ascent.value * fontsize / 1000.0 else fontsize * 0.8
  }

  /** `baseline0 + i * line_h`: the baseline of line `i`. */
  function BaselineY(baseline0: real, lineH: real, i: nat): real {
    baseline0 + (i as real) * lineH
  }

  /** Consecutive baselines are exactly `line_h` apart. */
  lemma BaselineStep(baseline0: real, lineH: real, i: nat)
    ensures BaselineY(baseline0, lineH, i + 1) - BaselineY(baseline0, lineH, i) == lineH
    ensures BaselineY(baseline0, lineH, 0) == baseline0
  {
    assert ((i + 1) as real) * lineH == (i as real) * lineH + lineH;
  }

  /** The `insert_text` calls for `lines`, line `i` on `BaselineY(i)`, all at `x`. */
  function BaselineOps(x: real, baseline0: real, lineH: real, lines: seq<string>, fontsize: real): seq<Op>
    decreases |lines|
  {
    if lines == [] then []
    else
      var i := |lines| - 1;
      BaselineOps(x, baseline0, lineH, lines[..i], fontsize) + [InsertText(x, BaselineY(baseline0, lineH, i), lines[i], fontsize)]
  }

  /** Reading one more line is one more call. */
  lemma BaselineOpsLast(x: real, baseline0: real, lineH: real, lines: seq<string>, k: nat, fontsize: real)
    requires k < |lines|
    ensures BaselineOps(x, baseline0, lineH, lines[..k + 1], fontsize)
         == BaselineOps(x, baseline0, lineH, lines[..k], fontsize) + [InsertText(x, BaselineY(baseline0, lineH, k), lines[k], fontsize)]
  {
    var ls := lines[..k + 1];
    assert ls[..k] == lines[..k] && ls[k] == lines[k] && |ls| - 1 == k;
  }

  /** One call per line, and the texts drawn are the lines. */
  lemma {:induction false} BaselineOpsTexts(x: real, baseline0: real, lineH: real, lines: seq<string>, fontsize: real)
    ensures |BaselineOps(x, baseline0, lineH, lines, fontsize)| == |lines|
    ensures DrawnTexts(BaselineOps(x, baseline0, lineH, lines, fontsize)) == lines
    decreases |lines|
  {
    if lines != [] {
      var n := |lines| - 1;
      var prefix := BaselineOps(x, baseline0, lineH, lines[..n], fontsize);
      var ops := prefix + [InsertText(x, BaselineY(baseline0, lineH, n), lines[n], fontsize)];
      BaselineOpsTexts(x, baseline0, lineH, lines[..n], fontsize);
      assert ops[..|ops| - 1] == prefix;
      SplitLast(lines);
    }
  }

  /** Line `i` is drawn by call `i`, at `x`, on `BaselineY(i)`, at the given size. */
  lemma {:induction false} BaselineOpsAt(x: real, baseline0: real, lineH: real, lines: seq<string>, fontsize: real)
    ensures var ops := BaselineOps(x, baseline0, lineH, lines, fontsize);
      && |ops| == |lines|
      && forall i :: 0 <= i < |ops| ==> ops[i] == InsertText(x, BaselineY(baseline0, lineH, i), lines[i], fontsize)
    decreases |lines|
  {
    if lines != [] {
      var n := |lines| - 1;
      var prefix := BaselineOps(x, baseline0, lineH, lines[..n], fontsize);
      var op := InsertText(x, BaselineY(baseline0, lineH, n), lines[n], fontsize);
      BaselineOpsAt(x, baseline0, lineH, lines[..n], fontsize);
      var ops := prefix + [op];
      forall i | 0 <= i < |ops| ensures ops[i] == InsertText(x, BaselineY(baseline0, lineH, i), lines[i], fontsize) {
        if i < n {
          assert ops[i] == prefix[i] && lines[..n][i] == lines[i];
        }
      }
    }
  }

  /**
   * `render_page`'s placement of a block's lines: one call per line, in
   * order, at the same `x` and size; the first line on `baseline0` and each
   * next one exactly `line_h` lower; and the texts drawn are the lines.
   */
  lemma BaselineOpsPlacement(x: real, baseline0: real, lineH: real, lines: seq<string>, fontsize: real)
    ensures var ops := BaselineOps(x, baseline0, lineH, lines, fontsize);
      && |ops| == |lines|
      && DrawnTexts(ops) == lines
      && (forall i :: 0 <= i < |ops| ==> ops[i].InsertText? && ops[i].x == x && ops[i].fontsize == fontsize && ops[i].text == lines[i])
      && (|ops| > 0 ==> ops[0].y == baseline0)
      && (forall i :: 0 <= i < |ops| - 1 ==> ops[i + 1].y - ops[i].y == lineH)
  {
    var ops := BaselineOps(x, baseline0, lineH, lines, fontsize);
    BaselineOpsTexts(x, baseline0, lineH, lines, fontsize);
    BaselineOpsAt(x, baseline0, lineH, lines, fontsize);
    BaselineStep(baseline0, lineH, 0);
    forall i | 0 <= i < |ops| - 1 ensures ops[i + 1].y - ops[i].y == lineH {
      BaselineStep(baseline0, lineH, i);
    }
  }

  /** What drawing a page left: the calls made in order, and whether an exception stopped it. */
  datatype Drawn = Drawn(ops: seq<Op>, raised: bool)

  /** The renderer's configuration: `line_spacing`, `min_fontsize`, `max_iter` and the hyphenation dictionary. */
  datatype Settings = Settings(lineSpacing: real, minFontsize: real, maxIter: int, hyph: Option<Hyphenator>)

  /**
   * One block and its translation: in debug mode the block's box is framed
   * first; a blank translation draws nothing more; otherwise the text is
   * reflowed into the box from the block's size, and its lines are drawn at
   * `x0` on baselines starting one ascender below `y0`, one line height
   * apart. An exception from reflowing stops after the frame.
   */
  function BlockDrawing(measure: Metric, cfg: Settings, font: FontMetrics, blk: BlockInfo, txt: string, debug: bool): Drawn {
    var frame := if debug then [DrawRect(blk.bbox)] else [];
    if Strip(txt) == [] then Drawn(frame, false)
    else
      var rect := blk.bbox;
      var r := Reflowed(measure, cfg.hyph, txt, InitialSize(blk.fontSize), rect.Width(), rect.Height(), cfg.lineSpacing, cfg.minFontsize, cfg.maxIter);
      if r.None? then Drawn(frame, true)
      else Drawn(frame + PlacedLines(font, cfg.lineSpacing, rect, r.value.lines, r.value.fontsize), false)
  }

  /** The lines of a block at size `fs`: at `x0`, the first baseline one ascender below `y0`, one line height apart. */
  function PlacedLines(font: FontMetrics, lineSpacing: real, rect: Rect, lines: seq<string>, fs: real): seq<Op> {
    BaselineOps(rect.x0, rect.y0 + Ascender(font, fs), LineHeight(font, fs, lineSpacing), lines, fs)
  }

  lemma PlacedLinesTexts(font: FontMetrics, lineSpacing: real, rect: Rect, lines: seq<string>, fs: real)
    ensures DrawnTexts(PlacedLines(font, lineSpacing, rect, lines, fs)) == lines
  {
    BaselineOpsTexts(rect.x0, rect.y0 + Ascender(font, fs), LineHeight(font, fs, lineSpacing), lines, fs);
  }

  /** What `render_page` draws for the pairs of `zip(blocks, translations)`: block by block, until one raises. */
  function PageDrawing(measure: Metric, cfg: Settings, font: FontMetrics, pairs: seq<(BlockInfo, string)>, debug: bool): Drawn
    decreases |pairs|
  {
    if pairs == [] then Drawn([], false)
    else
      var prev := PageDrawing(measure, cfg, font, pairs[..|pairs| - 1], debug);
      if prev.raised then prev
      else
        var d := BlockDrawing(measure, cfg, font, pairs[|pairs| - 1].0, pairs[|pairs| - 1].1, debug);
        Drawn(prev.ops + d.ops, d.raised)
  }

  lemma PageDrawingLast(measure: Metric, cfg: Settings, font: FontMetrics, pairs: seq<(BlockInfo, string)>, k: nat, debug: bool)
    requires k < |pairs|
    ensures PageDrawing(measure, cfg, font, pairs[..k + 1], debug)
         == var prev := PageDrawing(measure, cfg, font, pairs[..k], debug);
            if prev.raised then prev
            else
              var d := BlockDrawing(measure, cfg, font, pairs[k].0, pairs[k].1, debug);
              Drawn(prev.ops + d.ops, d.raised)
  {
    assert pairs[..k + 1][..k] == pairs[..k];
  }

  /** A blank translation has no letters. */
  lemma BlankHasNoLetters(txt: string)
    requires Strip(txt) == []
    ensures Letters(txt) == []
  {
    WordsStrip(txt);
    WordsKeepText(txt);
    LettersNonSpace(txt);
  }

  /**
   * One block, given no dictionary or one that only inserts hyphens: in
   * debug mode the first call frames the box; with no dictionary nothing
   * raises; and when nothing raised the texts drawn hold the letters of the
   * translation, in order.
   */
  lemma BlockDrawingFacts(measure: Metric, cfg: Settings, font: FontMetrics, blk: BlockInfo, txt: string, debug: bool)
    requires GoodDictionary(cfg.hyph)
    ensures var d := BlockDrawing(measure, cfg, font, blk, txt, debug);
      && (debug ==> |d.ops| > 0 && d.ops[0] == DrawRect(blk.bbox))
      && (cfg.hyph.None? ==> !d.raised)
      && (!d.raised ==> Letters(Concat(DrawnTexts(d.ops))) == Letters(txt))
  {
    var frame := if debug then [DrawRect(blk.bbox)] else [];
    assert DrawnTexts(frame) == [] by {
      if debug {
        assert frame[..0] == [];
      }
    }
    if Strip(txt) == [] {
      BlankHasNoLetters(txt);
    } else {
      var rect := blk.bbox;
      var init := InitialSize(blk.fontSize);
      var r := Reflowed(measure, cfg.hyph, txt, init, rect.Width(), rect.Height(), cfg.lineSpacing, cfg.minFontsize, cfg.maxIter);
      if r.None? {
        assert cfg.hyph.Some? by {
          ReflowedFacts(measure, cfg.hyph, txt, init, rect.Width(), rect.Height(), cfg.lineSpacing, cfg.minFontsize, cfg.maxIter);
        }
      } else {
        ReflowedBlockLetters(measure, cfg, font, rect, txt, init, frame);
      }
    }
  }

  /** A block whose text reflowed draws the frame and then the lines, which hold the letters of the text. */
  lemma ReflowedBlockLetters(measure: Metric, cfg: Settings, font: FontMetrics, rect: Rect, txt: string, init: real, frame: seq<Op>)
    requires GoodDictionary(cfg.hyph) && DrawnTexts(frame) == []
    ensures var r := Reflowed(measure, cfg.hyph, txt, init, rect.Width(), rect.Height(), cfg.lineSpacing, cfg.minFontsize, cfg.maxIter);
      r.Some? ==> Letters(Concat(DrawnTexts(frame + PlacedLines(font, cfg.lineSpacing, rect, r.value.lines, r.value.fontsize)))) == Letters(txt)
  {
    var r := Reflowed(measure, cfg.hyph, txt, init, rect.Width(), rect.Height(), cfg.lineSpacing, cfg.minFontsize, cfg.maxIter);
    if r.Some? {
      var lines, fs := r.value.lines, r.value.fontsize;
      assert Letters(Concat(lines)) == Letters(txt) by {
        ReflowedLines(measure, cfg.hyph, txt, init, rect.Width(), rect.Height(), cfg.lineSpacing, cfg.minFontsize, cfg.maxIter);
        TextLinesFacts(measure, cfg.hyph, txt, fs, rect.Width());
      }
      var ops := PlacedLines(font, cfg.lineSpacing, rect, lines, fs);
      assert DrawnTexts(frame + ops) == lines by {
        PlacedLinesTexts(font, cfg.lineSpacing, rect, lines, fs);
        DrawnTextsAppend(frame, ops);
      }
    }
  }

  /**
   * The properties of `render_page`, given no dictionary or one that only
   * inserts hyphens: with no dictionary it never raises; and when it does
   * not raise, the texts it draws hold the letters of the translations, in
   * order, whitespace and hyphens aside.
   */
  lemma {:induction false} PageDrawingFacts(measure: Metric, cfg: Settings, font: FontMetrics, pairs: seq<(BlockInfo, string)>, debug: bool)
    requires GoodDictionary(cfg.hyph)
    ensures var d := PageDrawing(measure, cfg, font, pairs, debug);
      && (cfg.hyph.None? ==> !d.raised)
      && (!d.raised ==> Letters(Concat(DrawnTexts(d.ops))) == Letters(Concat(Translations(pairs))))
    decreases |pairs|
  {
    if pairs != [] {
      var init := pairs[..|pairs| - 1];
      var (blk, txt) := pairs[|pairs| - 1];
      PageDrawingFacts(measure, cfg, font, init, debug);
      var prev := PageDrawing(measure, cfg, font, init, debug);
      if !prev.raised {
        var d := BlockDrawing(measure, cfg, font, blk, txt, debug);
        BlockDrawingFacts(measure, cfg, font, blk, txt, debug);
        if !d.raised {
          DrawnTextsAppend(prev.ops, d.ops);
          LettersAppend(Concat(DrawnTexts(prev.ops)), Concat(DrawnTexts(d.ops)));
          ConcatAppend(DrawnTexts(prev.ops), DrawnTexts(d.ops));
          assert Concat(Translations(pairs)) == Concat(Translations(init)) + txt;
          LettersAppend(Concat(Translations(init)), txt);
        }
      }
    }
  }

  // ------------------------------------------------------- ReflowRenderer

  /** Hyphenated parts: one more part is one more line. */
  lemma HyphenedLast(ps: seq<string>, j: nat)
    requires j < |ps|
    ensures Hyphened(ps[..j + 1]) == Hyphened(ps[..j]) + [ps[j] + "-"]
  {
    assert ps[..j + 1][..j] == ps[..j];
  }

  /** Once a round of `_wrap_paragraph` has raised, the whole paragraph raises. */
  lemma {:induction false} ParaWordsStaysNone(measure: Metric, hyph: Option<Hyphenator>, fontsize: real, maxWidth: real, words: seq<string>, k: nat)
    requires k <= |words| && ParaWords(measure, hyph, fontsize, maxWidth, words[..k]) == None
    ensures ParaWords(measure, hyph, fontsize, maxWidth, words) == None
    decreases |words| - k
  {
    if k < |words| {
      ParaWordsLast(measure, hyph, fontsize, maxWidth, words, k);
      ParaWordsStaysNone(measure, hyph, fontsize, maxWidth, words, k + 1);
    } else {
      assert words[..k] == words;
    }
  }

  /** Once a paragraph has raised, `_wrap_text` raises. */
  lemma {:induction false} ParagraphsLinesStaysNone(measure: Metric, hyph: Option<Hyphenator>, paras: seq<string>, k: nat, fontsize: real, maxWidth: real)
    requires k <= |paras| && ParagraphsLines(measure, hyph, paras[..k], fontsize, maxWidth) == None
    ensures ParagraphsLines(measure, hyph, paras, fontsize, maxWidth) == None
    decreases |paras| - k
  {
    if k < |paras| {
      ParagraphsLinesLast(measure, hyph, paras, k, fontsize, maxWidth);
      ParagraphsLinesStaysNone(measure, hyph, paras, k + 1, fontsize, maxWidth);
    } else {
      assert paras[..k] == paras;
    }
  }

  /** Once a block has raised, `render_page` stops there. */
  lemma {:induction false} PageDrawingStaysRaised(measure: Metric, cfg: Settings, font: FontMetrics, pairs: seq<(BlockInfo, string)>, k: nat, debug: bool)
    requires k <= |pairs| && PageDrawing(measure, cfg, font, pairs[..k], debug).raised
    ensures PageDrawing(measure, cfg, font, pairs, debug) == PageDrawing(measure, cfg, font, pairs[..k], debug)
    decreases |pairs| - k
  {
    if k < |pairs| {
      PageDrawingLast(measure, cfg, font, pairs, k, debug);
      PageDrawingStaysRaised(measure, cfg, font, pairs, k + 1, debug);
    } else {
      assert pairs[..k] == pairs;
    }
  }

  /** Reading one more raw piece keeps its merged text when that is not empty. */
  lemma KeepParagraphsLast(raws: seq<string>, k: nat)
    requires k < |raws|
    ensures KeepParagraphs(raws[..k + 1]) == KeepParagraphs(raws[..k]) + (if Merged(raws[k]) != [] then [Merged(raws[k])] else [])
  {
    assert raws[..k + 1][..k] == raws[..k];
  }

  /**
   * The renderer. Its configuration is set once by the constructor; its
   * methods wrap, reflow and draw, each proved equal to the function above
   * that specifies it.
   */
  class ReflowRenderer {
    const lineSpacing: real
    const minFontsize: real
    const maxIter: int
    const debug: bool
    const hyph: Option<Hyphenator>

    /**
     * `dictionary` is what pyphen gives for `hyphenLang`, or `None` when
     * pyphen is not installed; an empty language name also leaves the
     * renderer without a dictionary.
     */
    constructor(lineSpacing: real := 1.2, minFontsize: real := 4.0, maxIter: int := 10, debug: bool := false,
                hyphenLang: string := "en_US", dictionary: Option<Hyphenator> := None)
      ensures this.lineSpacing == lineSpacing && this.minFontsize == minFontsize
      ensures this.maxIter == maxIter && this.debug == debug
      ensures this.hyph == if hyphenLang != [] then dictionary else None
    {
      this.lineSpacing := lineSpacing;
      this.minFontsize := minFontsize;
      this.maxIter := maxIter;
      this.debug := debug;
      this.hyph := if dictionary.Some? && hyphenLang != [] then dictionary else None;
    }

    /** The configuration the specification functions take. */
    function Config(): Settings {
      Settings(lineSpacing, minFontsize, maxIter, hyph)
    }

    /** `_split_paragraphs`: the pieces between blank lines, merged and stripped, the empty ones dropped. */
    method SplitParagraphs(text: string) returns (paras: seq<string>)
      ensures paras == Paragraphs(text)
    {
      var raws := SplitOn(text, ParagraphBreak);
      paras := KeepMerged(raws);
    }

    /** The loop of `_split_paragraphs` over the raw pieces: each merged, the empty ones dropped. */
    static method KeepMerged(raws: seq<string>) returns (paras: seq<string>)
      ensures paras == KeepParagraphs(raws)
    {
      paras := [];
      for k := 0 to |raws|
        invariant paras == KeepParagraphs(raws[..k])
      {
        var merged := Merged(raws[k]);
        KeepParagraphsLast(raws, k);
        if merged != [] {
          paras := paras + [merged];
        }
      }
      assert raws[..|raws|] == raws;
    }

    /** `_hyphenate`: the parts of a word, each fitting the width where a syllable boundary or a character split allows. */
    method Hyphenate(measure: Metric, word: string, fontsize: real, maxWidth: real) returns (parts: seq<string>)
      ensures parts == HyphenParts(measure, hyph, word, fontsize, maxWidth)
    {
      var sylls := if hyph.Some? then SplitOn(hyph.value(word), "-") else [word];
      assert sylls == Syllables(hyph, word);
      parts := [];
      var curr := "";
      var k := 0;
      while k < |sylls|
        invariant 0 <= k <= |sylls|
        invariant HyphState(parts, curr) == HyphSylls(measure, fontsize, maxWidth, sylls[..k])
      {
        var syl := sylls[k];
        ghost var st := HyphState(parts, curr);
        var token := syl + "-";
        if measure(curr + token, fontsize) <= maxWidth {
          curr := curr + token;
        } else {
          if curr != [] {
            parts := parts + [RStrip(curr, '-')];
          }
          var pieces, frag := SplitByChars(syl, measure, fontsize, maxWidth);
          parts := parts + pieces;
          curr := frag;
        }
        assert HyphState(parts, curr) == HyphStep(measure, fontsize, maxWidth, st, syl);
        HyphSyllsLast(measure, fontsize, maxWidth, sylls, k);
        k := k + 1;
      }
      assert sylls[..k] == sylls;
      if curr != [] {
        parts := parts + [RStrip(curr, '-')];
      }
    }

    /** `_wrap_paragraph`: the lines of one paragraph's words, or `None` where `parts[-1]` raises. */
    method WrapParagraph(measure: Metric, words: seq<string>, fontsize: real, maxWidth: real) returns (r: Option<seq<string>>)
      ensures r == ParagraphLines(measure, hyph, words, fontsize, maxWidth)
    {
      var lines: seq<string> := [];
      var curr := "";
      var k := 0;
      while k < |words|
        invariant 0 <= k <= |words|
        invariant ParaWords(measure, hyph, fontsize, maxWidth, words[..k]) == Some(WrapState(lines, curr))
      {
        var w := words[k];
        ghost var st := WrapState(lines, curr);
        var cand := if curr != [] then curr + " " + w else w;
        if measure(cand, fontsize) <= maxWidth {
          curr := cand;
        } else {
          if curr != [] {
            lines := lines + [curr];
          }
          var parts := Hyphenate(measure, w, fontsize, maxWidth);
          if parts == [] {
            assert ParaStep(measure, hyph, fontsize, maxWidth, st, w) == None;
            ParaWordsLast(measure, hyph, fontsize, maxWidth, words, k);
            ParaWordsStaysNone(measure, hyph, fontsize, maxWidth, words, k + 1);
            return None;
          }
          lines := AppendHyphened(lines, parts);
          curr := parts[|parts| - 1];
        }
        assert ParaStep(measure, hyph, fontsize, maxWidth, st, w) == Some(WrapState(lines, curr));
        ParaWordsLast(measure, hyph, fontsize, maxWidth, words, k);
        k := k + 1;
      }
      assert words[..k] == words;
      if curr != [] {
        lines := lines + [curr];
      }
      r := Some(lines);
    }

    /** `for p in parts[:-1]: lines.append(p + "-")` */
    static method AppendHyphened(lines: seq<string>, parts: seq<string>) returns (out: seq<string>)
      requires parts != []
      ensures out == lines + Hyphened(parts[..|parts| - 1])
    {
      out := lines;
      var j := 0;
      while j < |parts| - 1
        invariant 0 <= j <= |parts| - 1
        invariant out == lines + Hyphened(parts[..j])
      {
        HyphenedLast(parts, j);
        out := out + [parts[j] + "-"];
        j := j + 1;
      }
    }

    /** `_wrap_text`: the paragraphs' lines one after another, or `None` when a paragraph raises. */
    method WrapText(measure: Metric, text: string, fontsize: real, maxWidth: real) returns (r: Option<seq<string>>)
      ensures r == TextLines(measure, hyph, text, fontsize, maxWidth)
    {
      var paras := SplitParagraphs(text);
      var lines: seq<string> := [];
      var k := 0;
      while k < |paras|
        invariant 0 <= k <= |paras|
        invariant ParagraphsLines(measure, hyph, paras[..k], fontsize, maxWidth) == Some(lines)
      {
        var words := Words(paras[k]);
        ParagraphsLinesLast(measure, hyph, paras, k, fontsize, maxWidth);
        if words == [] {
          lines := lines + [""];
        } else {
          var wrapped := WrapParagraph(measure, words, fontsize, maxWidth);
          if wrapped.None? {
            ParagraphsLinesStaysNone(measure, hyph, paras, k + 1, fontsize, maxWidth);
            return None;
          }
          lines := lines + wrapped.value;
        }
        k := k + 1;
      }
      assert paras[..k] == paras;
      r := Some(lines);
    }

    /**
     * One round of `reflow`'s loop at size `fs` with `rounds` rounds left:
     * wrapping raises, the size settles, or the next round tries a smaller
     * size.
     */
    method Round(measure: Metric, text: string, fs: real, maxWidth: real, maxHeight: real, ghost rounds: int) returns (o: RoundOutcome)
      requires rounds > 0
      ensures o.Raised? ==> FitRounds(measure, hyph, text, fs, maxWidth, maxHeight, lineSpacing, minFontsize, rounds) == None
      ensures o.Settled? ==> FitRounds(measure, hyph, text, fs, maxWidth, maxHeight, lineSpacing, minFontsize, rounds) == Some(fs)
      ensures o.Shrunk? ==>
        o.next == NextSize(fs, minFontsize) &&
        FitRounds(measure, hyph, text, fs, maxWidth, maxHeight, lineSpacing, minFontsize, rounds)
        == FitRounds(measure, hyph, text, o.next, maxWidth, maxHeight, lineSpacing, minFontsize, rounds - 1)
    {
      var wrapped := WrapText(measure, text, fs, maxWidth);
      FitRoundsStep(measure, hyph, text, fs, maxWidth, maxHeight, lineSpacing, minFontsize, rounds, wrapped);
      if wrapped.None? {
        o := Raised;
      } else if TotalHeight(|wrapped.value|, fs, lineSpacing) <= maxHeight || fs <= minFontsize {
        o := Settled;
      } else {
        o := Shrunk(NextSize(fs, minFontsize));
      }
    }

    /** `reflow`'s loop: the size it settles on, or `None` when wrapping raises. */
    method SettleSize(measure: Metric, text: string, initialFs: real, maxWidth: real, maxHeight: real) returns (r: Option<real>)
      ensures r == FitRounds(measure, hyph, text, initialFs, maxWidth, maxHeight, lineSpacing, minFontsize, maxIter)
    {
      ghost var settled := FitRounds(measure, hyph, text, initialFs, maxWidth, maxHeight, lineSpacing, minFontsize, maxIter);
      var fs := initialFs;
      var left := maxIter;
      while left > 0
        invariant settled == FitRounds(measure, hyph, text, fs, maxWidth, maxHeight, lineSpacing, minFontsize, left)
      {
        var o := Round(measure, text, fs, maxWidth, maxHeight, left);
        match o
        case Raised => return None;
        case Settled => return Some(fs);
        case Shrunk(next) =>
          fs := next;
          left := left - 1;
      }
      r := Some(fs);
    }

    /** `reflow`: the lines wrapped again at the size its loop settles on, and that size. */
    method Reflow(measure: Metric, text: string, initialFs: real, maxWidth: real, maxHeight: real) returns (r: Option<Fitted>)
      ensures r == Reflowed(measure, hyph, text, initialFs, maxWidth, maxHeight, lineSpacing, minFontsize, maxIter)
    {
      var fs := SettleSize(measure, text, initialFs, maxWidth, maxHeight);
      if fs.None? {
        return None;
      }
      var lines := WrapText(measure, text, fs.value, maxWidth);
      if lines.None? {
        return None;
      }
      r := Some(Fitted(lines.value, fs.value));
    }

    /** The body of `render_page`'s loop for one block and its translation. */
    method DrawBlock(measure: Metric, font: FontMetrics, blk: BlockInfo, txt: string, debug: bool) returns (d: Drawn)
      ensures d == BlockDrawing(measure, Config(), font, blk, txt, debug)
    {
      var frame: seq<Op> := [];
      if debug {
        frame := [DrawRect(blk.bbox)];
      }
      if Strip(txt) == [] {
        return Drawn(frame, false);
      }
      var rect := blk.bbox;
      var fitted := Reflow(measure, txt, InitialSize(blk.fontSize), rect.Width(), rect.Height());
      assert Config().hyph == hyph && Config().lineSpacing == lineSpacing;
      assert Config().minFontsize == minFontsize && Config().maxIter == maxIter;
      if fitted.None? {
        return Drawn(frame, true);
      }
      var fs := fitted.value.fontsize;
      var placed := PlaceLines(font, lineSpacing, rect, fitted.value.lines, fs);
      d := Drawn(frame + placed, false);
    }

    /** `render_page`'s inner loop: line `i` at `x0`, on `baseline0 + i * line_h`. */
    static method PlaceLines(font: FontMetrics, lineSpacing: real, rect: Rect, lines: seq<string>, fs: real) returns (ops: seq<Op>)
      ensures ops == PlacedLines(font, lineSpacing, rect, lines, fs)
    {
      var lineH := LineHeight(font, fs, lineSpacing);
      var baseline0 := rect.y0 + Ascender(font, fs);
      ops := [];
      var i := 0;
      while i < |lines|
        invariant 0 <= i <= |lines|
        invariant ops == BaselineOps(rect.x0, baseline0, lineH, lines[..i], fs)
      {
        ops := ops + [InsertText(rect.x0, BaselineY(baseline0, lineH, i), lines[i], fs)];
        BaselineOpsLast(rect.x0, baseline0, lineH, lines, i, fs);
        i := i + 1;
      }
      assert lines[..i] == lines;
    }

    /**
     * `render_page`: the calls made on the page for `zip(blocks,
     * translations)` with the given font, and whether an exception stopped
     * it.
     */
    method RenderPage(measure: Metric, font: FontMetrics, blocks: seq<BlockInfo>, translations: seq<string>, debug: bool)
      returns (drawn: Drawn)
      ensures drawn == PageDrawing(measure, Config(), font, Zip(blocks, translations), debug)
    {
      var pairs := Zip(blocks, translations);
      var ops: seq<Op> := [];
      var k := 0;
      while k < |pairs|
        invariant 0 <= k <= |pairs|
        invariant PageDrawing(measure, Config(), font, pairs[..k], debug) == Drawn(ops, false)
      {
        var d := DrawBlock(measure, font, pairs[k].0, pairs[k].1, debug);
        ops := ops + d.ops;
        PageDrawingLast(measure, Config(), font, pairs, k, debug);
        if d.raised {
          PageDrawingStaysRaised(measure, Config(), font, pairs, k + 1, debug);
          return Drawn(ops, true);
        }
        k := k + 1;
      }
      assert pairs[..k] == pairs;
      drawn := Drawn(ops, false);
    }
  }
}

=== FILE: manual_pdf.dfy ===
/**
 * The manual reflow path of `src/pdf2zh/manual_pdf.py`: greedy word
 * wrapping with character splitting of over-long words (`wrap_text`),
 * font-size fitting that shrinks in proportion to the height overflow
 * (`reflow`), line placement (`render_manual_page`), and the small pure
 * helpers of `build_pdf_manual`.
 */
module ManualPdf {
  import opened Wrappers
  import opened PyStr
  import opened Measure
  import opened Page

  // ------------------------------------------------------------ wrap_text

  /**
   * One round of `wrap_text`'s loop on the word `w`: a word that still fits
   * is joined to the open line by one space; otherwise the open line is
   * emitted and the word is split by characters, its last part becoming the
   * open line.
   */
  function WrapStep(measure: Metric, fontsize: real, maxWidth: real, st: WrapState, w: string): WrapState {
    var cand := if st.curr != [] then st.curr + " " + w else w;
    if Fits(measure, cand, fontsize, maxWidth) then WrapState(st.lines, cand)
    else
      var pushed := if st.curr != [] then st.lines + [st.curr] else st.lines;
      var split := CharSplit(measure, fontsize, maxWidth, w);
      WrapState(pushed + split.done, split.frag)
  }

  /** `wrap_text`'s state after the words `words`. */
  function WrapWords(measure: Metric, fontsize: real, maxWidth: real, words: seq<string>): WrapState
    decreases |words|
  {
    if words == [] then WrapState([], [])
    else WrapStep(measure, fontsize, maxWidth, WrapWords(measure, fontsize, maxWidth, words[..|words| - 1]), words[|words| - 1])
  }

  /** Reading one more word is one round. */
  lemma WrapWordsLast(measure: Metric, fontsize: real, maxWidth: real, words: seq<string>, k: nat)
    requires k < |words|
    ensures WrapWords(measure, fontsize, maxWidth, words[..k + 1])
         == WrapStep(measure, fontsize, maxWidth, WrapWords(measure, fontsize, maxWidth, words[..k]), words[k])
  {
    assert words[..k + 1][..k] == words[..k];
  }

  /** The lines `wrap_text(text, font, fontsize, max_width)` returns. */
  function WrappedLines(measure: Metric, text: string, fontsize: real, maxWidth: real): seq<string> {
    Finish(WrapWords(measure, fontsize, maxWidth, Words(text)))
  }

  /** `wrap_text`: two nested loops building the lines. */
  method WrapText(text: string, measure: Metric, fontsize: real, maxWidth: real) returns (lines: seq<string>)
    ensures lines == WrappedLines(measure, text, fontsize, maxWidth)
  {
    var words := Words(text);
    lines := [];
    var curr := "";
    var k := 0;
    while k < |words|
      invariant 0 <= k <= |words|
      invariant WrapState(lines, curr) == WrapWords(measure, fontsize, maxWidth, words[..k])
    {
      var w := words[k];
      ghost var st := WrapState(lines, curr);
      var cand := if curr != [] then curr + " " + w else w;
      if measure(cand, fontsize) <= maxWidth {
        curr := cand;
      } else {
        if curr != [] {
          lines := lines + [curr];
        }
        var pieces, part := SplitByChars(w, measure, fontsize, maxWidth);
        lines := lines + pieces;
        curr := part;
      }
      assert WrapState(lines, curr) == WrapStep(measure, fontsize, maxWidth, st, w);
      WrapWordsLast(measure, fontsize, maxWidth, words, k);
      k := k + 1;
    }
    assert words[..k] == words;
    if curr != [] {
      lines := lines + [curr];
    }
  }

  /** Every emitted line, and the open line unless it is empty, is non-empty and fits the width or is one character. */
  predicate WellShaped(measure: Metric, fontsize: real, maxWidth: real, st: WrapState) {
    && (forall i :: 0 <= i < |st.lines| ==> st.lines[i] != [] && FitsOrChar(measure, st.lines[i], fontsize, maxWidth))
    && (st.curr == [] || FitsOrChar(measure, st.curr, fontsize, maxWidth))
  }

  /** The lines emitted so far and the open line, with the whitespace deleted. */
  function StateText(st: WrapState): string {
    NonSpace(Concat(st.lines) + st.curr)
  }

  /** One round keeps the state well shaped, leaves a non-empty open line and adds the word's characters. */
  lemma WrapStepFacts(measure: Metric, fontsize: real, maxWidth: real, st: WrapState, w: string)
    requires WellShaped(measure, fontsize, maxWidth, st) && w != [] && NoSpace(w)
    ensures var st' := WrapStep(measure, fontsize, maxWidth, st, w);
      && WellShaped(measure, fontsize, maxWidth, st')
      && st'.curr != []
      && StateText(st') == StateText(st) + w
      && |st'.lines| + 1 <= |st.lines| + (if st.curr != [] then 1 else 0) + |w|
  {
    var cand := if st.curr != [] then st.curr + " " + w else w;
    if Fits(measure, cand, fontsize, maxWidth) {
      JoinStepText(st, w);
    } else {
      SplitStepFacts(measure, fontsize, maxWidth, st, w);
    }
  }

  /** A word joined to the open line adds its characters to the text. */
  lemma JoinStepText(st: WrapState, w: string)
    requires NoSpace(w)
    ensures var cand := if st.curr != [] then st.curr + " " + w else w;
      StateText(WrapState(st.lines, cand)) == StateText(st) + w
  {
    var before := Concat(st.lines) + st.curr;
    NonSpaceOfWord(w);
    if st.curr != [] {
      var glued := before + " ";
      assert Concat(st.lines) + (st.curr + " " + w) == glued + w by {
        SeqAssoc(Concat(st.lines), st.curr + " ", w);
        SeqAssoc(Concat(st.lines), st.curr, " ");
      }
      assert NonSpace(glued + w) == NonSpace(glued) + NonSpace(w) by {
        NonSpaceAppend(glued, w);
      }
      assert NonSpace(glued) == NonSpace(before) by {
        NonSpaceAppend(before, " ");
        assert NonSpace(" ") == [];
      }
    } else {
      assert before == Concat(st.lines);
      NonSpaceAppend(before, w);
    }
  }

  /** Emitting the open line keeps the text and the shape. */
  lemma PushFacts(measure: Metric, fontsize: real, maxWidth: real, st: WrapState)
    requires WellShaped(measure, fontsize, maxWidth, st)
    ensures var pushed := if st.curr != [] then st.lines + [st.curr] else st.lines;
      && Concat(pushed) == Concat(st.lines) + st.curr
      && |pushed| == |st.lines| + (if st.curr != [] then 1 else 0)
      && forall i :: 0 <= i < |pushed| ==> pushed[i] != [] && FitsOrChar(measure, pushed[i], fontsize, maxWidth)
  {
    if st.curr != [] {
      assert (st.lines + [st.curr])[..|st.lines|] == st.lines;
    } else {
      assert Concat(st.lines) + st.curr == Concat(st.lines);
    }
  }

  /** A word split by characters after emitting the open line. */
  lemma SplitStepFacts(measure: Metric, fontsize: real, maxWidth: real, st: WrapState, w: string)
    requires WellShaped(measure, fontsize, maxWidth, st) && w != [] && NoSpace(w)
    ensures var pushed := if st.curr != [] then st.lines + [st.curr] else st.lines;
      var split := CharSplit(measure, fontsize, maxWidth, w);
      var st' := WrapState(pushed + split.done, split.frag);
      && WellShaped(measure, fontsize, maxWidth, st')
      && st'.curr != []
      && StateText(st') == StateText(st) + w
      && |st'.lines| + 1 <= |st.lines| + (if st.curr != [] then 1 else 0) + |w|
  {
    var pushed := if st.curr != [] then st.lines + [st.curr] else st.lines;
    PushFacts(measure, fontsize, maxWidth, st);
    var split := CharSplit(measure, fontsize, maxWidth, w);
    CharSplitFacts(measure, fontsize, maxWidth, w);
    AppendPiecesText(pushed, split.done, split.frag, w);
    AppendPiecesShape(measure, fontsize, maxWidth, pushed, split.done);
  }

  /** Whitespace-free text of emitted lines followed by the pieces of a word. */
  lemma AppendPiecesText(pushed: seq<string>, done: seq<string>, frag: string, w: string)
    requires Concat(done) + frag == w && NoSpace(w)
    ensures NonSpace(Concat(pushed + done) + frag) == NonSpace(Concat(pushed)) + w
  {
    var before := Concat(pushed);
    ConcatAppend(pushed, done);
    assert Concat(pushed + done) + frag == before + w;
    NonSpaceOfWord(w);
    NonSpaceAppend(before, w);
  }

  lemma AppendPiecesShape(measure: Metric, fontsize: real, maxWidth: real, pushed: seq<string>, done: seq<string>)
    requires forall i :: 0 <= i < |pushed| ==> pushed[i] != [] && FitsOrChar(measure, pushed[i], fontsize, maxWidth)
    requires forall i :: 0 <= i < |done| ==> done[i] != [] && FitsOrChar(measure, done[i], fontsize, maxWidth)
    ensures var lines := pushed + done;
      forall i :: 0 <= i < |lines| ==> lines[i] != [] && FitsOrChar(measure, lines[i], fontsize, maxWidth)
  {
    var lines := pushed + done;
    forall i | 0 <= i < |lines|
      ensures lines[i] != [] && FitsOrChar(measure, lines[i], fontsize, maxWidth)
    {
      if i < |pushed| {
        assert lines[i] == pushed[i];
      } else {
        assert lines[i] == done[i - |pushed|];
      }
    }
  }

  /**
   * After the words `words`, the state is well shaped, the open line is
   * empty only before the first word, the whitespace-free text is the words
   * run together, and there are no more lines than those characters.
   */
  lemma {:induction false} WrapWordsFacts(measure: Metric, fontsize: real, maxWidth: real, words: seq<string>)
    requires ProperWords(words)
    ensures var st := WrapWords(measure, fontsize, maxWidth, words);
      && WellShaped(measure, fontsize, maxWidth, st)
      && (st.curr == [] <==> words == [])
      && StateText(st) == Concat(words)
      && |st.lines| + (if st.curr != [] then 1 else 0) <= |Concat(words)|
    decreases |words|
  {
    if words == [] {
      assert StateText(WrapState([], [])) == [];
    } else {
      var ws := words[..|words| - 1];
      var w := words[|words| - 1];
      ProperWordsPrefix(words, |ws|);
      WrapWordsFacts(measure, fontsize, maxWidth, ws);
      WrapStepFacts(measure, fontsize, maxWidth, WrapWords(measure, fontsize, maxWidth, ws), w);
      assert Concat(words) == Concat(ws) + w;
    }
  }

  /** Emitting the open line keeps the lines well shaped and their text. */
  lemma FinishFacts(measure: Metric, fontsize: real, maxWidth: real, st: WrapState)
    requires WellShaped(measure, fontsize, maxWidth, st)
    ensures var lines := Finish(st);
      && (forall i :: 0 <= i < |lines| ==> lines[i] != [] && FitsOrChar(measure, lines[i], fontsize, maxWidth))
      && Concat(lines) == Concat(st.lines) + st.curr
      && |lines| == |st.lines| + (if st.curr != [] then 1 else 0)
  {
    PushFacts(measure, fontsize, maxWidth, st);
  }

  /**
   * The properties of `wrap_text`: it returns no lines exactly when the text
   * has no words (empty or whitespace only); it never emits an empty line;
   * every line fits `max_width` or is a single character; deleting the
   * whitespace from the lines gives back the words in order, that is, the
   * non-whitespace characters of the text; and there are at most as many
   * lines as those characters.
   */
  lemma WrappedLinesFacts(measure: Metric, text: string, fontsize: real, maxWidth: real)
    ensures var lines := WrappedLines(measure, text, fontsize, maxWidth);
      && (lines == [] <==> Words(text) == [])
      && (lines == [] <==> Strip(text) == [])
      && (forall i :: 0 <= i < |lines| ==> lines[i] != [] && FitsOrChar(measure, lines[i], fontsize, maxWidth))
      && NonSpace(Concat(lines)) == Concat(Words(text)) == NonSpace(text)
      && |lines| <= |NonSpace(text)| <= |text|
  {
    var words := Words(text);
    var st := WrapWords(measure, fontsize, maxWidth, words);
    WrapWordsFacts(measure, fontsize, maxWidth, words);
    FinishFacts(measure, fontsize, maxWidth, st);
    WordsKeepText(text);
    WordsStrip(text);
  }

  // --------------------------------------------------------------- reflow

  /**
   * What `reflow`'s loop carries from one round to the next: before the
   * first round `prev` is -1; after a shrink `prev` is the previous line
   * count, and that many lines at the new size fill `max_height` exactly.
   */
  predicate ShrinkInvariant(text: string, fontsize: real, lineSpacing: real, maxHeight: real, prev: int) {
    prev == -1 || (1 <= prev <= |text| && TotalHeight(prev, fontsize, lineSpacing) == maxHeight)
  }

  /** `fs * (max_height / total_h)`: the size that makes `n` lines fill `max_height`. */
  function Scaled(n: nat, fontsize: real, lineSpacing: real, maxHeight: real): real
    requires TotalHeight(n, fontsize, lineSpacing) != 0.0
  {
    fontsize * (maxHeight / TotalHeight(n, fontsize, lineSpacing))
  }

  /**
   * One round of `reflow` that overflows and shrinks: the line count went up
   * since the previous round, the new size makes the current line count fill
   * `max_height` exactly, and with a positive spacing the size went down.
   */
  lemma ShrinkProgress(n: nat, fontsize: real, lineSpacing: real, maxHeight: real, prev: int)
    requires maxHeight >= 0.0 && TotalHeight(n, fontsize, lineSpacing) > maxHeight
    requires prev == -1 || (prev >= 1 && TotalHeight(prev, fontsize, lineSpacing) == maxHeight)
    ensures n > prev && n >= 1
    ensures TotalHeight(n, Scaled(n, fontsize, lineSpacing, maxHeight), lineSpacing) == maxHeight
    ensures lineSpacing > 0.0 ==> Scaled(n, fontsize, lineSpacing, maxHeight) < fontsize
  {
    MoreLines(n, fontsize, lineSpacing, maxHeight, prev);
    ScaledFills(n as real, fontsize, lineSpacing, maxHeight);
    if lineSpacing > 0.0 {
      ScaledBelow(n, fontsize, lineSpacing, maxHeight);
    }
  }

  /** An overflowing round has at least one line, and more than a previous round that filled the height exactly. */
  lemma MoreLines(n: nat, fontsize: real, lineSpacing: real, maxHeight: real, prev: int)
    requires maxHeight >= 0.0 && TotalHeight(n, fontsize, lineSpacing) > maxHeight
    requires prev == -1 || (prev >= 1 && TotalHeight(prev, fontsize, lineSpacing) == maxHeight)
    ensures n > prev && n >= 1
  {
    var unit := fontsize * lineSpacing;
    assert TotalHeight(n, fontsize, lineSpacing) == (n as real) * unit;
    PositiveFactors(n as real, unit);
    if prev >= 1 {
      assert TotalHeight(prev, fontsize, lineSpacing) == (prev as real) * unit;
      CancelPositive(n as real, prev as real, unit);
    }
  }

  /** With a positive spacing, an overflowing round scales the size down. */
  lemma ScaledBelow(n: nat, fontsize: real, lineSpacing: real, maxHeight: real)
    requires lineSpacing > 0.0 && maxHeight >= 0.0 && TotalHeight(n, fontsize, lineSpacing) > maxHeight
    ensures Scaled(n, fontsize, lineSpacing, maxHeight) < fontsize
  {
    var total := TotalHeight(n, fontsize, lineSpacing);
    assert total == ((n as real) * lineSpacing) * fontsize;
    PositiveFactors((n as real) * lineSpacing, fontsize);
    assert maxHeight / total < 1.0;
  }

  /** A positive product with a non-negative first factor has two positive factors. */
  lemma PositiveFactors(x: real, y: real)
    requires x >= 0.0 && x * y > 0.0
    ensures x > 0.0 && y > 0.0
  {
  }

  /** A positive factor cancels from a strict inequality. */
  lemma CancelPositive(x: real, y: real, u: real)
    requires u > 0.0 && x * u > y * u
    ensures x > y
  {
  }

  /** `n` lines at `fs * (h / (n * fs * s))` take `h`. */
  lemma ScaledFills(n: real, fs: real, s: real, h: real)
    requires n * fs * s != 0.0
    ensures n * (fs * (h / (n * fs * s))) * s == h
  {
    var r := h / (n * fs * s);
    assert n * (fs * r) * s == (n * fs * s) * r;
  }

  /** `len(wrap_text(...))` */
  function LineCount(measure: Metric, text: string, fontsize: real, maxWidth: real): (n: nat)
    ensures n <= |text|
  {
    WrappedLinesFacts(measure, text, fontsize, maxWidth);
    |WrappedLines(measure, text, fontsize, maxWidth)|
  }

  /** The loop's exit test: the lines fit `max_height`, or the size is at or below the floor. */
  predicate Settled(measure: Metric, text: string, fontsize: real, maxWidth: real, maxHeight: real,
                    lineSpacing: real, minFontsize: real) {
    TotalHeight(LineCount(measure, text, fontsize, maxWidth), fontsize, lineSpacing) <= maxHeight || fontsize <= minFontsize
  }

  /**
   * The size `reflow` settles on from `fontsize`: wrap, stop when the lines
   * fit `max_height` or the size is at the floor, otherwise shrink to
   * `max(fs * (max_height / total_h), min_fontsize)`, stopping at the floor.
   * Termination needs no assumption on the font: every further round has
   * strictly more lines than the one before, and there are never more lines
   * than characters. It returns a size at which the lines fit or which is at
   * the floor, and it either keeps the size or returns one at least the
   * floor (lower than the start when the spacing is positive).
   */
  function Shrink(measure: Metric, text: string, fontsize: real, maxWidth: real, maxHeight: real,
                  lineSpacing: real, minFontsize: real, prev: int): (r: real)
    requires maxHeight >= 0.0 && ShrinkInvariant(text, fontsize, lineSpacing, maxHeight, prev)
    ensures Settled(measure, text, r, maxWidth, maxHeight, lineSpacing, minFontsize)
    ensures r == fontsize || (minFontsize <= r && (lineSpacing > 0.0 ==> r < fontsize))
    decreases |text| - prev
  {
    var n := LineCount(measure, text, fontsize, maxWidth);
    if Settled(measure, text, fontsize, maxWidth, maxHeight, lineSpacing, minFontsize) then fontsize
    else
      ShrinkProgress(n, fontsize, lineSpacing, maxHeight, prev);
      var next := Max(Scaled(n, fontsize, lineSpacing, maxHeight), minFontsize);
      if next <= minFontsize then minFontsize
      else Shrink(measure, text, next, maxWidth, maxHeight, lineSpacing, minFontsize, n)
  }

  /** A round whose lines fit, or whose size is at the floor, ends the loop with that size. */
  lemma ShrinkSettled(measure: Metric, text: string, fontsize: real, maxWidth: real, maxHeight: real,
                      lineSpacing: real, minFontsize: real, prev: int)
    requires maxHeight >= 0.0 && ShrinkInvariant(text, fontsize, lineSpacing, maxHeight, prev)
    requires Settled(measure, text, fontsize, maxWidth, maxHeight, lineSpacing, minFontsize)
    ensures Shrink(measure, text, fontsize, maxWidth, maxHeight, lineSpacing, minFontsize, prev) == fontsize
  {
  }

  /** A round that overflows: the size is scaled down (at least to the floor) and the next round starts from it. */
  lemma ShrinkOnce(measure: Metric, text: string, fontsize: real, maxWidth: real, maxHeight: real,
                   lineSpacing: real, minFontsize: real, prev: int)
    requires maxHeight >= 0.0 && ShrinkInvariant(text, fontsize, lineSpacing, maxHeight, prev)
    requires !Settled(measure, text, fontsize, maxWidth, maxHeight, lineSpacing, minFontsize)
    ensures var n := LineCount(measure, text, fontsize, maxWidth);
      && TotalHeight(n, fontsize, lineSpacing) > maxHeight
      && var next := Max(Scaled(n, fontsize, lineSpacing, maxHeight), minFontsize);
      && n > prev
      && (next > minFontsize ==> ShrinkInvariant(text, next, lineSpacing, maxHeight, n))
      && Shrink(measure, text, fontsize, maxWidth, maxHeight, lineSpacing, minFontsize, prev)
         == if next <= minFontsize then minFontsize
            else Shrink(measure, text, next, maxWidth, maxHeight, lineSpacing, minFontsize, n)
  {
    var n := LineCount(measure, text, fontsize, maxWidth);
    ShrinkProgress(n, fontsize, lineSpacing, maxHeight, prev);
  }

  /** The size `reflow(text, font, initial_fs, max_width, max_height, line_spacing, min_fontsize)` returns. */
  function FittedSize(measure: Metric, text: string, initialFs: real, maxWidth: real, maxHeight: real,
                      lineSpacing: real, minFontsize: real): real
    requires maxHeight >= 0.0
  {
    Shrink(measure, text, initialFs, maxWidth, maxHeight, lineSpacing, minFontsize, -1)
  }

  /**
   * `reflow`: the `while True` loop. A negative `max_height` is excluded:
   * with no lines it divides by zero, and the caller passes a rectangle
   * height, which is never negative.
   */
  method Reflow(text: string, measure: Metric, initialFs: real, maxWidth: real, maxHeight: real,
                lineSpacing: real, minFontsize: real) returns (lines: seq<string>, fs: real)
    requires maxHeight >= 0.0
    ensures fs == FittedSize(measure, text, initialFs, maxWidth, maxHeight, lineSpacing, minFontsize)
    ensures lines == WrappedLines(measure, text, fs, maxWidth)
  {
    fs := initialFs;
    ghost var prev := -1;
    while true
      invariant ShrinkInvariant(text, fs, lineSpacing, maxHeight, prev)
      invariant Shrink(measure, text, fs, maxWidth, maxHeight, lineSpacing, minFontsize, prev)
             == FittedSize(measure, text, initialFs, maxWidth, maxHeight, lineSpacing, minFontsize)
      decreases |text| - prev
    {
      lines := WrapText(text, measure, fs, maxWidth);
      var totalH := TotalHeight(|lines|, fs, lineSpacing);
      assert |lines| == LineCount(measure, text, fs, maxWidth);
      if totalH <= maxHeight || fs <= minFontsize {
        ShrinkSettled(measure, text, fs, maxWidth, maxHeight, lineSpacing, minFontsize, prev);
        break;
      }
      ShrinkOnce(measure, text, fs, maxWidth, maxHeight, lineSpacing, minFontsize, prev);
      fs := Max(Scaled(|lines|, fs, lineSpacing, maxHeight), minFontsize);
      if fs <= minFontsize {
        fs := minFontsize;
        break;
      }
      prev := |lines|;
    }
    lines := WrapText(text, measure, fs, maxWidth);
  }

  /**
   * What `reflow` promises: the text fits `max_height` at the returned size
   * or that size is at the floor; the starting size is kept when the text
   * already fits at it or it is already at or below the floor; otherwise the
   * returned size lies between the floor and the starting size (strictly
   * below it when the spacing is positive).
   */
  lemma FittedSizeFacts(measure: Metric, text: string, initialFs: real, maxWidth: real, maxHeight: real,
                        lineSpacing: real, minFontsize: real)
    requires maxHeight >= 0.0
    ensures var fs := FittedSize(measure, text, initialFs, maxWidth, maxHeight, lineSpacing, minFontsize);
      && (TotalHeight(|WrappedLines(measure, text, fs, maxWidth)|, fs, lineSpacing) <= maxHeight || fs <= minFontsize)
      && (TotalHeight(|WrappedLines(measure, text, initialFs, maxWidth)|, initialFs, lineSpacing) <= maxHeight
          ==> fs == initialFs)
      && (initialFs <= minFontsize ==> fs == initialFs)
      && (fs == initialFs || (minFontsize <= fs && (lineSpacing > 0.0 ==> fs < initialFs)))
  {
  }

  // --------------------------------------------------- render_manual_page

  /** `fs * line_spacing`: the height of one line. */
  function LineHeight(fontsize: real, lineSpacing: real): real {
    fontsize * lineSpacing
  }

  /** `y0 + i * fs * line_spacing`: where line `i` of a block starts. */
  function LineY(rect: Rect, i: nat, fontsize: real, lineSpacing: real): real {
    rect.y0 + (i as real) * fontsize * lineSpacing
  }

  /**
   * The calls for line `i` of a block: in debug mode a frame one line high
   * and the box's width, then the line at `(x0, LineY)`.
   */
  function LineCalls(rect: Rect, i: nat, line: string, fontsize: real, lineSpacing: real, debug: bool): seq<Op> {
    var y := LineY(rect, i, fontsize, lineSpacing);
    (if debug then [DrawRect(Rect(rect.x0, y, rect.x0 + rect.Width(), y + LineHeight(fontsize, lineSpacing)))] else [])
    + [InsertText(rect.x0, y, line, fontsize)]
  }

  /** The calls `render_manual_page` makes for the lines of one block, in order. */
  function LineOps(rect: Rect, lines: seq<string>, fontsize: real, lineSpacing: real, debug: bool): seq<Op>
    decreases |lines|
  {
    if lines == [] then []
    else
      var i := |lines| - 1;
      LineOps(rect, lines[..i], fontsize, lineSpacing, debug) + LineCalls(rect, i, lines[i], fontsize, lineSpacing, debug)
  }

  /** Calls per line: the line, and in debug mode its frame first. */
  function CallsPerLine(debug: bool): nat {
    if debug then 2 else 1
  }

  /** Where the calls for line `i` start among a block's calls. */
  function FirstCall(i: nat, debug: bool): nat {
    if debug then 2 * i else i
  }

  /** The calls for one line draw that line and nothing else. */
  lemma LineCallsDraw(rect: Rect, i: nat, line: string, fontsize: real, lineSpacing: real, debug: bool)
    ensures |LineCalls(rect, i, line, fontsize, lineSpacing, debug)| == if debug then 2 else 1
    ensures DrawnTexts(LineCalls(rect, i, line, fontsize, lineSpacing, debug)) == [line]
  {
    var calls := LineCalls(rect, i, line, fontsize, lineSpacing, debug);
    if debug {
      assert calls[..1][..0] == [];
      assert calls[..|calls| - 1] == calls[..1];
    } else {
      assert calls[..0] == [];
    }
  }

  /** The calls for the lines of a block draw exactly those lines, one or two calls per line. */
  lemma {:induction false} LineOpsDraw(rect: Rect, lines: seq<string>, fontsize: real, lineSpacing: real, debug: bool)
    ensures var ops := LineOps(rect, lines, fontsize, lineSpacing, debug);
      && |ops| == (if debug then 2 * |lines| else |lines|)
      && DrawnTexts(ops) == lines
    decreases |lines|
  {
    if lines != [] {
      var n := |lines| - 1;
      var init := lines[..n];
      var prefix := LineOps(rect, init, fontsize, lineSpacing, debug);
      var tail := LineCalls(rect, n, lines[n], fontsize, lineSpacing, debug);
      assert LineOps(rect, lines, fontsize, lineSpacing, debug) == prefix + tail;
      assert |prefix| == (if debug then 2 * n else n) && DrawnTexts(prefix) == init by {
        LineOpsDraw(rect, init, fontsize, lineSpacing, debug);
      }
      assert |tail| == (if debug then 2 else 1) && DrawnTexts(tail) == [lines[n]] by {
        LineCallsDraw(rect, n, lines[n], fontsize, lineSpacing, debug);
      }
      DrawnTextsAppend(prefix, tail);
      assert lines == init + [lines[n]];
    }
  }

  /** The calls for line `i` of a block sit at `FirstCall` among the block's calls. */
  lemma {:induction false} LineOpsAt(rect: Rect, lines: seq<string>, fontsize: real, lineSpacing: real, debug: bool, i: nat)
    requires i < |lines|
    ensures var ops := LineOps(rect, lines, fontsize, lineSpacing, debug);
      var k := FirstCall(i, debug);
      && k + CallsPerLine(debug) <= |ops|
      && ops[k..k + CallsPerLine(debug)] == LineCalls(rect, i, lines[i], fontsize, lineSpacing, debug)
    decreases |lines|
  {
    var n := |lines| - 1;
    var init := lines[..n];
    var prefix := LineOps(rect, init, fontsize, lineSpacing, debug);
    var tail := LineCalls(rect, n, lines[n], fontsize, lineSpacing, debug);
    var c := CallsPerLine(debug);
    var k := FirstCall(i, debug);
    assert |prefix| == FirstCall(n, debug) && |tail| == c by {
      LineOpsDraw(rect, init, fontsize, lineSpacing, debug);
      LineCallsDraw(rect, n, lines[n], fontsize, lineSpacing, debug);
    }
    assert LineOps(rect, lines, fontsize, lineSpacing, debug) == prefix + tail;
    SliceOfAppend(prefix, tail, k, c);
    if i < n {
      LineOpsAt(rect, init, fontsize, lineSpacing, debug, i);
      assert init[i] == lines[i];
    }
  }

  /** A slice of `a + b` that lies within `a` is a slice of `a`; the slice just after `a` is `b`. */
  lemma SliceOfAppend<T>(a: seq<T>, b: seq<T>, k: nat, c: nat)
    ensures k + c <= |a| ==> (a + b)[k..k + c] == a[k..k + c]
    ensures k == |a| && c == |b| ==> (a + b)[k..k + c] == b
  {
  }

  /**
   * Line `i` of a block is drawn at `(x0, y0 + i * fs * line_spacing)` at
   * the fitted size, preceded in debug mode by a frame of the box's width
   * and one line's height.
   */
  lemma LineOpsPlacement(rect: Rect, lines: seq<string>, fontsize: real, lineSpacing: real, debug: bool)
    ensures var ops := LineOps(rect, lines, fontsize, lineSpacing, debug);
      forall i :: 0 <= i < |lines| ==>
        var y := LineY(rect, i, fontsize, lineSpacing);
        && FirstCall(i, debug) + CallsPerLine(debug) <= |ops|
        && ops[FirstCall(i, debug) + CallsPerLine(debug) - 1] == InsertText(rect.x0, y, lines[i], fontsize)
        && (debug ==> ops[2 * i] == DrawRect(Rect(rect.x0, y, rect.x0 + rect.Width(), y + LineHeight(fontsize, lineSpacing))))
  {
    var ops := LineOps(rect, lines, fontsize, lineSpacing, debug);
    forall i | 0 <= i < |lines|
      ensures FirstCall(i, debug) + CallsPerLine(debug) <= |ops|
      ensures ops[FirstCall(i, debug) + CallsPerLine(debug) - 1]
              == InsertText(rect.x0, LineY(rect, i, fontsize, lineSpacing), lines[i], fontsize)
      ensures debug ==> ops[2 * i] == DrawRect(Rect(rect.x0, LineY(rect, i, fontsize, lineSpacing), rect.x0 + rect.Width(),
                                                    LineY(rect, i, fontsize, lineSpacing) + LineHeight(fontsize, lineSpacing)))
    {
      LineOpsAt(rect, lines, fontsize, lineSpacing, debug, i);
      var k := FirstCall(i, debug);
      var calls := ops[k..k + CallsPerLine(debug)];
      assert ops[FirstCall(i, debug) + CallsPerLine(debug) - 1] == calls[CallsPerLine(debug) - 1];
      if debug {
        assert ops[2 * i] == calls[0];
      }
    }
  }

  /** The calls for one block and its translation: nothing for a blank translation. */
  function BlockOps(measure: Metric, blk: BlockInfo, txt: string, lineSpacing: real, minFontsize: real, debug: bool): seq<Op> {
    if Strip(txt) == [] then []
    else
      var rect := blk.bbox;
      var fs := FittedSize(measure, txt, InitialSize(blk.fontSize), rect.Width(), rect.Height(), lineSpacing, minFontsize);
      LineOps(rect, WrappedLines(measure, txt, fs, rect.Width()), fs, lineSpacing, debug)
  }

  /** The calls `render_manual_page` makes for the pairs of `zip(blocks, translations)`. */
  function PageOps(measure: Metric, pairs: seq<(BlockInfo, string)>, lineSpacing: real, minFontsize: real, debug: bool): seq<Op>
    decreases |pairs|, 2
  {
    if pairs == [] then [] else PageOpsOn(measure, pairs, lineSpacing, minFontsize, debug)
  }

  /**
   * The calls for a non-empty list of pairs. It only hands over to
   * `PageOpsAppend`: defined by three functions, the loop is seen by the
   * verifier, which unfolds a recursive definition at most twice in a row,
   * without the reflow of any block (`PageOpsLast` unfolds one block).
   */
  function PageOpsOn(measure: Metric, pairs: seq<(BlockInfo, string)>, lineSpacing: real, minFontsize: real, debug: bool): seq<Op>
    requires pairs != []
    decreases |pairs|, 1
  {
    PageOpsAppend(measure, pairs, lineSpacing, minFontsize, debug)
  }

  /** The calls for all pairs but the last, then the last block's calls. */
  function PageOpsAppend(measure: Metric, pairs: seq<(BlockInfo, string)>, lineSpacing: real, minFontsize: real, debug: bool): seq<Op>
    requires pairs != []
    decreases |pairs|, 0
  {
    var last := pairs[|pairs| - 1];
    PageOps(measure, pairs[..|pairs| - 1], lineSpacing, minFontsize, debug)
    + BlockOps(measure, last.0, last.1, lineSpacing, minFontsize, debug)
  }

  /** One more pair adds that block's calls. */
  lemma PageOpsLast(measure: Metric, pairs: seq<(BlockInfo, string)>, k: nat, lineSpacing: real, minFontsize: real, debug: bool)
    requires k < |pairs|
    ensures PageOps(measure, pairs[..k + 1], lineSpacing, minFontsize, debug)
         == PageOps(measure, pairs[..k], lineSpacing, minFontsize, debug)
            + BlockOps(measure, pairs[k].0, pairs[k].1, lineSpacing, minFontsize, debug)
  {
    assert pairs[..k + 1][..k] == pairs[..k];
    assert PageOps(measure, pairs[..k + 1], lineSpacing, minFontsize, debug)
        == PageOpsAppend(measure, pairs[..k + 1], lineSpacing, minFontsize, debug);
  }

  /** The inner loop of `render_manual_page`: the calls for the lines of one block, in order. */
  method PlaceLines(rect: Rect, lines: seq<string>, fs: real, lineSpacing: real, debug: bool) returns (ops: seq<Op>)
    ensures ops == LineOps(rect, lines, fs, lineSpacing, debug)
  {
    ops := [];
    var x0 := rect.x0;
    var i := 0;
    while i < |lines|
      invariant 0 <= i <= |lines|
      invariant ops == LineOps(rect, lines[..i], fs, lineSpacing, debug)
    {
      ghost var drawn := ops;
      var y := LineY(rect, i, fs, lineSpacing);
      if debug {
        ops := ops + [DrawRect(Rect(x0, y, x0 + rect.Width(), y + LineHeight(fs, lineSpacing)))];
      }
      ops := ops + [InsertText(x0, y, lines[i], fs)];
      assert ops == drawn + LineCalls(rect, i, lines[i], fs, lineSpacing, debug) by {
        if debug {
          SeqAssoc(drawn, [DrawRect(Rect(x0, y, x0 + rect.Width(), y + LineHeight(fs, lineSpacing)))],
                      [InsertText(x0, y, lines[i], fs)]);
        }
      }
      assert lines[..i + 1][..i] == lines[..i];
      i := i + 1;
    }
    assert lines[..i] == lines;
  }

  /** The body of `render_manual_page`'s loop for one block and its translation. */
  method RenderBlock(measure: Metric, blk: BlockInfo, txt: string, lineSpacing: real, minFontsize: real, debug: bool)
    returns (calls: seq<Op>)
    ensures calls == BlockOps(measure, blk, txt, lineSpacing, minFontsize, debug)
  {
    calls := [];
    if Strip(txt) != [] {
      var rect := blk.bbox;
      var initFs := InitialSize(blk.fontSize);
      var lines, fs := Reflow(txt, measure, initFs, rect.Width(), rect.Height(), lineSpacing, minFontsize);
      calls := PlaceLines(rect, lines, fs, lineSpacing, debug);
    }
  }

  /** `render_manual_page`: one reflow per non-blank translation, one call (two in debug mode) per line. */
  method RenderManualPage(measure: Metric, blocks: seq<BlockInfo>, translations: seq<string>,
                          lineSpacing: real, minFontsize: real, debug: bool) returns (ops: seq<Op>)
    ensures ops == PageOps(measure, Zip(blocks, translations), lineSpacing, minFontsize, debug)
  {
    var pairs := Zip(blocks, translations);
    ops := [];
    var k := 0;
    while k < |pairs|
      invariant 0 <= k <= |pairs|
      invariant ops == PageOps(measure, pairs[..k], lineSpacing, minFontsize, debug)
    {
      var calls := RenderPair(measure, pairs, k, lineSpacing, minFontsize, debug);
      ops := ops + calls;
      k := k + 1;
    }
    assert pairs[..k] == pairs;
  }

  /** One round of `render_manual_page`'s loop: the calls for the `k`-th pair. */
  method RenderPair(measure: Metric, pairs: seq<(BlockInfo, string)>, k: nat, lineSpacing: real, minFontsize: real, debug: bool)
    returns (calls: seq<Op>)
    requires k < |pairs|
    ensures PageOps(measure, pairs[..k + 1], lineSpacing, minFontsize, debug)
         == PageOps(measure, pairs[..k], lineSpacing, minFontsize, debug) + calls
  {
    calls := RenderBlock(measure, pairs[k].0, pairs[k].1, lineSpacing, minFontsize, debug);
    PageOpsLast(measure, pairs, k, lineSpacing, minFontsize, debug);
  }

  /**
   * A block's calls draw its translation's lines as wrapped at the fitted
   * size, and so every non-whitespace character of the translation, in
   * order; a blank translation draws nothing.
   */
  lemma BlockOpsDrawTranslation(measure: Metric, blk: BlockInfo, txt: string, lineSpacing: real,
                                minFontsize: real, debug: bool)
    ensures var ops := BlockOps(measure, blk, txt, lineSpacing, minFontsize, debug);
      && NonSpace(Concat(DrawnTexts(ops))) == NonSpace(txt)
      && (Strip(txt) == [] ==> ops == [])
  {
    WordsStrip(txt);
    WordsKeepText(txt);
    if Strip(txt) != [] {
      var rect := blk.bbox;
      var fs := FittedSize(measure, txt, InitialSize(blk.fontSize), rect.Width(), rect.Height(), lineSpacing, minFontsize);
      var lines := WrappedLines(measure, txt, fs, rect.Width());
      LineOpsDraw(rect, lines, fs, lineSpacing, debug);
      WrappedLinesFacts(measure, txt, fs, rect.Width());
    }
  }

  /**
   * A page draws every non-whitespace character of its translations, in
   * order, and nothing else; a blank translation adds nothing.
   */
  lemma {:induction false} PageOpsDrawTranslations(measure: Metric, pairs: seq<(BlockInfo, string)>, lineSpacing: real,
                                                    minFontsize: real, debug: bool)
    ensures NonSpace(Concat(DrawnTexts(PageOps(measure, pairs, lineSpacing, minFontsize, debug))))
         == NonSpace(Concat(Translations(pairs)))
    decreases |pairs|
  {
    if pairs != [] {
      var n := |pairs| - 1;
      var init := pairs[..n];
      var (blk, txt) := pairs[n];
      var prev := PageOps(measure, init, lineSpacing, minFontsize, debug);
      var ops := BlockOps(measure, blk, txt, lineSpacing, minFontsize, debug);
      PageOpsLast(measure, pairs, n, lineSpacing, minFontsize, debug);
      assert pairs[..n + 1] == pairs;
      PageOpsDrawTranslations(measure, init, lineSpacing, minFontsize, debug);
      BlockOpsDrawTranslation(measure, blk, txt, lineSpacing, minFontsize, debug);
      DrawnTextsAppend(prev, ops);
      ConcatAppend(DrawnTexts(prev), DrawnTexts(ops));
      NonSpaceAppend(Concat(DrawnTexts(prev)), Concat(DrawnTexts(ops)));
      assert Concat(Translations(pairs)) == Concat(Translations(init)) + txt;
      NonSpaceAppend(Concat(Translations(init)), txt);
    }
  }

  // ------------------------------------------- helpers of build_pdf_manual

  /** `blk.block_type == 0 and (not blk.text.strip() or "·" in blk.text)` */
  predicate NeedsFallback(blk: BlockInfo) {
    blk.blockType == 0 && (Strip(blk.text) == [] || '·' in blk.text)
  }

  /**
   * A text block falls back to the second extractor exactly when its text
   * has no words or shows the interpunct artifact; image blocks never do.
   */
  lemma NeedsFallbackIff(blk: BlockInfo)
    ensures NeedsFallback(blk) <==> blk.blockType == 0 && (Words(blk.text) == [] || '·' in blk.text)
  {
    WordsStrip(blk.text);
  }

  /**
   * The crop box in the second extractor's top-left coordinates:
   * `top = h - y1`, `bottom = h - y0`.
   */
  function FlipY(bbox: Rect, pageHeight: real): (r: Rect)
    ensures r.x0 == bbox.x0 && r.x1 == bbox.x1
    ensures r.y1 - r.y0 == bbox.y1 - bbox.y0
    ensures r.Height() == bbox.Height()
  {
    Rect(bbox.x0, pageHeight - bbox.y1, bbox.x1, pageHeight - bbox.y0)
  }

  /** Flipping twice against the same page height gives the box back. */
  lemma FlipYTwice(bbox: Rect, pageHeight: real)
    ensures FlipY(FlipY(bbox, pageHeight), pageHeight) == bbox
  {
  }

  /** Length of the leading whitespace run of `s`. */
  function SpaceRun(s: string): (n: nat)
    ensures n <= |s| && AllSpace(s[..n]) && (n < |s| ==> !IsSpace(s[n]))
    decreases |s|
  {
    if s == [] || !IsSpace(s[0]) then 0
    else
      var n := 1 + SpaceRun(s[1..]);
      assert s[..n] == [s[0]] + s[1..][..n - 1];
      n
  }

  /**
   * `re.sub(r"-(\s*\n\s*)", "", s)`: a hyphen followed by a whitespace run
   * holding a newline is deleted together with the whole run (the first
   * `\s*` backtracks to the run's last newline, the second takes the rest);
   * matches are found left to right and do not overlap.
   */
  function Dehyphenate(s: string): (r: string)
    ensures |r| <= |s|
    decreases |s|
  {
    if s == [] then []
    else
      var n := SpaceRun(s[1..]);
      if s[0] == '-' && '\n' in s[1..1 + n] then Dehyphenate(s[1 + n..])
      else [s[0]] + Dehyphenate(s[1..])
  }

  /** Text with no hyphen comes back unchanged. */
  lemma {:induction false} DehyphenateNoHyphen(s: string)
    requires '-' !in s
    ensures Dehyphenate(s) == s
    decreases |s|
  {
    if s != [] {
      assert '-' !in s[1..];
      DehyphenateNoHyphen(s[1..]);
    }
  }

  /** A hyphen, then whitespace holding a newline: the whole stretch holds no letter. */
  lemma LettersOfBreak(s: string, n: nat)
    requires s != [] && s[0] == '-' && n == SpaceRun(s[1..])
    ensures Letters(s) == Letters(s[1 + n..])
  {
    assert Letters(s) == Letters(s[1..]);
    LettersOfSpace(s[1..], n);
    assert s[1..][n..] == s[1 + n..];
  }

  /** De-hyphenation deletes only hyphens and whitespace: every other character survives, in order. */
  lemma {:induction false} DehyphenateKeepsLetters(s: string)
    ensures Letters(Dehyphenate(s)) == Letters(s)
    decreases |s|, 1
  {
    if s != [] {
      var n := SpaceRun(s[1..]);
      if s[0] == '-' && '\n' in s[1..1 + n] {
        DroppedKeepsLetters(s);
      } else {
        KeptKeepsLetters(s);
      }
    }
  }

  /** The case of `DehyphenateKeepsLetters` where a match at the start is deleted. */
  lemma {:induction false} DroppedKeepsLetters(s: string)
    requires s != [] && s[0] == '-' && '\n' in s[1..1 + SpaceRun(s[1..])]
    ensures Letters(Dehyphenate(s)) == Letters(s)
    decreases |s|, 0
  {
    var n := SpaceRun(s[1..]);
    var t := s[1 + n..];
    assert Dehyphenate(s) == Dehyphenate(t) by { DehyphenateDropped(s); }
    assert Letters(Dehyphenate(t)) == Letters(t) by { DehyphenateKeepsLetters(t); }
    assert Letters(s) == Letters(t) by { LettersOfBreak(s, n); }
  }

  /** The case of `DehyphenateKeepsLetters` where the first character is kept. */
  lemma {:induction false} KeptKeepsLetters(s: string)
    requires s != [] && !(s[0] == '-' && '\n' in s[1..1 + SpaceRun(s[1..])])
    ensures Letters(Dehyphenate(s)) == Letters(s)
    decreases |s|, 0
  {
    DehyphenateKept(s);
    DehyphenateKeepsLetters(s[1..]);
    LettersCons(s[0], Dehyphenate(s[1..]));
  }

  /**
   * No match of `-\s*\n\s*` is left in `s`: no hyphen of `s` is followed by
   * a whitespace run that holds a newline.
   */
  predicate NoBreak(s: string)
    decreases |s|
  {
    s == [] || ((s[0] == '-' ==> '\n' !in s[1..1 + SpaceRun(s[1..])]) && NoBreak(s[1..]))
  }

  /** The leading whitespace run of `w + x` is exactly `w` when `x` does not start with whitespace. */
  lemma {:induction false} SpaceRunAppend(w: string, x: string)
    requires AllSpace(w) && (x == [] || !IsSpace(x[0]))
    ensures SpaceRun(w + x) == |w|
    decreases |w|
  {
    if w == [] {
      assert w + x == x;
    } else {
      assert (w + x)[1..] == w[1..] + x;
      SpaceRunAppend(w[1..], x);
    }
  }

  /** A hyphen, then a whitespace run holding a newline, is deleted together with the run. */
  lemma DehyphenateBreak(w: string, b: string)
    requires AllSpace(w) && '\n' in w && (b == [] || !IsSpace(b[0]))
    ensures Dehyphenate(['-'] + w + b) == Dehyphenate(b)
  {
    var s := ['-'] + w + b;
    assert s[1..] == w + b;
    SpaceRunAppend(w, b);
    assert s[1..1 + |w|] == w;
    assert s[1 + |w|..] == b;
  }

  /** Leading whitespace is kept as it is. */
  lemma {:induction false} DehyphenateSpaces(t: string, n: nat)
    requires n <= |t| && AllSpace(t[..n])
    ensures Dehyphenate(t) == t[..n] + Dehyphenate(t[n..])
    decreases n
  {
    if n == 0 {
      assert t[n..] == t && t[..n] == [];
    } else {
      var rest := Dehyphenate(t[n..]);
      assert Dehyphenate(t) == [t[0]] + Dehyphenate(t[1..]) by {
        assert IsSpace(t[..n][0]) && t[0] != '-';
        DehyphenateKept(t);
      }
      assert Dehyphenate(t[1..]) == t[1..n] + rest by {
        assert t[1..][..n - 1] == t[1..n];
        assert t[1..][n - 1..] == t[n..];
        DehyphenateSpaces(t[1..], n - 1);
      }
      ConsPrefix(t, n, rest);
    }
  }

  lemma ConsPrefix(t: string, n: nat, a: string)
    requires 0 < n <= |t|
    ensures [t[0]] + (t[1..n] + a) == t[..n] + a
  {
    assert t[..n] == [t[0]] + t[1..n];
  }

  /** A first character that does not start a match is kept. */
  lemma DehyphenateKept(s: string)
    requires s != [] && !(s[0] == '-' && '\n' in s[1..1 + SpaceRun(s[1..])])
    ensures Dehyphenate(s) == [s[0]] + Dehyphenate(s[1..])
  {
  }

  /** A match at the start is deleted, the hyphen with its whole whitespace run. */
  lemma DehyphenateDropped(s: string)
    requires s != [] && s[0] == '-' && '\n' in s[1..1 + SpaceRun(s[1..])]
    ensures Dehyphenate(s) == Dehyphenate(s[1 + SpaceRun(s[1..])..])
  {
  }

  /** Text that does not start with whitespace still does not after de-hyphenation. */
  lemma {:induction false} DehyphenateHead(u: string)
    requires u == [] || !IsSpace(u[0])
    ensures Dehyphenate(u) == [] || !IsSpace(Dehyphenate(u)[0])
    decreases |u|
  {
    if u != [] {
      var n := SpaceRun(u[1..]);
      if u[0] == '-' && '\n' in u[1..1 + n] {
        assert u[1 + n..] == u[1..][n..];
        DehyphenateHead(u[1 + n..]);
      }
    }
  }

  /** De-hyphenation keeps the leading whitespace run, neither longer nor shorter. */
  lemma DehyphenateKeepsSpaceRun(t: string)
    ensures var r := Dehyphenate(t); r[..SpaceRun(r)] == t[..SpaceRun(t)]
  {
    var n := SpaceRun(t);
    DehyphenateSpaces(t, n);
    DehyphenateHead(t[n..]);
    var r := Dehyphenate(t);
    SpaceRunAppend(t[..n], Dehyphenate(t[n..]));
    assert r[..n] == t[..n];
  }

  /** A character in front of text with no match adds none, unless it is a hyphen before a newline. */
  lemma NoBreakCons(c: char, r: string)
    requires NoBreak(r) && (c == '-' ==> '\n' !in r[..SpaceRun(r)])
    ensures NoBreak([c] + r)
  {
    assert ([c] + r)[1..] == r;
  }

  /** No match is left: the result holds no hyphen followed by whitespace with a newline. */
  lemma {:induction false} DehyphenateLeavesNoBreak(s: string)
    ensures NoBreak(Dehyphenate(s))
    decreases |s|
  {
    if s != [] {
      var n := SpaceRun(s[1..]);
      if s[0] == '-' && '\n' in s[1..1 + n] {
        assert Dehyphenate(s) == Dehyphenate(s[1 + n..]) by { DehyphenateDropped(s); }
        DehyphenateLeavesNoBreak(s[1 + n..]);
      } else {
        var t := s[1..];
        assert Dehyphenate(s) == [s[0]] + Dehyphenate(t) by { DehyphenateKept(s); }
        assert NoBreak([s[0]] + Dehyphenate(t)) by {
          DehyphenateLeavesNoBreak(t);
          DehyphenateKeepsSpaceRun(t);
          assert s[1..1 + n] == t[..n];
          NoBreakCons(s[0], Dehyphenate(t));
        }
      }
    }
  }

  /** Text with no match comes back unchanged. */
  lemma {:induction false} NoBreakUnchanged(s: string)
    requires NoBreak(s)
    ensures Dehyphenate(s) == s
    decreases |s|
  {
    if s != [] {
      NoBreakUnchanged(s[1..]);
    }
  }

  /** De-hyphenating twice is de-hyphenating once. */
  lemma DehyphenateIdempotent(s: string)
    ensures Dehyphenate(Dehyphenate(s)) == Dehyphenate(s)
  {
    DehyphenateLeavesNoBreak(s);
    NoBreakUnchanged(Dehyphenate(s));
  }
}

=== FILE: measure.dfy ===
/**
 * Text measurement and the character-splitting loop that both wrappers use
 * for a word too wide for the box.
 *
 * `fitz.Font.text_length(s, fontsize)` belongs to PyMuPDF and is a
 * parameter here: a `Metric` maps a string and a size to a width, so every
 * property proved holds for any font.
 */
module Measure {
  import opened PyStr

  /** `font.text_length(s, fontsize)` of one font. */
  type Metric = (string, real) -> real

  /** The test both wrappers apply: `text_length(s, fontsize) <= max_width`. */
  predicate Fits(measure: Metric, s: string, fontsize: real, maxWidth: real) {
    measure(s, fontsize) <= maxWidth
  }

  /** Fits the width, or is one character (which no split can make narrower). */
  predicate FitsOrChar(measure: Metric, s: string, fontsize: real, maxWidth: real) {
    Fits(measure, s, fontsize, maxWidth) || |s| == 1
  }

  // ------------------------------------------------------ shared by both wrappers

  /** The state of a greedy word-wrapping loop: the lines emitted and the open line `curr`. */
  datatype WrapState = WrapState(lines: seq<string>, curr: string)

  /** The lines of a finished state: the open line is emitted when it is not empty. */
  function Finish(st: WrapState): seq<string> {
    if st.curr != [] then st.lines + [st.curr] else st.lines
  }

  /** `len(lines) * fs * line_spacing` */
  function TotalHeight(n: nat, fontsize: real, lineSpacing: real): real {
    (n as real) * fontsize * lineSpacing
  }

  /** `max(a, b)` */
  function Max(a: real, b: real): (m: real)
    ensures m >= a && m >= b && (m == a || m == b)
  {
    if b > a then b else a
  }

  // ------------------------------------------------------ character split

  /** The state of the character-splitting loop: fragments emitted so far, and the open fragment. */
  datatype CharSplitState = CharSplitState(done: seq<string>, frag: string)

  /**
   * One character of the splitting loop: a character that still fits
   * extends the open fragment; otherwise the open fragment (if any) is
   * emitted and the character starts a new one.
   */
  function CharStep(measure: Metric, fontsize: real, maxWidth: real, st: CharSplitState, ch: char): CharSplitState {
    if Fits(measure, st.frag + [ch], fontsize, maxWidth) then CharSplitState(st.done, st.frag + [ch])
    else if st.frag != [] then CharSplitState(st.done + [st.frag], [ch])
    else CharSplitState(st.done, [ch])
  }

  /** The character-splitting loop after reading `w`. */
  function CharSplit(measure: Metric, fontsize: real, maxWidth: real, w: string): CharSplitState
    decreases |w|
  {
    if w == [] then CharSplitState([], [])
    else CharStep(measure, fontsize, maxWidth, CharSplit(measure, fontsize, maxWidth, w[..|w| - 1]), w[|w| - 1])
  }

  /**
   * The fragments and the open fragment spell the word; every fragment,
   * and the open fragment of a non-empty word, is non-empty and fits the
   * width or is one character; and there are no more of them than
   * characters.
   */
  lemma {:induction false} CharSplitFacts(measure: Metric, fontsize: real, maxWidth: real, w: string)
    ensures var r := CharSplit(measure, fontsize, maxWidth, w);
      && Concat(r.done) + r.frag == w
      && (forall i :: 0 <= i < |r.done| ==> r.done[i] != [] && FitsOrChar(measure, r.done[i], fontsize, maxWidth))
      && (w != [] ==> r.frag != [] && FitsOrChar(measure, r.frag, fontsize, maxWidth))
      && |r.done| + (if r.frag != [] then 1 else 0) <= |w|
  {
    CharSplitSpells(measure, fontsize, maxWidth, w);
    CharSplitShape(measure, fontsize, maxWidth, w);
    CharSplitCount(measure, fontsize, maxWidth, w);
  }

  /** A non-empty sequence is its prefix with the last element appended. */
  lemma SplitLast<T>(w: seq<T>)
    requires w != []
    ensures w == w[..|w| - 1] + [w[|w| - 1]]
  {
  }

  lemma {:induction false} CharSplitSpells(measure: Metric, fontsize: real, maxWidth: real, w: string)
    ensures var r := CharSplit(measure, fontsize, maxWidth, w); Concat(r.done) + r.frag == w
    decreases |w|
  {
    if w != [] {
      var prev, ch := CharSplit(measure, fontsize, maxWidth, w[..|w| - 1]), w[|w| - 1];
      var r := CharSplit(measure, fontsize, maxWidth, w);
      assert r == CharStep(measure, fontsize, maxWidth, prev, ch);
      CharSplitSpells(measure, fontsize, maxWidth, w[..|w| - 1]);
      CharStepSpells(measure, fontsize, maxWidth, prev, ch);
      calc {
        Concat(r.done) + r.frag;
        (Concat(prev.done) + prev.frag) + [ch];
        w[..|w| - 1] + [ch];
        { SplitLast(w); }
        w;
      }
    }
  }

  lemma {:induction false} CharSplitShape(measure: Metric, fontsize: real, maxWidth: real, w: string)
    ensures var r := CharSplit(measure, fontsize, maxWidth, w);
      && (forall i :: 0 <= i < |r.done| ==> r.done[i] != [] && FitsOrChar(measure, r.done[i], fontsize, maxWidth))
      && (r.frag == [] || FitsOrChar(measure, r.frag, fontsize, maxWidth))
      && (w != [] ==> r.frag != [])
    decreases |w|
  {
    if w != [] {
      var prev, ch := CharSplit(measure, fontsize, maxWidth, w[..|w| - 1]), w[|w| - 1];
      CharSplitShape(measure, fontsize, maxWidth, w[..|w| - 1]);
      CharStepShape(measure, fontsize, maxWidth, prev, ch);
    }
  }

  lemma {:induction false} CharSplitCount(measure: Metric, fontsize: real, maxWidth: real, w: string)
    ensures var r := CharSplit(measure, fontsize, maxWidth, w);
      |r.done| + (if r.frag != [] then 1 else 0) <= |w|
    decreases |w|
  {
    if w != [] {
      var prev, ch := CharSplit(measure, fontsize, maxWidth, w[..|w| - 1]), w[|w| - 1];
      CharSplitCount(measure, fontsize, maxWidth, w[..|w| - 1]);
      CharStepCount(measure, fontsize, maxWidth, prev, ch);
    }
  }

  /** A step spells one more character. */
  lemma CharStepSpells(measure: Metric, fontsize: real, maxWidth: real, prev: CharSplitState, ch: char)
    ensures var r := CharStep(measure, fontsize, maxWidth, prev, ch);
      Concat(r.done) + r.frag == Concat(prev.done) + prev.frag + [ch]
  {
    if !Fits(measure, prev.frag + [ch], fontsize, maxWidth) && prev.frag != [] {
      assert (prev.done + [prev.frag])[..|prev.done|] == prev.done;
    }
  }

  /** A step keeps every fragment non-empty and fitting or one character, and leaves a non-empty open fragment. */
  lemma CharStepShape(measure: Metric, fontsize: real, maxWidth: real, prev: CharSplitState, ch: char)
    requires forall i :: 0 <= i < |prev.done| ==> prev.done[i] != [] && FitsOrChar(measure, prev.done[i], fontsize, maxWidth)
    requires prev.frag == [] || FitsOrChar(measure, prev.frag, fontsize, maxWidth)
    ensures var r := CharStep(measure, fontsize, maxWidth, prev, ch);
      && (forall i :: 0 <= i < |r.done| ==> r.done[i] != [] && FitsOrChar(measure, r.done[i], fontsize, maxWidth))
      && r.frag != [] && FitsOrChar(measure, r.frag, fontsize, maxWidth)
  {
  }

  /** A step adds at most one fragment, counting the open one. */
  lemma CharStepCount(measure: Metric, fontsize: real, maxWidth: real, prev: CharSplitState, ch: char)
    ensures var r := CharStep(measure, fontsize, maxWidth, prev, ch);
      |r.done| + (if r.frag != [] then 1 else 0) <= |prev.done| + (if prev.frag != [] then 1 else 0) + 1
  {
  }

  /** Reading one more character is one step. */
  lemma CharSplitLast(measure: Metric, fontsize: real, maxWidth: real, w: string, j: nat)
    requires j < |w|
    ensures CharSplit(measure, fontsize, maxWidth, w[..j + 1])
         == CharStep(measure, fontsize, maxWidth, CharSplit(measure, fontsize, maxWidth, w[..j]), w[j])
  {
    assert w[..j + 1][..j] == w[..j];
  }

  /**
   * The character-splitting loop itself, as both wrappers run it on a word
   * too wide for the box: the fragments it emits, and the open fragment it
   * leaves.
   */
  method SplitByChars(w: string, measure: Metric, fontsize: real, maxWidth: real) returns (pieces: seq<string>, part: string)
    ensures CharSplitState(pieces, part) == CharSplit(measure, fontsize, maxWidth, w)
  {
    pieces := [];
    part := "";
    var j := 0;
    while j < |w|
      invariant 0 <= j <= |w|
      invariant CharSplitState(pieces, part) == CharSplit(measure, fontsize, maxWidth, w[..j])
    {
      var ch := w[j];
      ghost var st := CharSplitState(pieces, part);
      if measure(part + [ch], fontsize) <= maxWidth {
        part := part + [ch];
      } else {
        if part != [] {
          pieces := pieces + [part];
        }
        part := [ch];
      }
      assert CharSplitState(pieces, part) == CharStep(measure, fontsize, maxWidth, st, ch);
      CharSplitLast(measure, fontsize, maxWidth, w, j);
      j := j + 1;
    }
    assert w[..j] == w;
  }
}

=== FILE: page.dfy ===
/**
 * What the renderers read from a page and what they draw on it: rectangles,
 * the `BlockInfo` records of the reflow path, and the drawing calls made on
 * the output page, recorded in order instead of performed.
 */
module Page {
  import opened Wrappers

  /** `fitz.Rect(x0, y0, x1, y1)` */
  datatype Rect = Rect(x0: real, y0: real, x1: real, y1: real) {

    /** `rect.width`, which PyMuPDF clamps at zero. */
    function Width(): (w: real)
      ensures w >= 0.0 && (x1 >= x0 ==> w == x1 - x0)
    {
      if x1 - x0 > 0.0 then x1 - x0 else 0.0
    }

    /** `rect.height`, which PyMuPDF clamps at zero. */
    function Height(): (h: real)
      ensures h >= 0.0 && (y1 >= y0 ==> h == y1 - y0)
    {
      if y1 - y0 > 0.0 then y1 - y0 else 0.0
    }
  }

  /**
   * One block of a page for the reflow path: its number, its type (0 text,
   * 1 image), its box, its text and its dominant font size, which may be
   * missing.
   */
  datatype BlockInfo = BlockInfo(blockNo: int, blockType: int, bbox: Rect, text: string, fontSize: Option<real>)

  /** A drawing call on the output page. */
  datatype Op =
    | DrawRect(rect: Rect)                                            // page.draw_rect
    | InsertText(x: real, y: real, text: string, fontsize: real)      // page.insert_text((x, y), text, fontsize=...)
    | InsertTextbox(rect: Rect, text: string, fontsize: real, fontname: string)  // page.insert_textbox
    | InsertImage(rect: Rect, xref: int)                              // page.insert_image of image `xref`

  /** The texts drawn by `insert_text`, in drawing order. */
  function DrawnTexts(ops: seq<Op>): (ts: seq<string>)
    ensures |ts| <= |ops|
  {
    if ops == [] then []
    else DrawnTexts(ops[..|ops| - 1]) + (if ops[|ops| - 1].InsertText? then [ops[|ops| - 1].text] else [])
  }

  /** The translations of `pairs`, in order. */
  function Translations(pairs: seq<(BlockInfo, string)>): seq<string>
    decreases |pairs|
  {
    if pairs == [] then [] else Translations(pairs[..|pairs| - 1]) + [pairs[|pairs| - 1].1]
  }

  lemma {:induction false} DrawnTextsAppend(a: seq<Op>, b: seq<Op>)
    ensures DrawnTexts(a + b) == DrawnTexts(a) + DrawnTexts(b)
    decreases |b|
  {
    if b == [] {
      assert a + b == a;
    } else {
      assert (a + b)[..|a + b| - 1] == a + b[..|b| - 1];
      DrawnTextsAppend(a, b[..|b| - 1]);
    }
  }

  /**
   * The size a block is first tried at: its own size when it is present and
   * positive, otherwise 12 (`blk.font_size if blk.font_size and
   * blk.font_size > 0 else 12`).
   */
  function InitialSize(fontSize: Option<real>): (fs: real)
    ensures fs > 0.0
    ensures fs == 12.0 || fontSize == Some(fs)
  {
    if fontSize.Some? && fontSize.value > 0.0 then fontSize.value else 12.0
  }

  /** `zip(xs, ys)`: pairs by position, as many as the shorter list has. */
  function Zip<X, Y>(xs: seq<X>, ys: seq<Y>): (r: seq<(X, Y)>)
    ensures |r| == if |xs| <= |ys| then |xs| else |ys|
    ensures forall i :: 0 <= i < |r| ==> r[i] == (xs[i], ys[i])
  {
    if xs == [] || ys == [] then [] else [(xs[0], ys[0])] + Zip(xs[1..], ys[1..])
  }
}

=== FILE: pystr.dfy ===
/**
 * The Python `str` operations the translator relies on, with their Python
 * meaning: `isspace`, `strip`, `split()` on whitespace, `split(sep)` on a
 * literal separator, `sep.join`, `replace` of one character and
 * `rstrip` of one character.
 */
module PyStr {
  import opened Wrappers

  /** `c.isspace()`: the characters that `split()` and `strip()` treat as whitespace. */
  predicate IsSpace(c: char) {
    c == ' ' || ('\t' <= c <= '\r') || ('\U{1C}' <= c <= '\U{1F}')
    || c == '\U{85}' || c == '\U{A0}' || c == '\U{1680}'
    || ('\U{2000}' <= c <= '\U{200A}') || c == '\U{2028}' || c == '\U{2029}'
    || c == '\U{202F}' || c == '\U{205F}' || c == '\U{3000}'
  }

  predicate NoSpace(s: string) {
    forall i :: 0 <= i < |s| ==> !IsSpace(s[i])
  }

  predicate AllSpace(s: string) {
    forall i :: 0 <= i < |s| ==> IsSpace(s[i])
  }

  // ---------------------------------------------------------------- strip

  function TrimStart(s: string): (r: string)
    ensures |r| <= |s| && r == s[|s| - |r|..]
    ensures r == [] || !IsSpace(r[0])
    ensures AllSpace(s[..|s| - |r|])
    decreases |s|
  {
    if s != [] && IsSpace(s[0]) then
      var r := TrimStart(s[1..]);
      assert s[..|s| - |r|] == [s[0]] + s[1..][..|s| - 1 - |r|];
      r
    else s
  }

  function TrimEnd(s: string): (r: string)
    ensures |r| <= |s| && r == s[..|r|]
    ensures r == [] || !IsSpace(r[|r| - 1])
    ensures AllSpace(s[|r|..])
    decreases |s|
  {
    if s != [] && IsSpace(s[|s| - 1]) then
      var r := TrimEnd(s[..|s| - 1]);
      assert s[|r|..] == s[..|s| - 1][|r|..] + [s[|s| - 1]];
      r
    else s
  }

  /** `s.strip()`: no whitespace at either end of the result. */
  function Strip(s: string): (r: string)
    ensures r == [] || (!IsSpace(r[0]) && !IsSpace(r[|r| - 1]))
  {
    TrimEnd(TrimStart(s))
  }

  // ------------------------------------------------------------- split()

  /** Length of the leading run of non-whitespace characters of `s`. */
  function RunLength(s: string): (n: nat)
    ensures n <= |s| && NoSpace(s[..n]) && (n < |s| ==> IsSpace(s[n]))
    decreases |s|
  {
    if s == [] || IsSpace(s[0]) then 0
    else
      var n := 1 + RunLength(s[1..]);
      assert s[..n] == [s[0]] + s[1..][..n - 1];
      n
  }

  /** `s.split()`: the maximal runs of non-whitespace characters, in order. */
  function Words(s: string): (ws: seq<string>)
    ensures forall i :: 0 <= i < |ws| ==> ws[i] != [] && NoSpace(ws[i])
    decreases |s|
  {
    if s == [] then []
    else if IsSpace(s[0]) then Words(s[1..])
    else
      var n := RunLength(s);
      [s[..n]] + Words(s[n..])
  }

  /** `split()` never cuts inside a run: a non-empty text without whitespace is one word. */
  lemma WordsOfRun(s: string)
    requires s != [] && NoSpace(s)
    ensures Words(s) == [s]
  {
    assert !IsSpace(s[0]);
    var n := RunLength(s);
    assert n == |s|;
    assert s[..n] == s && s[n..] == [];
  }

  /** Words as `split()` yields them: non-empty and free of whitespace. */
  predicate ProperWords(words: seq<string>) {
    forall i :: 0 <= i < |words| ==> words[i] != [] && NoSpace(words[i])
  }

  lemma ProperWordsPrefix(words: seq<string>, n: nat)
    requires ProperWords(words) && n <= |words|
    ensures ProperWords(words[..n])
  {
  }

  /** `"".join(xs)` */
  function Concat(xs: seq<string>): string {
    if xs == [] then [] else Concat(xs[..|xs| - 1]) + xs[|xs| - 1]
  }

  /** `s` with every whitespace character deleted. */
  function NonSpace(s: string): (r: string)
    ensures |r| <= |s|
  {
    if s == [] then []
    else (if IsSpace(s[0]) then [] else [s[0]]) + NonSpace(s[1..])
  }

  lemma {:induction false} ConcatAppend(xs: seq<string>, ys: seq<string>)
    ensures Concat(xs + ys) == Concat(xs) + Concat(ys)
    decreases |ys|
  {
    if ys == [] {
      assert xs + ys == xs;
    } else {
      var ys' := ys[..|ys| - 1];
      var zs := xs + ys;
      assert zs[..|zs| - 1] == xs + ys' && zs[|zs| - 1] == ys[|ys| - 1];
      ConcatAppend(xs, ys');
      calc {
        Concat(zs);
        Concat(xs + ys') + ys[|ys| - 1];
        (Concat(xs) + Concat(ys')) + ys[|ys| - 1];
        Concat(xs) + (Concat(ys') + ys[|ys| - 1]);
        Concat(xs) + Concat(ys);
      }
    }
  }

  lemma ConcatCons(x: string, ys: seq<string>)
    ensures Concat([x] + ys) == x + Concat(ys)
  {
    ConcatAppend([x], ys);
    assert [x][..0] == [];
  }

  lemma {:induction false} NonSpaceAppend(a: string, b: string)
    ensures NonSpace(a + b) == NonSpace(a) + NonSpace(b)
    decreases |a|
  {
    if a == [] {
      assert a + b == b;
    } else {
      var ab := a + b;
      var head := if IsSpace(a[0]) then [] else [a[0]];
      assert NonSpace(ab) == head + NonSpace(a[1..] + b) by {
        assert ab[0] == a[0] && ab[1..] == a[1..] + b;
      }
      assert NonSpace(a[1..] + b) == NonSpace(a[1..]) + NonSpace(b) by {
        NonSpaceAppend(a[1..], b);
      }
      SeqAssoc(head, NonSpace(a[1..]), NonSpace(b));
    }
  }

  lemma {:induction false} NonSpaceOfWord(w: string)
    requires NoSpace(w)
    ensures NonSpace(w) == w
    decreases |w|
  {
    if w != [] {
      NonSpaceOfWord(w[1..]);
    }
  }

  /** `split()` loses exactly the whitespace: its words, concatenated, are the non-whitespace characters of `s`. */
  lemma {:induction false} WordsKeepText(s: string)
    ensures Concat(Words(s)) == NonSpace(s)
    decreases |s|
  {
    if s == [] {
    } else if IsSpace(s[0]) {
      WordsKeepText(s[1..]);
    } else {
      var n := RunLength(s);
      assert Concat(Words(s)) == s[..n] + Concat(Words(s[n..])) by {
        ConcatCons(s[..n], Words(s[n..]));
      }
      assert Concat(Words(s[n..])) == NonSpace(s[n..]) by {
        WordsKeepText(s[n..]);
      }
      assert NonSpace(s) == s[..n] + NonSpace(s[n..]) by {
        assert s == s[..n] + s[n..];
        NonSpaceAppend(s[..n], s[n..]);
        NonSpaceOfWord(s[..n]);
      }
    }
  }

  lemma {:induction false} RunLengthAppend(a: string, b: string)
    requires b == [] || IsSpace(b[0])
    ensures RunLength(a + b) == RunLength(a)
    decreases |a|
  {
    if a == [] {
      assert a + b == b;
    } else if !IsSpace(a[0]) {
      assert (a + b)[1..] == a[1..] + b;
      RunLengthAppend(a[1..], b);
    }
  }

  lemma {:induction false} WordsOfSpace(s: string)
    requires AllSpace(s)
    ensures Words(s) == []
    decreases |s|
  {
    if s != [] {
      WordsOfSpace(s[1..]);
    }
  }

  /** Gluing two strings at a whitespace character adds their words. */
  lemma {:induction false} WordsAppend(a: string, b: string)
    requires b == [] || IsSpace(b[0])
    ensures Words(a + b) == Words(a) + Words(b)
    decreases |a|
  {
    if a == [] {
      assert a + b == b;
    } else if IsSpace(a[0]) {
      assert Words(a + b) == Words(a[1..] + b) by {
        assert (a + b)[1..] == a[1..] + b;
      }
      WordsAppend(a[1..], b);
    } else {
      var n := RunLength(a);
      var w, rest := [a[..n]], Words(a[n..]);
      assert Words(a + b) == w + Words(a[n..] + b) by {
        WordsAppendRun(a, b);
      }
      assert Words(a[n..] + b) == rest + Words(b) by {
        WordsAppend(a[n..], b);
      }
      assert Words(a) == w + rest;
      SeqAssoc(w, rest, Words(b));
    }
  }

  lemma SeqAssoc<T>(a: seq<T>, b: seq<T>, c: seq<T>)
    ensures a + (b + c) == a + b + c
  {
  }

  lemma WordsAppendRun(a: string, b: string)
    requires a != [] && !IsSpace(a[0]) && (b == [] || IsSpace(b[0]))
    ensures Words(a + b) == [a[..RunLength(a)]] + Words(a[RunLength(a)..] + b)
  {
    var n := RunLength(a);
    var ab := a + b;
    RunLengthAppend(a, b);
    assert ab[0] == a[0];
    assert ab[..n] == a[..n];
    assert ab[n..] == a[n..] + b;
  }

  /** Only the positions of whitespace and the non-whitespace characters decide `split()`. */
  lemma {:induction false} WordsSameShape(s: string, t: string)
    requires |s| == |t|
    requires forall i :: 0 <= i < |s| ==> IsSpace(s[i]) == IsSpace(t[i])
    requires forall i :: 0 <= i < |s| && !IsSpace(s[i]) ==> s[i] == t[i]
    ensures Words(s) == Words(t)
    decreases |s|
  {
    if s == [] {
    } else if IsSpace(s[0]) {
      WordsSameShape(s[1..], t[1..]);
    } else {
      var n := RunLength(s);
      RunLengthSameShape(s, t);
      assert s[..n] == t[..n];
      WordsSameShape(s[n..], t[n..]);
    }
  }

  lemma {:induction false} RunLengthSameShape(s: string, t: string)
    requires |s| == |t|
    requires forall i :: 0 <= i < |s| ==> IsSpace(s[i]) == IsSpace(t[i])
    ensures RunLength(s) == RunLength(t)
    decreases |s|
  {
    if s != [] && !IsSpace(s[0]) {
      RunLengthSameShape(s[1..], t[1..]);
    }
  }

  lemma {:induction false} WordsTrimStart(s: string)
    ensures Words(TrimStart(s)) == Words(s)
    decreases |s|
  {
    if s != [] && IsSpace(s[0]) {
      WordsTrimStart(s[1..]);
    }
  }

  lemma WordsTrimEnd(s: string)
    ensures Words(TrimEnd(s)) == Words(s)
  {
    var r := TrimEnd(s);
    var tail := s[|r|..];
    assert s == r + tail;
    WordsAppend(r, tail);
    WordsOfSpace(tail);
  }

  /** `strip()` keeps the words, and leaves nothing exactly when there are no words. */
  lemma WordsStrip(s: string)
    ensures Words(Strip(s)) == Words(s)
    ensures Strip(s) == [] <==> Words(s) == []
  {
    WordsTrimStart(s);
    WordsTrimEnd(TrimStart(s));
    var r := Strip(s);
    if r != [] {
      assert Words(r) != [] by {
        assert !IsSpace(r[0]);
        assert Words(r) == [r[..RunLength(r)]] + Words(r[RunLength(r)..]);
      }
    }
  }

  // ---------------------------------------------------------- letters

  /** The characters that are neither whitespace nor a hyphen, in order. */
  function Letters(s: string): (r: string)
    ensures |r| <= |s|
  {
    if s == [] then []
    else (if IsSpace(s[0]) || s[0] == '-' then [] else [s[0]]) + Letters(s[1..])
  }

  lemma {:induction false} LettersOfSpace(s: string, n: nat)
    requires n <= |s| && AllSpace(s[..n])
    ensures Letters(s) == Letters(s[n..])
    decreases n
  {
    if n > 0 {
      assert AllSpace(s[1..][..n - 1]) by {
        assert s[1..][..n - 1] == s[..n][1..];
      }
      LettersOfSpace(s[1..], n - 1);
      assert s[1..][n - 1..] == s[n..];
    }
  }

  /** A character kept in front of the rest. */
  lemma LettersCons(c: char, t: string)
    ensures Letters([c] + t) == (if IsSpace(c) || c == '-' then [] else [c]) + Letters(t)
  {
    assert ([c] + t)[1..] == t;
  }

  // ----------------------------------------------------------- split(sep)

  /** `sep` occurs in `s` starting at index `j`. */
  predicate OccursAt(s: string, sep: string, j: int) {
    0 <= j && j + |sep| <= |s| && s[j..j + |sep|] == sep
  }

  /** `sep in s` */
  predicate Contains(s: string, sep: string) {
    exists j | 0 <= j <= |s| :: OccursAt(s, sep, j)
  }

  /** `s.find(sep)`: the first occurrence of `sep`, if any. */
  function Find(s: string, sep: string): (r: Option<nat>)
    requires |sep| > 0
    ensures r.Some? ==> OccursAt(s, sep, r.value)
    ensures r.Some? ==> forall j :: 0 <= j < r.value ==> !OccursAt(s, sep, j)
    ensures r.None? <==> !Contains(s, sep)
    decreases |s|
  {
    if |s| < |sep| then None
    else if s[..|sep|] == sep then Some(0)
    else
      var r := Find(s[1..], sep);
      OccursShift(s, sep);
      assert !OccursAt(s, sep, 0);
      if r.None? then
        assert !Contains(s, sep) by {
          forall j | 1 <= j <= |s| ensures !OccursAt(s, sep, j) {
            assert !OccursAt(s[1..], sep, j - 1);
          }
        }
        None
      else
        Some(r.value + 1)
  }

  lemma OccursShift(s: string, sep: string)
    requires |s| > 0
    ensures forall j :: 1 <= j ==> (OccursAt(s, sep, j) <==> OccursAt(s[1..], sep, j - 1))
    ensures forall j :: 0 <= j ==> (OccursAt(s[1..], sep, j) <==> OccursAt(s, sep, j + 1))
  {
    forall j | 0 <= j ensures OccursAt(s[1..], sep, j) <==> OccursAt(s, sep, j + 1) {
      if j + |sep| <= |s| - 1 {
        assert s[1..][j..j + |sep|] == s[j + 1..j + 1 + |sep|];
      }
    }
  }

  /** The first occurrence is the one `Find` reports. */
  lemma FindFirst(s: string, sep: string, j: nat)
    requires |sep| > 0 && OccursAt(s, sep, j)
    requires forall k :: 0 <= k < j ==> !OccursAt(s, sep, k)
    ensures Find(s, sep) == Some(j)
  {
  }

  /** `s.split(sep)`: the pieces between the non-overlapping occurrences of `sep`, left to right. */
  function SplitOn(s: string, sep: string): (r: seq<string>)
    requires |sep| > 0
    ensures |r| >= 1
    decreases |s|
  {
    match Find(s, sep)
    case None => [s]
    case Some(i) => [s[..i]] + SplitOn(s[i + |sep|..], sep)
  }

  /** No piece of a split holds the separator. */
  lemma {:induction false} SplitOnPieces(s: string, sep: string)
    requires |sep| > 0
    ensures forall i :: 0 <= i < |SplitOn(s, sep)| ==> !Contains(SplitOn(s, sep)[i], sep)
    decreases |s|
  {
    match Find(s, sep)
    case None =>
    case Some(i) =>
      SplitOnFirst(s, sep, i);
      var tail := SplitOn(s[i + |sep|..], sep);
      SplitOnPieces(s[i + |sep|..], sep);
      NothingBeforeFirst(s, sep, i);
      forall k | 0 <= k < |SplitOn(s, sep)| ensures !Contains(SplitOn(s, sep)[k], sep) {
        if k > 0 {
          assert SplitOn(s, sep)[k] == tail[k - 1];
        }
      }
  }

  /** The text before the first occurrence holds none. */
  lemma NothingBeforeFirst(s: string, sep: string, i: nat)
    requires |sep| > 0 && Find(s, sep) == Some(i)
    ensures !Contains(s[..i], sep)
  {
    forall j | OccursAt(s[..i], sep, j) ensures false {
      assert s[..i][j..j + |sep|] == s[j..j + |sep|];
      assert OccursAt(s, sep, j);
    }
  }

  /** `sep.join(xs)` */
  function Join(xs: seq<string>, sep: string): string {
    if xs == [] then []
    else if |xs| == 1 then xs[0]
    else xs[0] + sep + Join(xs[1..], sep)
  }

  /** One step of `SplitOn`: the text before the first occurrence, then the split of the rest. */
  lemma SplitOnFirst(s: string, sep: string, i: nat)
    requires |sep| > 0 && Find(s, sep) == Some(i)
    ensures i + |sep| <= |s| && s[..i] + sep + s[i + |sep|..] == s
    ensures SplitOn(s, sep) == [s[..i]] + SplitOn(s[i + |sep|..], sep)
  {
    assert OccursAt(s, sep, i);
    SliceAround(s, i, i + |sep|);
  }

  lemma SliceAround(s: string, i: nat, j: nat)
    requires i <= j <= |s|
    ensures s[..i] + s[i..j] + s[j..] == s
  {
  }

  lemma JoinCons(x: string, xs: seq<string>, sep: string)
    requires xs != []
    ensures Join([x] + xs, sep) == x + sep + Join(xs, sep)
  {
    assert ([x] + xs)[1..] == xs;
  }

  /** Splitting and joining back gives the original text. */
  lemma {:induction false} JoinSplit(s: string, sep: string)
    requires |sep| > 0
    ensures Join(SplitOn(s, sep), sep) == s
    decreases |s|
  {
    match Find(s, sep)
    case None =>
    case Some(i) =>
      var rest := s[i + |sep|..];
      SplitOnFirst(s, sep, i);
      var tail := SplitOn(rest, sep);
      JoinSplit(rest, sep);
      JoinCons(s[..i], tail, sep);
  }

  /**
   * The pieces can be told apart after joining: no piece, followed by all
   * but the last character of `sep`, holds an occurrence of `sep`, and the
   * last piece holds none.
   */
  predicate Separable(xs: seq<string>, sep: string)
    requires |sep| > 0
  {
    forall i :: 0 <= i < |xs| ==>
      !Contains(if i < |xs| - 1 then xs[i] + sep[..|sep| - 1] else xs[i], sep)
  }

  lemma SeparableCons(xs: seq<string>, sep: string)
    requires |sep| > 0 && |xs| >= 2
    ensures Separable(xs, sep) <==>
      !Contains(xs[0] + sep[..|sep| - 1], sep) && Separable(xs[1..], sep)
  {
    var tail := xs[1..];
    forall i | 0 <= i < |tail|
      ensures (if i < |tail| - 1 then tail[i] + sep[..|sep| - 1] else tail[i])
           == (if i + 1 < |xs| - 1 then xs[i + 1] + sep[..|sep| - 1] else xs[i + 1])
    {
    }
    if Separable(xs[1..], sep) && !Contains(xs[0] + sep[..|sep| - 1], sep) {
      forall i | 0 <= i < |xs|
        ensures !Contains(if i < |xs| - 1 then xs[i] + sep[..|sep| - 1] else xs[i], sep)
      {
        if i > 0 {
          assert xs[i] == tail[i - 1];
        }
      }
    }
  }

  /** Occurrences of `sep` in `x + sep + rest` that start inside `x` are the occurrences in `x + sep[..|sep| - 1]`. */
  lemma OccursEarly(x: string, sep: string, rest: string, j: int)
    requires |sep| > 0 && 0 <= j < |x|
    ensures OccursAt(x + sep + rest, sep, j) <==> OccursAt(x + sep[..|sep| - 1], sep, j)
  {
    var s, head := x + sep + rest, x + sep[..|sep| - 1];
    if j + |sep| <= |head| {
      assert s[j..j + |sep|] == head[j..j + |sep|];
    }
  }

  lemma SplitAtFirst(x: string, sep: string, rest: string)
    requires |sep| > 0 && !Contains(x + sep[..|sep| - 1], sep)
    ensures SplitOn(x + sep + rest, sep) == [x] + SplitOn(rest, sep)
  {
    var s := x + sep + rest;
    forall j | 0 <= j < |x| ensures !OccursAt(s, sep, j) {
      OccursEarly(x, sep, rest, j);
    }
    assert s[|x|..|x| + |sep|] == sep;
    FindFirst(s, sep, |x|);
    assert s[..|x|] == x;
    assert s[|x| + |sep|..] == rest;
  }

  lemma SplitEarly(x: string, sep: string, rest: string)
    requires |sep| > 0 && Contains(x + sep[..|sep| - 1], sep)
    ensures SplitOn(x + sep + rest, sep)[0] != x
  {
    var s := x + sep + rest;
    var j :| 0 <= j <= |x + sep[..|sep| - 1]| && OccursAt(x + sep[..|sep| - 1], sep, j);
    OccursEarly(x, sep, rest, j);
    var r := Find(s, sep);
    assert r.Some? && r.value <= j;
    assert |SplitOn(s, sep)[0]| == r.value;
  }

  /**
   * Joining and splitting again gives back the list exactly when the
   * list is separable.
   */
  lemma {:induction false} SplitJoin(xs: seq<string>, sep: string)
    requires |sep| > 0 && |xs| >= 1
    ensures SplitOn(Join(xs, sep), sep) == xs <==> Separable(xs, sep)
    decreases |xs|
  {
    if |xs| == 1 {
      assert Join(xs, sep) == xs[0];
    } else {
      var x, tail := xs[0], xs[1..];
      var rest := Join(tail, sep);
      assert Join(xs, sep) == x + sep + rest;
      SeparableCons(xs, sep);
      SplitJoin(tail, sep);
      if !Contains(x + sep[..|sep| - 1], sep) {
        SplitAtFirst(x, sep, rest);
        assert xs == [x] + tail;
      } else {
        SplitEarly(x, sep, rest);
      }
    }
  }

  // ------------------------------------------------- replace and rstrip

  /** `s.replace(a, b)` for one-character `a` and `b`. */
  function ReplaceChar(s: string, a: char, b: char): (r: string)
    ensures |r| == |s|
    ensures forall i :: 0 <= i < |s| ==> r[i] == if s[i] == a then b else s[i]
  {
    if s == [] then [] else [if s[0] == a then b else s[0]] + ReplaceChar(s[1..], a, b)
  }

  /** `s.rstrip(c)`: the longest prefix of `s` not ending in `c`. */
  function RStrip(s: string, c: char): (r: string)
    ensures |r| <= |s| && r == s[..|r|]
    ensures r == [] || r[|r| - 1] != c
    ensures forall i :: |r| <= i < |s| ==> s[i] == c
    decreases |s|
  {
    if s != [] && s[|s| - 1] == c then RStrip(s[..|s| - 1], c) else s
  }

  /** `rstrip(c)` stops at the last character other than `c`. */
  lemma {:induction false} RStripAt(s: string, k: nat)
    requires k <= |s| && (k == 0 || s[k - 1] != '-')
    requires forall i :: k <= i < |s| ==> s[i] == '-'
    ensures RStrip(s, '-') == s[..k]
    decreases |s| - k
  {
    if |s| == k {
      assert s[..k] == s;
    } else {
      var init := s[..|s| - 1];
      RStripAt(init, k);
      assert init[..k] == s[..k];
    }
  }

  /** Letters of a concatenation are the letters of each part. */
  lemma {:induction false} LettersAppend(a: string, b: string)
    ensures Letters(a + b) == Letters(a) + Letters(b)
    decreases |a|
  {
    if a == [] {
      assert a + b == b;
    } else {
      var head := if IsSpace(a[0]) || a[0] == '-' then [] else [a[0]];
      assert Letters(a + b) == head + Letters(a[1..] + b) by {
        assert a + b == [a[0]] + (a[1..] + b);
        LettersCons(a[0], a[1..] + b);
      }
      assert Letters(a[1..] + b) == Letters(a[1..]) + Letters(b) by {
        LettersAppend(a[1..], b);
      }
      SeqAssoc(head, Letters(a[1..]), Letters(b));
    }
  }

  /** Deleting the whitespace first changes no letter. */
  lemma {:induction false} LettersNonSpace(s: string)
    ensures Letters(NonSpace(s)) == Letters(s)
    decreases |s|
  {
    if s != [] {
      LettersNonSpace(s[1..]);
      var head := if IsSpace(s[0]) then [] else [s[0]];
      LettersAppend(head, NonSpace(s[1..]));
    }
  }

  /** `rstrip('-')` removes no letter. */
  lemma LettersRStrip(s: string)
    ensures Letters(RStrip(s, '-')) == Letters(s)
  {
    var r := RStrip(s, '-');
    var tail := s[|r|..];
    assert s == r + tail;
    LettersAppend(r, tail);
    LettersOfHyphens(tail);
  }

  lemma {:induction false} LettersOfHyphens(s: string)
    requires forall i :: 0 <= i < |s| ==> s[i] == '-'
    ensures Letters(s) == []
    decreases |s|
  {
    if s != [] {
      LettersOfHyphens(s[1..]);
    }
  }

  // ------------------------------------------------- words of many strings

  /** `[w for p in ps for w in p.split()]` */
  function FlatWords(ps: seq<string>): seq<string> {
    if ps == [] then [] else FlatWords(ps[..|ps| - 1]) + Words(ps[|ps| - 1])
  }

  lemma {:induction false} FlatWordsAppend(a: seq<string>, b: seq<string>)
    ensures FlatWords(a + b) == FlatWords(a) + FlatWords(b)
    decreases |b|
  {
    if b == [] {
      assert a + b == a;
    } else {
      var init := b[..|b| - 1];
      var last := Words(b[|b| - 1]);
      assert FlatWords(a + b) == FlatWords(a + init) + last by {
        assert (a + b)[..|a + b| - 1] == a + init;
      }
      assert FlatWords(a + init) == FlatWords(a) + FlatWords(init) by {
        FlatWordsAppend(a, init);
      }
      SeqAssoc(FlatWords(a), FlatWords(init), last);
    }
  }

  /** Whitespace in front adds no word. */
  lemma {:induction false} WordsAfterSpace(sp: string, s: string)
    requires AllSpace(sp)
    ensures Words(sp + s) == Words(s)
    decreases |sp|
  {
    if sp == [] {
      assert sp + s == s;
    } else {
      assert (sp + s)[1..] == sp[1..] + s;
      WordsAfterSpace(sp[1..], s);
    }
  }

  /** Joining with a whitespace separator runs the words of the pieces together. */
  lemma {:induction false} WordsJoin(xs: seq<string>, sep: string)
    requires sep != [] && AllSpace(sep)
    ensures Words(Join(xs, sep)) == FlatWords(xs)
    decreases |xs|
  {
    if xs == [] {
    } else {
      var x, rest := xs[0], xs[1..];
      assert FlatWords([x]) == Words(x) by {
        assert [x][..0] == [];
      }
      assert FlatWords(xs) == Words(x) + FlatWords(rest) by {
        assert xs == [x] + rest;
        FlatWordsAppend([x], rest);
      }
      if |xs| > 1 {
        var joined := Join(rest, sep);
        assert Join(xs, sep) == x + (sep + joined) by {
          SeqAssoc(x, sep, joined);
        }
        WordsAppend(x, sep + joined);
        WordsAfterSpace(sep, joined);
        WordsJoin(rest, sep);
      } else {
        assert rest == [];
      }
    }
  }

  /** Turning newlines into spaces changes no word. */
  lemma WordsNewlineToSpace(s: string)
    ensures Words(ReplaceChar(s, '\n', ' ')) == Words(s)
  {
    WordsSameShape(s, ReplaceChar(s, '\n', ' '));
  }

  /** Every piece of a concatenation without whitespace is without whitespace. */
  lemma {:induction false} NoSpaceConcat(xs: seq<string>)
    requires NoSpace(Concat(xs))
    ensures forall i :: 0 <= i < |xs| ==> NoSpace(xs[i])
    decreases |xs|
  {
    if xs != [] {
      var init, last := xs[..|xs| - 1], xs[|xs| - 1];
      var a := Concat(init);
      assert Concat(xs) == a + last;
      assert NoSpace(a) by {
        forall i | 0 <= i < |a| ensures !IsSpace(a[i]) {
          assert a[i] == Concat(xs)[i];
        }
      }
      assert NoSpace(last) by {
        forall i | 0 <= i < |last| ensures !IsSpace(last[i]) {
          assert last[i] == Concat(xs)[|a| + i];
        }
      }
      NoSpaceConcat(init);
      forall i | 0 <= i < |xs| ensures NoSpace(xs[i]) {
        if i < |init| {
          assert xs[i] == init[i];
        }
      }
    }
  }

  /** A concatenation has no whitespace exactly when neither part has. */
  lemma NoSpaceAppend(a: string, b: string)
    ensures NoSpace(a + b) <==> NoSpace(a) && NoSpace(b)
  {
    var ab := a + b;
    if NoSpace(ab) {
      forall i | 0 <= i < |a| ensures !IsSpace(a[i]) {
        assert a[i] == ab[i];
      }
      forall i | 0 <= i < |b| ensures !IsSpace(b[i]) {
        assert b[i] == ab[|a| + i];
      }
    }
  }

  /** Every piece of a joined text without whitespace is without whitespace. */
  lemma {:induction false} NoSpaceJoin(xs: seq<string>, sep: string)
    requires NoSpace(Join(xs, sep))
    ensures forall i :: 0 <= i < |xs| ==> NoSpace(xs[i])
    decreases |xs|
  {
    if |xs| > 1 {
      var rest := xs[1..];
      assert Join(xs, sep) == xs[0] + (sep + Join(rest, sep)) by {
        SeqAssoc(xs[0], sep, Join(rest, sep));
      }
      NoSpaceAppend(xs[0], sep + Join(rest, sep));
      NoSpaceAppend(sep, Join(rest, sep));
      NoSpaceJoin(rest, sep);
      forall i | 1 <= i < |xs| ensures NoSpace(xs[i]) {
        assert xs[i] == rest[i - 1];
      }
    }
  }

  /** Joining with a separator that has no letters keeps the letters of the pieces, in order. */
  lemma {:induction false} LettersJoin(xs: seq<string>, sep: string)
    requires Letters(sep) == []
    ensures Letters(Join(xs, sep)) == Letters(Concat(xs))
    decreases |xs|
  {
    if xs == [] {
    } else {
      var x, rest := xs[0], xs[1..];
      assert Concat(xs) == x + Concat(rest) by {
        assert xs == [x] + rest;
        ConcatCons(x, rest);
      }
      assert Letters(Concat(xs)) == Letters(x) + Letters(Concat(rest)) by {
        LettersAppend(x, Concat(rest));
      }
      if |xs| > 1 {
        var joined := Join(rest, sep);
        assert Join(xs, sep) == x + (sep + joined) by {
          SeqAssoc(x, sep, joined);
        }
        assert Letters(x + (sep + joined)) == Letters(x) + Letters(sep + joined) by {
          LettersAppend(x, sep + joined);
        }
        assert Letters(sep + joined) == Letters(joined) by {
          LettersAppend(sep, joined);
        }
        assert Letters(joined) == Letters(Concat(rest)) by {
          LettersJoin(rest, sep);
        }
      } else {
        assert rest == [] && Concat(rest) == [];
        assert x + [] == x;
      }
    }
  }
}

=== FILE: wrappers.dfy ===
/** The optional value used where the source returns `None` or raises. */
module Wrappers {

  datatype Option<+T> = None | Some(value: T)
}
